=== FILE: README.md ===
# Machining-time engine in Dafny

This project models the calculation core of a machining-time and cost estimator. One
model covers each operation: turning, facing, boring, drilling, threading, knurling,
grooving, parting, reaming and milling. Every operation does the same four things:

- it validates a set of workpiece dimensions;
- it picks rough and finish cutting parameters from a parameter row;
- it counts passes or pecks with a ceiling;
- it turns distance over feed × speed into minutes, applies a safety multiplier,
  charges the minutes at an hourly rate, and appends advisory warnings in a fixed order.

The project also models the shared speed/feed/limit helpers of the operation base class,
the name-keyed dispatcher with its material-adjusted time, and the browser-side cost
roll-up (material, labour, machine, overhead and profit).

Layout: one module per source file, plus small shared modules.

- `Wrappers`: `Option` and `Result`.
- `Numeric`: ceiling, truncation, `max(1, ceil(stock/doc))` pass counts, half-even rounding.
- `Text`: ASCII lower-casing and stripping.
- `Inputs`: the dimension dictionary. A value is a number or a text; Python's `float()`,
  `get` and `or` are modelled on it.
- `Errors`: the exception kinds and their messages as data.
- `Params`: one database row of machining parameters as an immutable record, with the
  rule that prefers a row tagged for the phase.
- `Warnings`: the advisory messages. Each one has a fixed rank, so every list an
  operation returns is in source order.

Every quantity is a `real`. Two conventions stand in for Python control flow:

- A raised exception is an `Err` of `Result`.
- The `{'error': …}` dictionary that `calculate` returns instead of raising is the
  `Failed` case of `Report`. The `Done` case carries the estimate.

## Model

| member | source | states |
|---|---|---|
| Numeric.Ceil | models/turning.py:243 | the ceiling is the least integer not below its argument |
| Numeric.Trunc | models/threading.py:105 | `int()` truncates toward zero, for negative values as well |
| Numeric.PassCount | models/turning.py:243 | `max(1, ceil(stock/doc))` is at least one pass, and exactly one when the stock fits in one depth of cut |
| Numeric.PassPlan | models/turning.py:243-244 | equal passes remove exactly the stock, none is deeper than the depth of cut, and one pass fewer could not remove it |
| Numeric.PassCountMonotone | models/boring.py:156 | more stock never needs fewer passes |
| Numeric.QuotientAntitone | models/milling.py:46 | a faster rate never takes longer over the same distance |
| Numeric.RoundInt | models/drilling.py:110-113 | Python's `round` picks the nearest integer, and the even one on a tie |
| Numeric.RoundIntMonotone | models/drilling.py:110-113 | rounding preserves order |
| Numeric.RoundIntZero | models/drilling.py:110-113 | a value rounds to zero exactly when it lies within half a unit of zero |
| Numeric.Round | models/drilling.py:110-113 | rounding to a number of decimals is integer rounding at that scale |
| Text.LowerSpec | machining_calculator.py:55 | lower-casing keeps the length and lower-cases each character on its own |
| Text.LowerIdempotent | machining_calculator.py:55 | lower-casing twice is lower-casing once |
| Text.TrimLeftSpec | models/knurling.py:42 | left-stripping removes exactly the leading whitespace |
| Text.TrimRightSpec | models/knurling.py:42 | right-stripping removes exactly the trailing whitespace |
| Text.StripSpec | models/knurling.py:42 | a stripped note has no whitespace at either end, and stripping twice changes nothing |
| Warnings.EmitSpec | models/turning.py:294-318 | conditions checked in rank order give warnings in rank order, and each warning appears exactly when its condition holds |
| Params.SelectRow | models/facing.py:112-152 | no row is found only when there are no rows; a row tagged for the phase wins (the first such); otherwise the first row |
| Params.FirstTagged | models/facing.py:112-152 | the index found is the first row tagged for the phase, and none means no row is tagged |
| Params.PhaseInversion | models/facing.py:165-176 | on a row whose minima do not exceed its maxima, roughing feeds no slower, cuts no shallower and spins no faster than finishing |
| BaseOperation.CostOf | models/base_operation.py:7 | cost is minutes over 60 times the hourly rate, and is non-negative for non-negative time and rate |
| BaseOperation.PassesAt | models/grooving.py:57-61 | the time for a number of passes over a distance, times the rate, gives back passes × distance |
| BaseOperation.PassesAtAntitone | models/grooving.py:57-61 | a faster rate never makes the passes take longer |
| BaseOperation.RatedSpeedBounds | models/boring.py:119-121 | a speed that is not positive is left unchanged; a positive one stays positive for any non-negative rating and lies between half and all of itself for ratings in [0, 1] |
| BaseOperation.ScaleBounds | models/boring.py:119-121 | a positive speed scaled by a factor of at least 0.5 stays positive, and by a factor up to 1 stays within half to all of itself |
| BaseOperation.RatedSpeedMonotone | models/boring.py:119-121 | a better rating never lowers the speed |
| BaseOperation.CuttingSpeedBounds | models/base_operation.py:36-39 | with a non-negative average spindle speed the cutting speed is non-negative, and for ratings up to 1 it does not exceed the average |
| BaseOperation.CuttingSpeedMonotone | models/base_operation.py:36-39 | a better rating never lowers the cutting speed |
| BaseOperation.FeedRateBounds | models/base_operation.py:41-44 | the feed lies between half and all of the average feed for ratings in [0, 1] |
| BaseOperation.FeedRateMonotone | models/base_operation.py:41-44 | a better rating never lowers the feed |
| BaseOperation.CheckLimits | models/base_operation.py:46-57 | one warning per strictly exceeded limit, in rpm/feed/depth order; the list is never empty, is exactly the all-clear message when no limit is exceeded, and holds no other kind of warning |
| Turning.SetDimensions | models/turning.py:89-110 | accepted dimensions are positive with the start above the end diameter; an omitted feed takes the row default; on a map of numbers, a non-positive dimension raises the "must be positive" error and otherwise a start not above the end raises the "start must exceed end" error |
| Turning.MaterialFactorRange | models/turning.py:145-146 | the material factor 0.8 + 0.4·rating lies in [0.8, 1.2] and grows with the rating |
| Turning.PhaseFor | models/turning.py:112-169 | without a row the fixed defaults apply; with one, any cut type other than rough or finish is rejected. Roughing feeds the maximum feed times the material factor, spins at the larger of the minimum speed and the maximum speed times 0.8 over the factor, and cuts the smaller of the maximum depth times the factor and a quarter of the start diameter. Finishing feeds the minimum feed and spins the maximum speed, both times the factor, and cuts the larger of the minimum depth and 0.1 mm |
| Turning.PhaseFeedRange | models/turning.py:145-161 | for ratings in [0, 1] each phase feeds within 80% to 120% of the row feed it starts from |
| Turning.RoughFeedsHarder | models/turning.py:145-161 | roughing feeds at least as hard as finishing when the row's maximum feed is not below its minimum |
| Turning.CuttingTime | models/turning.py:171-201 | a non-positive depth, stock, feed or speed gives (0, 0); otherwise the passes cover the stock and the time is passes × (length + 10) over feed × speed |
| Turning.TurnWarnings | models/turning.py:294-318 | the warnings come in source order, each present exactly when its threshold is crossed, and no other warning appears |
| Turning.PhaseTime | models/turning.py:244-254 | the time times a positive rate gives back passes × distance; a rate that is not positive costs no time; the time is never negative |
| Turning.RoughSplitHolds | models/turning.py:239-244 | the rough stock split into the ceiling count of passes is exact, no pass is deeper than a positive rough depth of cut, and one pass fewer would not remove it |
| Turning.Plan | models/turning.py:230-318 | the rough stock is split into equal passes no deeper than the rough depth of cut; finishing is one pass; the total carries the safety factor; time and cost are non-negative; each warning appears exactly when its threshold is crossed |
| Turning.Calculate | models/turning.py:203-325 | the envelope is returned exactly for invalid dimensions, a zero material factor or a zero rough depth; non-positive dimensions and a start not above the end each give their own error; otherwise the estimate is the plan on the resolved phases |
| Turning.WorkedExample | models/turning.py:230-244 | a 50 to 46 mm bar over 100 mm leaves 1.9 mm of rough stock taken in one pass |
| Facing.SetDimensions | models/facing.py:74-94 | a map of numbers is accepted exactly when diameter, depth of cut, feed and speed (the last two defaulting to the row) are all positive, and the result is what was read; a non-positive diameter or depth raises the dimensions error, and otherwise a non-positive feed or speed the feed-and-speed error; a missing diameter or depth is an error |
| Facing.PhaseFor | models/facing.py:96-176 | there is no parameter set only when there are no rows; the set is the phase extremes of a row, and of a tagged row when one exists |
| Facing.CuttingTime | models/facing.py:190-210 | a non-positive depth, stock, feed or speed gives (0, 0); otherwise the passes cover the stock and the time is passes × length over feed × speed |
| Facing.Plan | models/facing.py:229-258 | each pass crosses the radius plus approach and overrun; rough stock is depth minus the finish cut, and no stock means no rough passes; finishing is one pass whenever its parameters are positive; a phase with no passes takes no time; the total carries 1.1 |
| Facing.Assemble | models/facing.py:255-300 | the totals, the cost and the warning list follow from the phase times and pass counts |
| Facing.FinishIsOnePass | models/facing.py:245-252 | a finish depth clipped to the depth of cut is always one pass |
| Facing.CalculateAsWritten | models/facing.py:96-304 | `calculate` as written always returns the error envelope, the `AttributeError` of the unset `db_conn` once the dimensions pass |
| Facing.AsWrittenNeverEstimates | models/facing.py:96-304 | the script never estimates, while the model estimates exactly for positive dimensions and some row; non-positive dimensions fail alike |
| Facing.Calculate | models/facing.py:212-304 | the envelope is returned exactly for non-positive dimensions or no rows; otherwise the estimate is the plan on the selected phases |
| Boring.SetDimensions | models/boring.py:32-71 | accepts either naming convention, deriving the final diameter from hole and cutting depth; accepted dimensions are valid; neither form complete is an error; for complete numeric input, a non-positive diameter, then a final diameter not above the initial, then a non-positive depth each raise their own error |
| Boring.PhaseFor | models/boring.py:73-129 | each phase uses its own column when positive and falls back to the phase extreme otherwise; the speed is rating-scaled; no row is an error |
| Boring.SpeedMonotone | models/boring.py:119-121 | a better rating raises only the speed, never the feed or depth |
| Boring.PassTime | models/boring.py:160-162 | a pass covers the bore depth at feed × speed, and takes no time at a non-positive rate |
| Boring.PassesTime | models/boring.py:160-162 | the passes together cover passes × depth at the rate |
| Boring.Plan | models/boring.py:150-189 | the finish cut is clipped to the radial stock, the remainder is split into equal rough passes no deeper than max(rough depth, 0.1), and the totals and warnings agree |
| Boring.Assemble | models/boring.py:160-189 | the times, the cost and the warnings follow from the passes and phases |
| Boring.Calculate | models/boring.py:131-222 | the envelope is returned exactly when the final diameter does not exceed the initial one or there is no row |
| Boring.FinishOnlyWarnsSmallDoc | models/boring.py:156-189 | when the finish cut takes all the stock, one empty rough pass is still planned and the small-depth warning fires |
| Boring.RatingShortensBore | models/boring.py:119-175 | with non-negative feeds, a better material never makes the bore take longer |
| Boring.SlowerPhase | models/boring.py:119-121 | a lower rating gives a phase no faster than a higher one |
| Boring.PassesTimeAntitone | models/boring.py:160-162 | slower spindle speed never shortens the rough passes |
| Boring.PassTimeAntitone | models/boring.py:160-162 | slower spindle speed never shortens the finish pass |
| Drilling.Validate | models/drilling.py:73-80 | accepts exactly the positive dimensions whose peck lies between half the diameter and 20 mm, and otherwise names the first check that fails |
| Drilling.SetDimensions | models/drilling.py:32-81 | a map of numbers naming a diameter and a depth is accepted exactly when the dimensions read (peck depth defaulting to min(3·diameter, 15), retract to 2 clamped to [1, 5]) are positive with the peck between half the diameter and 20 mm, and the result is what was read, failing with the first of the positivity, minimum-peck and maximum-peck errors; no diameter under either name is an error |
| Drilling.WideDrillNeedsPeck | models/drilling.py:54-81 | above 30 mm the default 15 mm peck is less than half the diameter, so the dimensions are rejected |
| Drilling.DefaultPeckAccepted | models/drilling.py:54-81 | up to 30 mm the default peck depth is accepted |
| Drilling.RimSpeed | models/drilling.py:99-105 | the spindle speed puts the cutting speed at the drill's rim, scaled by the rating |
| Drilling.RimSpeedAntitone | models/drilling.py:99-105 | a wider drill never spins faster |
| Drilling.ToolingFor | models/drilling.py:83-113 | feed and speed are the fallback choices rounded to 0.001 and 0.1; no row is an error |
| Drilling.FeedRoundsToZero | models/drilling.py:110-113 | the rounded feed is zero exactly when the raw feed is within 0.0005 of zero |
| Drilling.Plan | models/drilling.py:132-154 | the pecks cover the depth, the travel adds a retract per extra peck, the time is travel × 1.1 at feed × speed, and each warning fires exactly at its threshold |
| Drilling.Assemble | models/drilling.py:135-154 | the time, the cost and the warnings follow from the pecks and the tooling |
| Drilling.Calculate | models/drilling.py:115-181 | no row is an error; otherwise the envelope is returned exactly for a zero peck depth or a zero feed rate |
| Drilling.UnsetFails | models/drilling.py:24-27 | before dimensions are set, the zero peck depth always gives a division by zero |
| Drilling.WorkedExample | models/drilling.py:132-135 | an 8 mm drill 40 mm deep takes three pecks and 44 mm of travel |
| Threading.Missing | models/threading.py:51-69 | each dimension missing under both of its names is listed, and only those |
| Threading.Convert | models/threading.py:71-87 | a failed conversion leaves either the "invalid parameter values" error or an escaping `AttributeError` (a numeric thread type, or a failed read of the row's threads per pass) |
| Threading.Validate | models/threading.py:89-99 | accepts exactly the dimensions that are positive with a known thread type |
| Threading.ThreadType | models/threading.py:75 | an absent type is external; a textual type is lower-cased; a numeric one raises `AttributeError` |
| Threading.NumbersRead | models/threading.py:71-99 | on a map of numbers without a thread type, `set_dimensions` is the validation of the dimensions read under either name, with the threads per pass given or else the row's |
| Threading.ConvertRaisesWithoutRow | models/threading.py:71-87 | with numeric dimensions and no truthy threads per pass, a failing row read escapes the handler unchanged |
| Threading.SetDimensionsAsWritten | models/threading.py:71-87 | with the dimensions given as numbers and no truthy threads per pass, `set_dimensions` as written raises `AttributeError` |
| Threading.AsWrittenAgreesWhenGiven | models/threading.py:78-82 | a truthy threads per pass skips the row read, so the script as written and the model agree |
| Threading.AsWrittenNeedsThreadsPerPass | models/threading.py:71-87 | positive numeric dimensions without threads per pass: the script as written raises, while the model with a row accepts |
| Threading.CalculateAsWritten | models/threading.py:101-155 | `calculate` as written always returns the `AttributeError` envelope |
| Threading.AsWrittenNeverEstimates | models/threading.py:101-155 | the script never estimates, while the model estimates exactly when a row exists with non-zero feed and speed; without a row both fail alike |
| Threading.SetDimensions | models/threading.py:29-99 | empty input and missing dimensions are the two listed errors; numeric dimensions without a thread type are accepted exactly when they are positive with a positive (truncated) threads-per-pass, as an external thread; accepted dimensions come from the input under either name |
| Threading.Tooling | models/threading.py:101-111 | feed falls back to the pitch and speed to the minimum speed when zero; the passes are the row's count, truncated |
| Threading.ReadDims | models/threading.py:71-83 | the converted dimensions are the given numbers; the type defaults to external and is lower-cased; a numeric type raises `AttributeError` |
| Threading.Plan | models/threading.py:118-134 | each pass at feed × speed covers the length; the total is passes × pass time × 1.1, charged at the hour rate; the pitch-mismatch and high-speed warnings fire exactly on their conditions and no others appear |
| Threading.Calculate | models/threading.py:113-155 | no row is an error; a zero rate divides by zero; otherwise the estimate is the plan on the resolved tooling |
| Threading.ThreadsPerPassIgnored | models/threading.py:118-123 | the user's threads-per-pass never changes the result |
| Threading.PitchFeedNeverWarns | models/threading.py:103-132 | when the feed falls back to the pitch, the feed-mismatch warning cannot fire |
| Threading.LongerThreadTakesLonger | models/threading.py:118-123 | a longer thread never takes less time |
| Knurling.SetDimensions | models/knurling.py:26-34 | length and diameter come from either name; numbers are accepted exactly when both are positive, and the result is what was read; a missing length is the required-dimensions error |
| Knurling.LastWith | models/knurling.py:41-54 | the index found is the last row carrying the note, and none means no row carries it |
| Knurling.Classify | models/knurling.py:36-59 | the scan over the rows computes the same classification as the last-tagged-row definition |
| Knurling.Plan | models/knurling.py:61-79 | each pass covers the length at speed × feed, the total is two passes of each with 1.1, at 150 per hour, with the speed and feed warnings on their thresholds |
| Knurling.Calculate | models/knurling.py:61-98 | a missing phase is the classification error; a zero rate divides by zero; otherwise the estimate is the plan |
| Knurling.LastRoughRowWins | models/knurling.py:41-54 | a later rough-cut row replaces the earlier roughing set and leaves finishing alone |
| Knurling.UnsetTakesNoTime | models/knurling.py:20-21 | before dimensions are set the knurled length is zero, so the estimate takes no time |
| Grooving.DeratedBelowExtremes | models/grooving.py:39-42 | with non-negative columns, each phase feeds and spins no faster than the row extremes |
| Grooving.PhaseFor | models/grooving.py:12-42 | there is no parameter set only when there are no rows; the tagged row is preferred; each phase is derated as the source does |
| Grooving.AtLeastTwoPasses | models/grooving.py:52-53 | any positive width takes at least two passes, and exactly two up to 10/3 mm |
| Grooving.PassesCoverGroove | models/grooving.py:52-53 | the passes cover the width, and one pass fewer would not |
| Grooving.WiderGrooveMorePasses | models/grooving.py:52-53 | a wider groove never takes fewer passes |
| Grooving.Plan | models/grooving.py:52-93 | each pass travels the circumference; both phases use the same passes; the total carries 1.3; the narrow-groove warning fires exactly below 1 mm |
| Grooving.Assemble | models/grooving.py:60-93 | the totals, the cost and the warning follow from the phase times |
| Grooving.Calculate | models/grooving.py:44-99 | no rows is the parameter error; otherwise a zero width or a zero rate divides by zero, and any other input yields the plan |
| Parting.ToolingFor | models/parting.py:12-36 | feed is 70% of the minimum feed and speed 60% of the minimum speed; no row is an error |
| Parting.PartingIsGentle | models/parting.py:32-36 | parting never feeds or spins faster than the row minima |
| Parting.Plan | models/parting.py:50-81 | the passes cover the depth at three tool widths each; each pass feeds the radius 50% slower; the total carries 1.25; the small-diameter warning fires below 5 mm |
| Parting.PerHour | models/parting.py:61 | time × (rate/60) is the shared hourly cost |
| Parting.PassesCoverDepth | models/parting.py:51-52 | with a positive width the passes cover the depth and one fewer would not; a negative width is one pass |
| Parting.ShallowCutOnePass | models/parting.py:51-52 | a cut no deeper than three tool widths is one pass |
| Parting.Calculate | models/parting.py:38-87 | a bad depth, a non-positive depth, a missing row, a zero width or a zero rate each give the envelope; otherwise the plan, with width defaulting to 3 |
| Reaming.ToolingFor | models/reaming.py:12-36 | feed is half the minimum feed and speed 80% of the maximum speed; no row is an error |
| Reaming.ReamerIsGentle | models/reaming.py:32-36 | the reamer never cuts faster than the row's finishing extremes |
| Reaming.Calculate | models/reaming.py:38-76 | no row is the envelope; otherwise the total is the cutting time plus 10%, never less than it, with the small-reamer warning below 3 mm |
| Reaming.CalculateAsWritten | models/reaming.py:38-76 | the script always returns the error envelope: no row is the missing-parameters error, and with a row the call to the undefined cutting-time helper raises `AttributeError`, which the handler catches |
| Reaming.AsWrittenNeverEstimates | models/reaming.py:38-76 | the script never yields an estimate, while the intended calculation yields one exactly when a row exists; without a row both fail alike |
| Reaming.LongerCutCostsMore | models/reaming.py:51-52 | a longer cutting time never costs less |
| Milling.Rpm | models/milling.py:39 | the spindle speed puts the cutting speed at the cutter's rim |
| Milling.EffectiveFeed | models/milling.py:42-43 | the number of teeth cancels: the table feed is feed × rpm |
| Milling.Plan | models/milling.py:30-67 | the passes cover the total depth; each pass covers length + 20 at the table feed; no safety factor; the warnings are the limit check |
| Milling.Steps | models/milling.py:34-67 | a cutter diameter that is not a number is the envelope; it divides by zero exactly when the diameter or the table feed is zero; a total depth that is not a number is the envelope; otherwise the estimate is the plan on the given (or 10 mm) diameter and the given (or one-step) total depth |
| Milling.Calculate | models/milling.py:22-71 | bad text in width or length is the envelope; no row escapes as an attribute error; a non-positive dimension is the envelope; a zero diameter or table feed escapes as a division by zero; an estimate comes back exactly when the dimensions are positive, both divisions are defined and the total depth reads, and it is the plan on the given length, depth, diameter and total depth |
| Numeric.PassesCover | models/milling.py:49-50 | passes of at most the step depth cover the total depth and one fewer would not (the same count sets the drilling pecks) |
| Milling.OneStep | models/milling.py:49-50 | a total depth equal to the step depth is one pass |
| Milling.TableFeedMonotone | models/milling.py:31-43 | a better rating never lowers the table feed |
| Milling.RpmMonotone | models/milling.py:39 | a faster cutting speed never lowers the rpm |
| Milling.BetterMaterialMillsSooner | models/milling.py:31-52 | with non-negative averages, a better material never makes the milling take longer |
| MachiningCalculator.Dispatch | machining_calculator.py:44-62 | an unsupported name raises exactly when the lower-cased name is not one of the four operations; turning, facing and drilling return that operation's report on dimensions never set; milling runs on the constructor's inputs |
| MachiningCalculator.CaseInsensitive | machining_calculator.py:55-61 | any spelling of a supported name dispatches the same way |
| MachiningCalculator.OnlyMillingSucceeds | machining_calculator.py:36-41 | operations built without dimensions fail except milling |
| MachiningCalculator.MaterialAdjusted | machining_calculator.py:79 | the adjusted time is at least the machining time for ratings from 0, at most 10% more for ratings up to 1, and unchanged at rating 0 |
| MachiningCalculator.AllowanceBounds | machining_calculator.py:79 | the material allowance lies between none and 10% |
| MachiningCalculator.CalculateTime | machining_calculator.py:64-81 | a dispatch error propagates; an error envelope is raised again as a `ValueError` carrying exactly that envelope's error; otherwise the machining time and its adjusted value |
| Cost.MaterialRateAsWritten | static/cost.js:34 | after lower-casing, a listed material gives its rate; an inherited property name that a lower-case key can spell ("constructor", "__proto__") gives no number; anything else the default |
| Cost.RateOf | static/cost.js:10-34 | the intended rate is the table entry or the default, within [0.001, 0.02] |
| Cost.MaterialCost | static/cost.js:33-36 | the cost is volume times the material's rate, within the cheapest and dearest rates |
| Cost.MaterialCaseInsensitive | static/cost.js:34 | the material name is matched without regard to case |
| Cost.SameKeySameCost | static/cost.js:34 | names with the same lower-case form cost the same |
| Cost.AsWrittenAgrees | static/cost.js:34 | away from inherited property names, the script computes the intended cost |
| Cost.ConstructorIsNaN | static/cost.js:34 | "constructor" yields no number where 1.0 is intended |
| Text.LowerFixesLowerCase | static/cost.js:34 | a name without capitals is its own lower-case form |
| Cost.LaborCost | static/cost.js:43-45 | labour costs half the minutes, and no more than the minutes |
| Cost.MachineCost | static/cost.js:52-54 | machine cost equals the minutes |
| Cost.MachineCostsTwiceLabor | static/cost.js:6-7 | a machine minute costs twice a labour minute |
| Cost.TotalCost | static/cost.js:64-80 | the components default to zero and are echoed; overhead 30% on the direct costs, profit 20% on the subtotal; total is 1.56 × direct; non-negative inputs give direct ≤ subtotal ≤ total |
| Cost.TotalScales | static/cost.js:64-69 | scaling every component scales the total by the same factor |

## Left out

- Persistence, HTTP and the browser: the SQL queries become a parameter row (or list of rows) given as input. The Flask routes, the DOM updates, `formatCurrency` and `updateCostUI` are not modelled.
- Display rounding: `round(x, n)` on reported values is not modelled, and results are exact reals. The drilling feed and speed rounding is kept, because a feed that rounds to zero decides the division-by-zero path.
- Floating point: all arithmetic is on exact reals, so overflow, `inf` and `NaN` propagation are not modelled. `NaN` from the cost script's lookup is represented as `None`.
- π: a concrete decimal constant. Every proof uses only that it is positive.
- Text: lower-casing and stripping are ASCII-only. Parsing of numeric text is not modelled: a `Text` value is a string that `float()` rejects.
- Error messages and tracebacks: an error is its kind and a reason tag, not the formatted string.
- Boring and drilling: their exception handlers call an undefined logger. The model returns the error envelope they evidently intend.
- Constructors: the operation classes' constructors do not match the base class. The model keeps only the class constants they leave in force: the 1500 hourly rate for grooving, parting and reaming.
- Grooving, parting and reaming: width, diameter and depth are never set from input, so they are explicit parameters.
- Reaming.Calculate: the cutting time is a parameter. The script calls `_calculate_cutting_time`, which neither `ReamingOperation` nor its base class defines (the five-argument helpers of that name belong to the turning and facing classes), so as written every call with a row ends in the error envelope. `Reaming.CalculateAsWritten` models that; `Reaming.Calculate` models the evident intent of a one-pass cutting time.
- Knurling.Calculate: takes a list of rows, because the source iterates over what it receives as a single row.
- Threading.SetDimensions / Threading.Calculate: the row is passed explicitly because the constructor never stores `self.db_params`, so as written `set_dimensions` raises `AttributeError` whenever no truthy threads per pass is given and `calculate` always returns the error envelope (`Threading.SetDimensionsAsWritten`, `Threading.CalculateAsWritten`). Likewise Facing.SetDimensions and Facing.Calculate are handed the row (or rows) that the second `_get_default_parameters` (models/facing.py:50-72) and `_get_machining_parameters` would query through `self.db_conn`, which nothing sets (`Facing.CalculateAsWritten`). Facing.SetDimensions uses the first `_get_default_parameters` definition for the defaults.
- MachiningCalculator.Dispatch: constructor failures (turning's argument count) are not modelled; each operation is taken as built.
- MachiningCalculator.OnlyMillingSucceeds: holds with an empty proof. It documents the dispatcher rather than adding proof work.

## Findings

| source | as written | input that shows it | evidently intended | confidence | as-written member | corrected member |
|---|---|---|---|---|---|---|
| static/cost.js:34 | `MATERIAL_RATES[materialType.toLowerCase()] \|\| 0.01` also finds properties inherited from `Object.prototype` | `calculateMaterialCost(100, "constructor")` multiplies by a function and returns `NaN` | an unlisted material costs the default 0.01, so 1.0 | not executed | Cost.ConstructorIsNaN | Cost.AsWrittenAgrees |
| models/threading.py:20 | the constructor passes the row to the base class, which stores it as `params`; `set_dimensions` and `_get_machining_parameters` read `self.db_params` | `{"diameter": 10, "length": 20, "pitch": 1.5}` without threads per pass: `set_dimensions` raises `AttributeError`; `calculate` on any dimensions returns the error envelope | the row's threads per pass, feed and speed drive the estimate | not executed | Threading.AsWrittenNeverEstimates | Threading.Calculate |
| models/facing.py:109 | `_get_machining_parameters` (and the second `_get_default_parameters`, line 56) query `self.db_conn`, which no code sets | any positive diameter and depth of cut: `calculate` returns the `AttributeError` envelope | the phase parameters come from the material's rows | not executed | Facing.AsWrittenNeverEstimates | Facing.Calculate |
| models/reaming.py:44 | `calculate` calls `self._calculate_cutting_time(depth, feed, speed)`, which no class above `ReamingOperation` defines | any row: the call raises `AttributeError` and the handler returns the error envelope | one pass over the depth gives a cutting time, plus 10% | not executed | Reaming.AsWrittenNeverEstimates | Reaming.Calculate |

=== FILE: base_operation.dfy ===
/** Shared constants and the speed, feed and limit helpers of the operation base class. */
module BaseOperation {
  import opened Params
  import opened Warnings
  import Numeric

  /** Machine cost per hour (INR). */
  const MachineHourRate: real := 1500.0
  /** Approach and overrun allowances (mm) added to a milling pass. */
  const Approach: real := 10.0
  const Overrun: real := 10.0
  /** Overhead multiplier on raw turning time. */
  const SafetyFactor: real := 1.2

  /** The cost of `minutes` of machining at an hourly rate; never negative for
      non-negative time and rate. */
  function CostOf(minutes: real, hourRate: real): (c: real)
    ensures minutes >= 0.0 && hourRate >= 0.0 ==> c >= 0.0
    ensures minutes / 60.0 * hourRate == c
  {
    if minutes >= 0.0 && hourRate >= 0.0 then Numeric.MulMonotone(0.0, minutes / 60.0, hourRate); minutes / 60.0 * hourRate
    else minutes / 60.0 * hourRate
  }

  /** `passes` passes of `distance` at a table feed `rate`, as `distance / rate * passes`. */
  function PassesAt(distance: real, rate: real, passes: int): (t: real)
    requires rate != 0.0
    ensures t * rate == passes as real * distance
    ensures rate > 0.0 && distance >= 0.0 && passes >= 0 ==> t >= 0.0
  {
    Numeric.QuotientTimes(distance, rate);
    var perPass := distance / rate;
    assert perPass * passes as real * rate == (perPass * rate) * passes as real;
    if rate > 0.0 && distance >= 0.0 && passes >= 0 then
      Numeric.MulMonotone(0.0, perPass, passes as real);
      perPass * passes as real
    else perPass * passes as real
  }

  /** A faster feed rate never takes longer over the same passes. */
  lemma {:induction false} PassesAtAntitone(distance: real, passes: int, slow: real, fast: real)
    requires 0.0 < slow <= fast && distance >= 0.0 && passes >= 0
    ensures PassesAt(distance, fast, passes) <= PassesAt(distance, slow, passes)
  {
    var work := passes as real * distance;
    Numeric.MulMonotone(0.0, passes as real, distance);
    var t1, t2 := PassesAt(distance, slow, passes), PassesAt(distance, fast, passes);
    Numeric.QuotientTimes(work, slow);
    Numeric.QuotientTimes(work, fast);
    Numeric.Cancel(t1, work / slow, slow);
    Numeric.Cancel(t2, work / fast, fast);
    Numeric.QuotientAntitone(work, slow, fast);
  }

  /** `0.5 + 0.5 * rating`: the share of its spindle speed a material allows. */
  function RatingScale(rating: real): real
  {
    0.5 + rating * 0.5
  }

  /** A positive spindle speed scaled by the rating share; any other speed is kept
      (the boring and drilling speeds). */
  function RatedSpeed(base: real, rating: real): real
  {
    if base > 0.0 then RatingScale(rating) * base else base
  }

  /** A speed that is not positive is kept; a positive one stays positive for any
      non-negative rating and keeps between half and all of its value for ratings in
      [0, 1]. */
  lemma RatedSpeedBounds(base: real, rating: real)
    ensures base <= 0.0 ==> RatedSpeed(base, rating) == base
    ensures base > 0.0 && 0.0 <= rating <= 1.0 ==> base / 2.0 <= RatedSpeed(base, rating) <= base
    ensures base > 0.0 && 0.0 <= rating ==> RatedSpeed(base, rating) > 0.0
  {
    if base > 0.0 && 0.0 <= rating {
      ScaleBounds(base, RatingScale(rating));
    }
  }

  lemma ScaleBounds(base: real, k: real)
    requires base > 0.0 && k >= 0.5
    ensures k * base > 0.0
    ensures k <= 1.0 ==> base / 2.0 <= k * base <= base
  {
    Numeric.MulStrict(0.0, k, base);
    Numeric.MulMonotone(0.5, k, base);
    if k <= 1.0 {
      Numeric.MulMonotone(k, 1.0, base);
    }
  }

  /** The rated speed never falls as the rating rises. */
  lemma RatedSpeedMonotone(base: real, r1: real, r2: real)
    requires r1 <= r2
    ensures RatedSpeed(base, r1) <= RatedSpeed(base, r2)
  {
    if base > 0.0 {
      Numeric.MulMonotone(RatingScale(r1), RatingScale(r2), base);
    }
  }

  /** The mean of the row's spindle-speed range. */
  function AverageSpeed(row: ParamRow): real
  {
    (row.speedMin + row.speedMax) / 2.0
  }

  /** The mean of the row's feed range. */
  function AverageFeed(row: ParamRow): real
  {
    (row.feedMin + row.feedMax) / 2.0
  }

  /** Recommended cutting speed: the row's average spindle speed scaled by the
      machinability rating. */
  function CuttingSpeed(row: ParamRow, rating: real): real
  {
    rating * AverageSpeed(row)
  }

  /** With a non-negative average the cutting speed is non-negative for non-negative
      ratings and at most the average for ratings up to 1. */
  lemma CuttingSpeedBounds(row: ParamRow, rating: real)
    ensures AverageSpeed(row) >= 0.0 && 0.0 <= rating ==> 0.0 <= CuttingSpeed(row, rating)
    ensures AverageSpeed(row) >= 0.0 && 0.0 <= rating <= 1.0 ==> CuttingSpeed(row, rating) <= AverageSpeed(row)
  {
    if AverageSpeed(row) >= 0.0 && 0.0 <= rating {
      Numeric.MulMonotone(0.0, rating, AverageSpeed(row));
      if rating <= 1.0 {
        Numeric.MulMonotone(rating, 1.0, AverageSpeed(row));
      }
    }
  }

  /** A better-machining material never gets a lower recommended cutting speed. */
  lemma CuttingSpeedMonotone(row: ParamRow, r1: real, r2: real)
    requires r1 <= r2 && row.speedMin + row.speedMax >= 0.0
    ensures CuttingSpeed(row, r1) <= CuttingSpeed(row, r2)
  {
    Numeric.MulMonotone(r1, r2, AverageSpeed(row));
  }

  /** `0.5 + rating / 2`: the share of the average feed a material allows. */
  function FeedShare(rating: real): real
  {
    0.5 + rating / 2.0
  }

  /** Recommended feed: the row's average feed scaled into 50%..100% by the rating. */
  function FeedRate(row: ParamRow, rating: real): real
  {
    FeedShare(rating) * AverageFeed(row)
  }

  /** With a non-negative average the feed is at least half the average for
      non-negative ratings and at most the average for ratings up to 1. */
  lemma FeedRateBounds(row: ParamRow, rating: real)
    ensures AverageFeed(row) >= 0.0 && 0.0 <= rating ==> AverageFeed(row) / 2.0 <= FeedRate(row, rating)
    ensures AverageFeed(row) >= 0.0 && 0.0 <= rating <= 1.0 ==> FeedRate(row, rating) <= AverageFeed(row)
  {
    if AverageFeed(row) >= 0.0 && 0.0 <= rating {
      Numeric.MulMonotone(0.5, FeedShare(rating), AverageFeed(row));
      if rating <= 1.0 {
        Numeric.MulMonotone(FeedShare(rating), 1.0, AverageFeed(row));
      }
    }
  }

  /** A better-machining material never gets a lower recommended feed. */
  lemma FeedRateMonotone(row: ParamRow, r1: real, r2: real)
    requires r1 <= r2 && row.feedMin + row.feedMax >= 0.0
    ensures FeedRate(row, r1) <= FeedRate(row, r2)
  {
    Numeric.MulMonotone(FeedShare(r1), FeedShare(r2), AverageFeed(row));
  }

  /** One warning per exceeded limit, in the order RPM, feed, depth (strict comparisons:
      a value equal to its maximum passes); never empty, because a clean check yields
      the single all-within-limits message. */
  function CheckLimits(row: ParamRow, rpm: real, feed: real, doc: real): (ws: seq<Warning>)
    ensures |ws| >= 1
    ensures Ordered(ws)
    ensures RpmAboveMax in ws <==> rpm > row.speedMax
    ensures FeedAboveMax in ws <==> feed > row.feedMax
    ensures DepthAboveMax in ws <==> doc > row.docMax
    ensures AllWithinLimits in ws <==> (rpm <= row.speedMax && feed <= row.feedMax && doc <= row.docMax)
    ensures AllWithinLimits in ws ==> ws == [AllWithinLimits]
    ensures forall w :: w in ws ==> w in {RpmAboveMax, FeedAboveMax, DepthAboveMax, AllWithinLimits}
  {
    var checks := [(rpm > row.speedMax, RpmAboveMax),
                   (feed > row.feedMax, FeedAboveMax),
                   (doc > row.docMax, DepthAboveMax)];
    EmitSpec(checks);
    var exceeded := Emit(checks);
    if exceeded == [] then [AllWithinLimits]
    else
      assert exceeded[0] in exceeded;
      exceeded
  }
}

=== FILE: boring.dfy ===
/** Boring a pre-drilled hole out to a final diameter: equal roughing passes over the
    radial stock above the finishing allowance, then one finishing pass; every pass
    runs the bore depth. */
module Boring {
  import opened Wrappers
  import opened Numeric
  import opened Errors
  import opened Inputs
  import opened Params
  import opened Warnings
  import opened BaseOperation

  /** Boring's own overhead multiplier. */
  const BoringSafety: real := 1.1
  /** The smallest depth of cut the roughing pass count is planned with. */
  const MinRoughDoc: real := 0.1

  /** The attributes `set_dimensions` stores; all zero before it runs. */
  datatype BoringDims = BoringDims(initialDia: real, finalDia: real, depth: real)

  const Unset: BoringDims := BoringDims(0.0, 0.0, 0.0)

  datatype BoringEstimate = BoringEstimate(
    radialStock: real,
    rough: PhaseParams, roughStock: real, roughPasses: int, roughDocPerPass: real,
    roughTime: real,
    finish: PhaseParams, finishDepth: real, finishTime: real,
    totalTime: real, hourRate: real, cost: real,
    warnings: seq<Warning>)

  predicate ValidDims(s: BoringDims)
  {
    s.initialDia > 0.0 && s.finalDia > s.initialDia && s.depth > 0.0
  }

  /** The body of the `try` in `set_dimensions`: either naming convention, the final
      diameter given directly or as the hole diameter plus twice the cutting depth. */
  function ReadDims(d: Dims): Result<BoringDims, Error>
  {
    var initial := Or(Get(d, "initial_diameter"), Get(d, "hole_diameter"));
    var depth := Or(Get(d, "depth"), Get(d, "hole_depth"));
    var final :-
      if "final_diameter" in d then Ok(d["final_diameter"])
      else if "hole_diameter" in d && "cutting_depth" in d then
        var cut :- Float(Some(d["cutting_depth"]));
        match d["hole_diameter"]
        case Num(h) => Ok(Num(h + 2.0 * cut))
        case Text(_) => Err(TypeError)
      else Err(KeyError);
    var i :- Float(initial);
    var f :- Float(Some(final));
    var dp :- Float(depth);
    Ok(BoringDims(i, f, dp))
  }

  /** `set_dimensions`: a missing key or unreadable value becomes the "must provide"
      error (a `TypeError` is not caught), then diameters, their order and the depth are
      validated. */
  function SetDimensions(d: Dims): (r: Result<BoringDims, Error>)
    ensures r.Ok? ==> ValidDims(r.value)
    ensures r.Err? ==> r.error == TypeError || r.error.ValueError?
    ensures "final_diameter" !in d && !("hole_diameter" in d && "cutting_depth" in d) ==>
      r == Err(ValueError(BoringDimsMissing))
    ensures forall i, f, dp ::
      d == map["initial_diameter" := Num(i), "final_diameter" := Num(f), "depth" := Num(dp)] && i != 0.0 && dp != 0.0
      ==> && (r.Ok? <==> ValidDims(BoringDims(i, f, dp))) && (r.Ok? ==> r.value == BoringDims(i, f, dp))
          && (!(i > 0.0 && f > 0.0) ==> r == Err(ValueError(DiametersNotPositive)))
          && (i > 0.0 && f > 0.0 && i >= f ==> r == Err(ValueError(FinalNotAboveInitial)))
          && (i > 0.0 && f > i && dp <= 0.0 ==> r == Err(ValueError(DepthNotPositive)))
    ensures forall h, c, dp ::
      d == map["hole_diameter" := Num(h), "cutting_depth" := Num(c), "hole_depth" := Num(dp)] && h != 0.0 && dp != 0.0
      ==> && (r.Ok? <==> h > 0.0 && c > 0.0 && dp > 0.0) && (r.Ok? ==> r.value == BoringDims(h, h + 2.0 * c, dp))
          && (!(h > 0.0 && h + 2.0 * c > 0.0) ==> r == Err(ValueError(DiametersNotPositive)))
          && (h > 0.0 && h + 2.0 * c > 0.0 && c <= 0.0 ==> r == Err(ValueError(FinalNotAboveInitial)))
          && (h > 0.0 && c > 0.0 && dp <= 0.0 ==> r == Err(ValueError(DepthNotPositive)))
  {
    match ReadDims(d)
    case Err(KeyError) => Err(ValueError(BoringDimsMissing))
    case Err(ValueError(_)) => Err(ValueError(BoringDimsMissing))
    case Err(e) => Err(e)
    case Ok(s) =>
      if s.initialDia <= 0.0 || s.finalDia <= 0.0 then Err(ValueError(DiametersNotPositive))
      else if s.initialDia >= s.finalDia then Err(ValueError(FinalNotAboveInitial))
      else if s.depth <= 0.0 then Err(ValueError(DepthNotPositive))
      else Ok(s)
  }

  /** The suffix of the phase-specific columns. */
  function Suffix(phase: Phase): string
  {
    match phase
    case Rough => "rough"
    case Finish => "finish"
  }

  /** The phase's own column `<name>_<phase>`, 0 when the row lacks it. */
  function Own(p: ParamRow, name: string, phase: Phase): real
  {
    Attr(p, name + "_" + Suffix(phase), 0.0)
  }

  /** The phase's spindle speed before the material rating: its own column when
      positive, else the row's minimum speed. */
  function BaseSpeed(p: ParamRow, phase: Phase): real
  {
    var v := Own(p, "spindle_speed", phase);
    if v <= 0.0 then p.speedMin else v
  }

  /** `_get_machining_parameters`: the phase's own depth, feed and speed columns when
      positive, else the phase extremes for depth and feed and the minimum speed; a
      positive speed is scaled to between half and all of itself by the rating. */
  function PhaseFor(row: Option<ParamRow>, phase: Phase, rating: real): (r: Result<PhaseParams, Error>)
    ensures r.Err? <==> row.None?
    ensures r.Err? ==> r.error == ValueError(NoParameters)
    ensures r.Ok? && Own(row.value, "depth_of_cut", phase) > 0.0 ==>
      r.value.doc == Own(row.value, "depth_of_cut", phase)
    ensures r.Ok? && Own(row.value, "depth_of_cut", phase) <= 0.0 ==>
      r.value.doc == Extremes(row.value, phase).doc
    ensures r.Ok? && Own(row.value, "feed_rate", phase) > 0.0 ==>
      r.value.feed == Own(row.value, "feed_rate", phase)
    ensures r.Ok? && Own(row.value, "feed_rate", phase) <= 0.0 ==>
      r.value.feed == Extremes(row.value, phase).feed
    ensures r.Ok? ==> r.value.speed == RatedSpeed(BaseSpeed(row.value, phase), rating)
  {
    match row
    case None => Err(ValueError(NoParameters))
    case Some(p) =>
      var doc := Own(p, "depth_of_cut", phase);
      var feed := Own(p, "feed_rate", phase);
      var extremes := Extremes(p, phase);
      Ok(PhaseParams(if feed <= 0.0 then extremes.feed else feed,
                     RatedSpeed(BaseSpeed(p, phase), rating),
                     if doc <= 0.0 then extremes.doc else doc))
  }

  /** A better machinability rating never lowers a phase's spindle speed, and changes
      nothing else. */
  lemma SpeedMonotone(p: ParamRow, phase: Phase, r1: real, r2: real)
    requires r1 <= r2
    ensures PhaseFor(Some(p), phase, r1).value.speed <= PhaseFor(Some(p), phase, r2).value.speed
    ensures PhaseFor(Some(p), phase, r1).value.feed == PhaseFor(Some(p), phase, r2).value.feed
    ensures PhaseFor(Some(p), phase, r1).value.doc == PhaseFor(Some(p), phase, r2).value.doc
  {
    RatedSpeedMonotone(BaseSpeed(p, phase), r1, r2);
  }

  /** The time one pass along the bore takes at a feed rate; nothing when the rate is
      not positive. */
  function PassTime(depth: real, rate: real): (t: real)
    ensures rate > 0.0 ==> t * rate == depth
    ensures rate <= 0.0 ==> t == 0.0
    ensures depth >= 0.0 ==> t >= 0.0
  {
    if rate > 0.0 then QuotientTimes(depth, rate); depth / rate else 0.0
  }

  /** The plan once both phases are resolved: the finishing allowance is capped by the
      radial stock, the rest is roughed in equal passes no deeper than the rough depth
      of cut (at least 0.1 mm), and the finishing pass runs only when it removes stock. */
  function Plan(s: BoringDims, rough: PhaseParams, finish: PhaseParams, hourRate: real): (e: BoringEstimate)
    requires s.finalDia > s.initialDia
    ensures e.radialStock == (s.finalDia - s.initialDia) / 2.0 > 0.0
    ensures e.rough == rough && e.finish == finish && e.hourRate == hourRate
    ensures e.roughStock + e.finishDepth == e.radialStock
    ensures e.finishDepth <= finish.doc && e.roughStock >= 0.0
    ensures finish.doc <= e.radialStock ==> e.finishDepth == finish.doc
    ensures e.roughPasses == PassCount(e.roughStock, Max(rough.doc, MinRoughDoc))
    ensures e.roughDocPerPass <= Max(rough.doc, MinRoughDoc)
    ensures e.roughPasses > 1 ==> (e.roughPasses - 1) as real * Max(rough.doc, MinRoughDoc) < e.roughStock
    ensures Consistent(e, s.depth)
  {
    var radial := (s.finalDia - s.initialDia) / 2.0;
    var finishDepth := Min(finish.doc, radial);
    var roughStock := Max(0.0, radial - finishDepth);
    var roughDoc := Max(rough.doc, MinRoughDoc);
    var passes := PassCount(roughStock, roughDoc);
    PassPlan(roughStock, roughDoc);
    Assemble(s.depth, radial, rough, roughStock, passes, finish, finishDepth, hourRate)
  }

  /** What every boring estimate satisfies for a bore of the given depth: equal rough
      passes that add up to the rough stock, pass times from the feed rates, the finishing
      pass only when it removes stock, the safety factor, the cost at the hourly rate,
      and the warnings raised exactly when their conditions hold. */
  predicate Consistent(e: BoringEstimate, depth: real)
  {
    && e.roughPasses >= 1
    && e.roughDocPerPass * e.roughPasses as real == e.roughStock
    && e.roughTime == PassesTime(depth, e.rough.Rate(), e.roughPasses)
    && e.finishTime == (if e.finishDepth > 0.0 then PassTime(depth, e.finish.Rate()) else 0.0)
    && e.totalTime == (e.roughTime + e.finishTime) * BoringSafety
    && e.cost == CostOf(e.totalTime, e.hourRate)
    && (depth >= 0.0 ==> e.roughTime >= 0.0 && e.finishTime >= 0.0 && e.totalTime >= 0.0)
    && Warned(e)
  }

  /** The warnings of a boring estimate: in order, each raised exactly when its
      condition holds, and no others. */
  predicate Warned(e: BoringEstimate)
  {
    && Ordered(e.warnings)
    && (ManyRoughPasses in e.warnings <==> e.roughPasses > 3)
    && (HighRoughFeedRate in e.warnings <==> e.rough.Rate() > 1000.0)
    && (HighFinishFeedRate in e.warnings <==> e.finishDepth > 0.0 && e.finish.Rate() > 800.0)
    && (SmallRoughDoc in e.warnings <==> e.roughDocPerPass < MinRoughDoc)
    && (forall w :: w in e.warnings ==> w in {ManyRoughPasses, HighRoughFeedRate, HighFinishFeedRate, SmallRoughDoc})
  }

  function Assemble(depth: real, radial: real, rough: PhaseParams, roughStock: real, passes: int,
                    finish: PhaseParams, finishDepth: real, hourRate: real): (e: BoringEstimate)
    requires passes >= 1
    ensures e.radialStock == radial && e.rough == rough && e.roughStock == roughStock
    ensures e.roughPasses == passes && e.finish == finish && e.finishDepth == finishDepth
    ensures e.hourRate == hourRate
    ensures e.roughDocPerPass == roughStock / passes as real
    ensures Warned(e)
    ensures Consistent(e, depth)
  {
    var actualDoc := roughStock / passes as real;
    QuotientTimes(roughStock, passes as real);
    var roughTime := PassesTime(depth, rough.Rate(), passes);
    var finishTime := if finishDepth > 0.0 then PassTime(depth, finish.Rate()) else 0.0;
    var totalTime := (roughTime + finishTime) * BoringSafety;
    var checks := [(passes > 3, ManyRoughPasses),
                   (rough.Rate() > 1000.0, HighRoughFeedRate),
                   (finishDepth > 0.0 && finish.Rate() > 800.0, HighFinishFeedRate),
                   (actualDoc < MinRoughDoc, SmallRoughDoc)];
    EmitSpec(checks);
    var e := BoringEstimate(radial, rough, roughStock, passes, actualDoc, roughTime,
                            finish, finishDepth, finishTime, totalTime, hourRate,
                            CostOf(totalTime, hourRate), Emit(checks));
    e
  }

  /** `passes` passes along the bore at a feed rate. */
  function PassesTime(depth: real, rate: real, passes: int): (t: real)
    requires passes >= 1
    ensures rate > 0.0 ==> t * rate == passes as real * depth
    ensures rate <= 0.0 ==> t == 0.0
    ensures depth >= 0.0 ==> t >= 0.0
  {
    var perPass := PassTime(depth, rate);
    assert perPass * passes as real * rate == (perPass * rate) * passes as real;
    if depth >= 0.0 then MulMonotone(0.0, perPass, passes as real); perPass * passes as real
    else perPass * passes as real
  }

  /** `calculate`: the diameters must still increase and a row must be present; every
      exception becomes the error envelope. */
  function Calculate(s: BoringDims, row: Option<ParamRow>, rating: real): (r: Report<BoringEstimate>)
    ensures s.finalDia <= s.initialDia ==> r == Failed(ValueError(FinalNotAboveInitial))
    ensures r.Failed? <==> s.finalDia <= s.initialDia || row.None?
    ensures r.Done? ==>
      && r.value.rough == PhaseFor(row, Rough, rating).value
      && r.value.finish == PhaseFor(row, Finish, rating).value
      && r.value == Plan(s, r.value.rough, r.value.finish, HourRate(row.value))
  {
    if s.finalDia - s.initialDia <= 0.0 then Failed(ValueError(FinalNotAboveInitial))
    else
      match PhaseFor(row, Rough, rating)
      case Err(e) => Failed(e)
      case Ok(rough) =>
        match PhaseFor(row, Finish, rating)
        case Err(e) => Failed(e)
        case Ok(finish) => Done(Plan(s, rough, finish, HourRate(row.value)))
  }

  /** When the finishing allowance covers the whole radial stock no roughing stock is
      left, and the roughing-depth warning is always raised. */
  lemma FinishOnlyWarnsSmallDoc(s: BoringDims, rough: PhaseParams, finish: PhaseParams, hourRate: real)
    requires s.finalDia > s.initialDia && finish.doc >= (s.finalDia - s.initialDia) / 2.0
    ensures Plan(s, rough, finish, hourRate).roughStock == 0.0
    ensures SmallRoughDoc in Plan(s, rough, finish, hourRate).warnings
  {
    var e := Plan(s, rough, finish, hourRate);
    assert e.roughDocPerPass * e.roughPasses as real == 0.0;
    assert e.roughPasses as real > 0.0;
  }

  /** A better machinability rating never lengthens a bore on valid dimensions
      (for a row whose feeds are not negative). */
  lemma {:induction false} RatingShortensBore(s: BoringDims, p: ParamRow, r1: real, r2: real)
    requires ValidDims(s) && 0.0 <= r1 <= r2 && p.feedMin >= 0.0 && p.feedMax >= 0.0
    ensures Calculate(s, Some(p), r2).value.totalTime <= Calculate(s, Some(p), r1).value.totalTime
  {
    var rough1, rough2 := PhaseFor(Some(p), Rough, r1).value, PhaseFor(Some(p), Rough, r2).value;
    var finish1, finish2 := PhaseFor(Some(p), Finish, r1).value, PhaseFor(Some(p), Finish, r2).value;
    SlowerPhase(p, Rough, r1, r2);
    SlowerPhase(p, Finish, r1, r2);
    var e1 := Plan(s, rough1, finish1, HourRate(p));
    var e2 := Plan(s, rough2, finish2, HourRate(p));
    assert e1.roughPasses == e2.roughPasses && e1.finishDepth == e2.finishDepth;
    PassesTimeAntitone(s.depth, e1.roughPasses, rough1, rough2);
    assert e2.finishTime <= e1.finishTime by {
      if e1.finishDepth > 0.0 {
        PassTimeAntitone(s.depth, finish1, finish2);
      }
    }
    MulMonotone(e2.roughTime + e2.finishTime, e1.roughTime + e1.finishTime, BoringSafety);
  }

  /** What a rating increase does to one phase: the same depth and non-negative feed,
      a spindle speed at least as high, and positive unless it is unchanged. */
  lemma SlowerPhase(p: ParamRow, phase: Phase, r1: real, r2: real)
    requires 0.0 <= r1 <= r2 && p.feedMin >= 0.0 && p.feedMax >= 0.0
    ensures var slow, fast := PhaseFor(Some(p), phase, r1).value, PhaseFor(Some(p), phase, r2).value;
      && slow.doc == fast.doc && slow.feed == fast.feed >= 0.0 && slow.speed <= fast.speed
      && (slow.speed == fast.speed || slow.speed > 0.0)
  {
    SpeedMonotone(p, phase, r1, r2);
  }

  /** Several passes at the same feed and a spindle speed at least as high take no
      more time. */
  lemma {:induction false} PassesTimeAntitone(depth: real, passes: int, slow: PhaseParams, fast: PhaseParams)
    requires depth >= 0.0 && passes >= 1 && slow.feed == fast.feed >= 0.0 && slow.speed <= fast.speed
    requires slow.speed == fast.speed || slow.speed > 0.0
    ensures PassesTime(depth, fast.Rate(), passes) <= PassesTime(depth, slow.Rate(), passes)
  {
    PassTimeAntitone(depth, slow, fast);
    MulMonotone(PassTime(depth, fast.Rate()), PassTime(depth, slow.Rate()), passes as real);
  }

  /** A phase at the same non-negative feed and a spindle speed at least as high (and
      positive, unless unchanged) needs no more time per pass. */
  lemma {:induction false} PassTimeAntitone(depth: real, slow: PhaseParams, fast: PhaseParams)
    requires depth >= 0.0 && slow.feed == fast.feed >= 0.0 && slow.speed <= fast.speed
    requires slow.speed == fast.speed || slow.speed > 0.0
    ensures PassTime(depth, fast.Rate()) <= PassTime(depth, slow.Rate())
  {
    if slow.speed != fast.speed && slow.feed > 0.0 {
      MulStrict(0.0, slow.speed, slow.feed);
      MulMonotone(slow.speed, fast.speed, slow.feed);
      assert 0.0 < slow.Rate() <= fast.Rate() by {
        assert slow.Rate() == slow.speed * slow.feed && fast.Rate() == fast.speed * fast.feed;
      }
      QuotientAntitone(depth, slow.Rate(), fast.Rate());
    }
  }
}

=== FILE: cost.dfy ===
/** The browser-side cost roll-up: material cost from volume and a per-material rate,
    labour and machine cost per minute, then overhead on the direct costs and profit on
    the subtotal. */
module Cost {
  import opened Wrappers
  import opened Text
  import Numeric

  const LaborRate: real := 0.5
  const MachineRate: real := 1.0
  /** Overhead as a share of the direct costs. */
  const OverheadRate: real := 0.3
  /** Profit as a share of the subtotal. */
  const ProfitMargin: real := 0.2
  /** Rate for a material the table does not list. */
  const DefaultMaterialRate: real := 0.01

  /** Cost per cubic millimetre of each listed material, keyed in lower case. */
  const MaterialRates: map<string, real> := map[
    "aluminum" := 0.002,
    "steel" := 0.005,
    "stainless" := 0.008,
    "titanium" := 0.02,
    "brass" := 0.01,
    "copper" := 0.015,
    "plastic" := 0.001]

  /** The names a plain object inherits from `Object.prototype` that a lower-cased key
      can spell: looking one up in the rate table finds a function or an object, not a
      number. The other inherited names (`toString`, `valueOf`, ...) contain capitals, so
      after lower-casing they miss and take the default rate. */
  const PrototypeKeys: set<string> := {"constructor", "__proto__"}

  /** The rate lookup as the script performs it: the name is lower-cased, a listed
      material gives its rate, an inherited property name gives a non-number (`None`:
      the product is `NaN`), and anything else falls back to the default. */
  function MaterialRateAsWritten(materialType: string): (r: Option<real>)
    ensures Lower(materialType) in MaterialRates ==> r == Some(MaterialRates[Lower(materialType)])
    ensures Lower(materialType) !in MaterialRates ==>
      (r.None? <==> Lower(materialType) in PrototypeKeys)
  {
    var key := Lower(materialType);
    if key in MaterialRates then Some(MaterialRates[key])
    else if key in PrototypeKeys then None
    else Some(DefaultMaterialRate)
  }

  /** `calculateMaterialCost` as written: `None` stands for the `NaN` it returns. */
  function MaterialCostAsWritten(volume: real, materialType: string): Option<real>
  {
    match MaterialRateAsWritten(materialType)
    case None => None
    case Some(rate) => Some(volume * rate)
  }

  /** The rate the lookup is meant to give for a lower-case key: the table's own
      entry, else the default. */
  function RateOf(key: string): (rate: real)
    ensures 0.001 <= rate <= 0.02
    ensures key in MaterialRates ==> rate == MaterialRates[key]
    ensures key !in MaterialRates ==> rate == DefaultMaterialRate
  {
    if key in MaterialRates then MaterialRates[key] else DefaultMaterialRate
  }

  /** `calculateMaterialCost` with the lookup restricted to the table's own entries:
      volume times the material's rate, so never negative and bounded by the cheapest
      and dearest rates. */
  function MaterialCost(volume: real, materialType: string): (c: real)
    ensures c == volume * RateOf(Lower(materialType))
    ensures volume >= 0.0 ==> volume * 0.001 <= c <= volume * 0.02
  {
    var rate := RateOf(Lower(materialType));
    if volume >= 0.0 then
      Numeric.MulMonotone(0.001, rate, volume);
      Numeric.MulMonotone(rate, 0.02, volume);
      volume * rate
    else volume * rate
  }

  /** The material name is matched without regard to case. */
  lemma {:induction false} MaterialCaseInsensitive(volume: real, materialType: string)
    ensures MaterialCost(volume, materialType) == MaterialCost(volume, Lower(materialType))
  {
    LowerIdempotent(materialType);
    SameKeySameCost(volume, materialType, Lower(materialType));
  }

  lemma SameKeySameCost(volume: real, t1: string, t2: string)
    requires Lower(t1) == Lower(t2)
    ensures MaterialCost(volume, t1) == MaterialCost(volume, t2)
  {
  }

  /** Away from the inherited property names, the script computes the intended cost. */
  lemma {:induction false} AsWrittenAgrees(volume: real, materialType: string)
    requires Lower(materialType) !in PrototypeKeys
    ensures MaterialCostAsWritten(volume, materialType) == Some(MaterialCost(volume, materialType))
  {
    assert MaterialRateAsWritten(materialType) == Some(RateOf(Lower(materialType)));
  }

  /** "constructor" is not in the table, so it should cost the default rate; the script
      finds `Object.prototype.constructor` instead and returns `NaN`. */
  lemma {:induction false} ConstructorIsNaN()
    ensures MaterialCostAsWritten(100.0, "constructor").None?
    ensures MaterialCost(100.0, "constructor") == 1.0
  {
    LowerFixesLowerCase("constructor");
  }

  /** `calculateLaborCost`: minutes at the labour rate. */
  function LaborCost(minutes: real): (c: real)
    ensures minutes >= 0.0 ==> 0.0 <= c <= minutes
    ensures c == minutes / 2.0
  {
    minutes * LaborRate
  }

  /** `calculateMachineCost`: minutes at the machine rate. */
  function MachineCost(minutes: real): (c: real)
    ensures c == minutes
  {
    minutes * MachineRate
  }

  /** A minute of machine time costs twice a minute of labour. */
  lemma MachineCostsTwiceLabor(minutes: real)
    ensures MachineCost(minutes) == 2.0 * LaborCost(minutes)
  {
  }

  datatype CostBreakdown = CostBreakdown(
    material: real, labor: real, machine: real,
    overhead: real, subtotal: real, profit: real, total: real)

  /** `calculateTotalCost`: a component left out counts as zero; the direct costs plus
      30% overhead make the subtotal, which with 20% profit makes the total. The three
      components are echoed unchanged. */
  function TotalCost(material: Option<real>, labor: Option<real>, machine: Option<real>): (b: CostBreakdown)
    ensures b.material == material.GetOr(0.0) && b.labor == labor.GetOr(0.0) && b.machine == machine.GetOr(0.0)
    ensures var direct := b.material + b.labor + b.machine;
      && b.overhead == direct * OverheadRate
      && b.subtotal == direct + b.overhead
      && b.profit == b.subtotal * ProfitMargin
      && b.total == b.subtotal + b.profit
      && b.total == direct * 1.56
    ensures b.material >= 0.0 && b.labor >= 0.0 && b.machine >= 0.0 ==>
      && 0.0 <= b.overhead && 0.0 <= b.profit
      && b.material + b.labor + b.machine <= b.subtotal <= b.total
  {
    var m, l, c := material.GetOr(0.0), labor.GetOr(0.0), machine.GetOr(0.0);
    var direct := m + l + c;
    var overhead := direct * OverheadRate;
    var subtotal := direct + overhead;
    var profit := subtotal * ProfitMargin;
    CostBreakdown(m, l, c, overhead, subtotal, profit, subtotal + profit)
  }

  /** Every cost above the direct costs scales with them: doubling the inputs doubles
      the total. */
  lemma {:induction false} TotalScales(m: real, l: real, c: real, k: real)
    ensures TotalCost(Some(k * m), Some(k * l), Some(k * c)).total == k * TotalCost(Some(m), Some(l), Some(c)).total
  {
    var b1 := TotalCost(Some(m), Some(l), Some(c));
    var b2 := TotalCost(Some(k * m), Some(k * l), Some(k * c));
    assert b2.total == (k * m + k * l + k * c) * 1.56;
    assert k * m + k * l + k * c == k * (m + l + c);
    assert b2.total == k * (m + l + c) * 1.56;
  }
}

=== FILE: drilling.dfy ===
/** Peck drilling: the drill feeds in pecks no deeper than the peck depth and retracts
    between them, so the travel is the hole depth plus one retract per extra peck. */
module Drilling {
  import opened Wrappers
  import opened Numeric
  import opened Errors
  import opened Inputs
  import opened Params
  import opened Warnings
  import opened BaseOperation
  import opened Text

  /** Drilling's own overhead multiplier. */
  const DrillingSafety: real := 1.1
  /** The deepest peck allowed (mm). */
  const MaxPeck: real := 20.0
  /** The default peck depth is three diameters, but never above this (mm). */
  const DefaultPeckCap: real := 15.0

  /** The attributes `set_dimensions` stores; before it runs, all zero except a 2 mm
      retract. */
  datatype DrillingDims = DrillingDims(diameter: real, depth: real, peckDepth: real, retract: real)

  const Unset: DrillingDims := DrillingDims(0.0, 0.0, 0.0, 2.0)

  /** Feed (mm/rev) and spindle speed (RPM), as `_get_machining_parameters` returns them. */
  datatype Tooling = Tooling(feed: real, speed: real)

  datatype DrillingEstimate = DrillingEstimate(
    tool: Tooling, feedRate: real,
    peckCount: int, travel: real,
    totalTime: real, hourRate: real, cost: real,
    warnings: seq<Warning>)

  predicate ValidDims(s: DrillingDims)
  {
    && s.diameter > 0.0 && s.depth > 0.0 && s.peckDepth > 0.0
    && s.peckDepth >= s.diameter * 0.5 && s.peckDepth <= MaxPeck
    && 1.0 <= s.retract <= 5.0
  }

  /** The body of the `try` in `set_dimensions`: diameter and depth under either name,
      the peck depth defaulting to three diameters capped at 15 mm, the retract distance
      clamped to [1, 5] mm. */
  function ReadDims(d: Dims): Result<DrillingDims, Error>
  {
    var diameter :- Float(Or(Get(d, "diameter"), Get(d, "hole_diameter")));
    var depth :- Float(Or(Get(d, "depth"), Get(d, "hole_depth")));
    var peck :- FloatOr(d, "peck_depth", Min(3.0 * diameter, DefaultPeckCap));
    var retract :- FloatOr(d, "retract_distance", 2.0);
    Ok(DrillingDims(diameter, depth, peck, Max(1.0, Min(5.0, retract))))
  }

  /** The dimensions a map of numbers reads as, once diameter and depth are given under
      one of their names. */
  function NumbersRead(d: Dims): DrillingDims
  {
    var diameter := NumOf(Or(Get(d, "diameter"), Get(d, "hole_diameter")), 0.0);
    DrillingDims(diameter, NumOf(Or(Get(d, "depth"), Get(d, "hole_depth")), 0.0),
                 NumOr(d, "peck_depth", Min(3.0 * diameter, DefaultPeckCap)),
                 Max(1.0, Min(5.0, NumOr(d, "retract_distance", 2.0))))
  }

  /** Whether the message of a failed conversion names one of the required keys. */
  predicate MentionsRequiredKey(text: string)
  {
    Contains(text, "diameter") || Contains(text, "hole_diameter")
    || Contains(text, "depth") || Contains(text, "hole_depth")
  }

  /** `set_dimensions`: an unreadable value is reported as a missing dimension when its
      text names a required key, else as invalid input (a `TypeError` from an absent
      dimension is not caught); then positivity and the peck-depth limits are checked. */
  function SetDimensions(d: Dims): (r: Result<DrillingDims, Error>)
    ensures r.Ok? ==> ValidDims(r.value)
    ensures r.Err? ==> r.error == TypeError || r.error.ValueError?
    ensures !Truthy(Get(d, "diameter")) && "hole_diameter" !in d ==> r == Err(TypeError)
    ensures r.Ok? && "peck_depth" !in d ==> r.value.peckDepth == Min(3.0 * r.value.diameter, DefaultPeckCap)
    ensures r.Ok? && "retract_distance" !in d ==> r.value.retract == 2.0
    ensures r.Ok? && Truthy(Get(d, "diameter")) ==> d["diameter"] == Num(r.value.diameter)
    ensures r.Ok? && !Truthy(Get(d, "diameter")) ==> d["hole_diameter"] == Num(r.value.diameter)
    ensures r.Ok? && Truthy(Get(d, "depth")) ==> d["depth"] == Num(r.value.depth)
    ensures (&& AllNumbers(d) && Or(Get(d, "diameter"), Get(d, "hole_diameter")).Some?
             && Or(Get(d, "depth"), Get(d, "hole_depth")).Some?) ==>
      && (r.Ok? <==> ValidDims(NumbersRead(d))) && (r.Ok? ==> r.value == NumbersRead(d))
      && r == Validate(NumbersRead(d))
    ensures "diameter" in d && d["diameter"].Text? && d["diameter"] != Text("") ==>
      r == Err(ValueError(if MentionsRequiredKey(d["diameter"].s) then DrillingDimsRequired else DrillingInputInvalid))
  {
    match ReadDims(d)
    case Err(ValueError(reason)) =>
      if reason.NotANumber? && MentionsRequiredKey(reason.text) then Err(ValueError(DrillingDimsRequired))
      else Err(ValueError(DrillingInputInvalid))
    case Err(e) => Err(e)
    case Ok(s) => Validate(s)
  }

  /** The checks after the conversion, in order: positivity, then the peck depth against
      half the diameter, then against its cap. */
  function Validate(s: DrillingDims): (r: Result<DrillingDims, Error>)
    ensures r.Ok? <==> s.diameter > 0.0 && s.depth > 0.0 && s.peckDepth >= s.diameter * 0.5 && s.peckDepth <= MaxPeck
    ensures r.Ok? ==> r.value == s
    ensures !(s.diameter > 0.0 && s.depth > 0.0 && s.peckDepth > 0.0) ==> r == Err(ValueError(DrillingDimsNotPositive))
    ensures s.diameter > 0.0 && s.depth > 0.0 && s.peckDepth > 0.0 && s.peckDepth < s.diameter * 0.5 ==>
      r == Err(ValueError(PeckTooSmall))
    ensures s.diameter > 0.0 && s.depth > 0.0 && s.peckDepth >= s.diameter * 0.5 && s.peckDepth > MaxPeck ==>
      r == Err(ValueError(PeckTooLarge))
  {
    if s.diameter <= 0.0 || s.depth <= 0.0 || s.peckDepth <= 0.0 then Err(ValueError(DrillingDimsNotPositive))
    else if s.peckDepth < s.diameter * 0.5 then Err(ValueError(PeckTooSmall))
    else if s.peckDepth > MaxPeck then Err(ValueError(PeckTooLarge))
    else Ok(s)
  }

  /** A drill wider than 30 mm cannot use the default peck depth: 15 mm is less than
      half its diameter. */
  lemma WideDrillNeedsPeck(dia: real, depth: real)
    requires dia > 30.0 && depth > 0.0
    ensures SetDimensions(map["diameter" := Num(dia), "depth" := Num(depth)]) == Err(ValueError(PeckTooSmall))
  {
    var d := map["diameter" := Num(dia), "depth" := Num(depth)];
    assert "peck_depth" !in d && "retract_distance" !in d;
    assert ReadDims(d) == Ok(DrillingDims(dia, depth, DefaultPeckCap, 2.0));
  }

  /** Up to 30 mm the default peck depth always passes the peck limits. */
  lemma DefaultPeckAccepted(dia: real, depth: real)
    requires 0.0 < dia <= 30.0 && depth > 0.0
    ensures SetDimensions(map["diameter" := Num(dia), "depth" := Num(depth)])
         == Ok(DrillingDims(dia, depth, Min(3.0 * dia, DefaultPeckCap), 2.0))
  {
    var d := map["diameter" := Num(dia), "depth" := Num(depth)];
    assert "peck_depth" !in d && "retract_distance" !in d;
    assert ReadDims(d) == Ok(DrillingDims(dia, depth, Min(3.0 * dia, DefaultPeckCap), 2.0));
  }

  /** The spindle speed that gives `cuttingSpeed` m/min at the rim of a drill of
      `diameter` mm, scaled by the rating share. */
  function RimSpeed(cuttingSpeed: real, diameter: real, rating: real): (rpm: real)
    requires diameter > 0.0
    ensures rpm * (Pi * diameter) == cuttingSpeed * 1000.0 * RatingScale(rating)
  {
    QuotientTimes(cuttingSpeed * 1000.0, Pi * diameter);
    (cuttingSpeed * 1000.0) / (Pi * diameter) * RatingScale(rating)
  }

  /** A wider drill turns no faster at the same cutting speed. */
  lemma {:induction false} RimSpeedAntitone(cuttingSpeed: real, d1: real, d2: real, rating: real)
    requires cuttingSpeed > 0.0 && 0.0 < d1 <= d2 && rating >= 0.0
    ensures RimSpeed(cuttingSpeed, d2, rating) <= RimSpeed(cuttingSpeed, d1, rating)
  {
    MulMonotone(d1, d2, Pi);
    assert Pi * d1 <= Pi * d2;
    MulStrict(0.0, d1, Pi);
    QuotientAntitone(cuttingSpeed * 1000.0, Pi * d1, Pi * d2);
    MulMonotone((cuttingSpeed * 1000.0) / (Pi * d2), (cuttingSpeed * 1000.0) / (Pi * d1), RatingScale(rating));
  }

  /** The spindle speed before rounding: from the row's cutting speed when it and the
      diameter are positive, else the drilling speed column, else the minimum speed. */
  function RawSpeed(p: ParamRow, diameter: real, rating: real): real
  {
    var cuttingSpeed := Attr(p, "cutting_speed", 0.0);
    if cuttingSpeed > 0.0 && diameter > 0.0 then RimSpeed(cuttingSpeed, diameter, rating)
    else
      var drill := Attr(p, "spindle_speed_drill", 0.0);
      if drill <= 0.0 then p.speedMin else drill
  }

  /** The feed before rounding: the drilling feed column when positive, else the
      minimum feed. */
  function RawFeed(p: ParamRow): real
  {
    var drill := Attr(p, "feed_rate_drill", 0.0);
    if drill <= 0.0 then p.feedMin else drill
  }

  /** `_get_machining_parameters`: the feed rounded to 0.001 mm/rev and the speed to
      0.1 RPM; no row is an error. */
  function ToolingFor(row: Option<ParamRow>, diameter: real, rating: real): (r: Result<Tooling, Error>)
    ensures r.Err? <==> row.None?
    ensures r.Err? ==> r.error == ValueError(NoParameters)
    ensures r.Ok? ==> r.value.feed * 1000.0 == RoundInt(RawFeed(row.value) * 1000.0) as real
    ensures r.Ok? ==> r.value.speed * 10.0 == RoundInt(RawSpeed(row.value, diameter, rating) * 10.0) as real
  {
    match row
    case None => Err(ValueError(NoParameters))
    case Some(p) => Ok(Tooling(Round(RawFeed(p), 1000.0), Round(RawSpeed(p, diameter, rating), 10.0)))
  }

  /** A tiny feed rounds to zero, which stops the calculation: the feed is zero exactly
      when the raw feed lies within 0.0005 mm/rev of zero. */
  lemma FeedRoundsToZero(p: ParamRow, diameter: real, rating: real)
    ensures ToolingFor(Some(p), diameter, rating).value.feed == 0.0 <==> -0.0005 <= RawFeed(p) <= 0.0005
  {
    RoundIntZero(RawFeed(p) * 1000.0);
  }

  /** The plan for a resolved tool: the peck count for the depth, the travel with one
      retract per extra peck, the time at the feed rate with the safety factor. */
  function Plan(s: DrillingDims, tool: Tooling, hourRate: real): (e: DrillingEstimate)
    requires s.peckDepth != 0.0 && tool.feed * tool.speed != 0.0
    ensures e.tool == tool && e.feedRate == tool.feed * tool.speed && e.hourRate == hourRate
    ensures e.peckCount == PassCount(s.depth, s.peckDepth) >= 1
    ensures e.travel == s.depth + s.retract * (e.peckCount - 1) as real
    ensures s.depth >= 0.0 && s.peckDepth > 0.0 ==>
      s.depth <= e.peckCount as real * s.peckDepth
      && (e.peckCount > 1 ==> (e.peckCount - 1) as real * s.peckDepth < s.depth)
    ensures e.totalTime * e.feedRate == e.travel * DrillingSafety
    ensures e.cost == CostOf(e.totalTime, hourRate)
    ensures Ordered(e.warnings)
    ensures HighDrillFeedRate in e.warnings <==> e.feedRate > 1000.0
    ensures MultiplePecks in e.warnings <==> e.peckCount > 1
    ensures SmallDrillFeed in e.warnings <==> s.diameter < 3.0 && tool.feed > 0.1
    ensures forall w :: w in e.warnings ==> w in {HighDrillFeedRate, MultiplePecks, SmallDrillFeed}
  {
    var pecks := PassCount(s.depth, s.peckDepth);
    if s.peckDepth > 0.0 then PassesCover(s.depth, s.peckDepth); Assemble(s, tool, pecks, hourRate)
    else Assemble(s, tool, pecks, hourRate)
  }

  function Assemble(s: DrillingDims, tool: Tooling, pecks: int, hourRate: real): (e: DrillingEstimate)
    requires tool.feed * tool.speed != 0.0
    ensures e.tool == tool && e.feedRate == tool.feed * tool.speed && e.hourRate == hourRate
    ensures e.peckCount == pecks
    ensures e.travel == s.depth + s.retract * (pecks - 1) as real
    ensures e.totalTime * e.feedRate == e.travel * DrillingSafety
    ensures e.cost == CostOf(e.totalTime, hourRate)
    ensures Ordered(e.warnings)
    ensures HighDrillFeedRate in e.warnings <==> e.feedRate > 1000.0
    ensures MultiplePecks in e.warnings <==> pecks > 1
    ensures SmallDrillFeed in e.warnings <==> s.diameter < 3.0 && tool.feed > 0.1
    ensures forall w :: w in e.warnings ==> w in {HighDrillFeedRate, MultiplePecks, SmallDrillFeed}
  {
    var rate := tool.feed * tool.speed;
    var travel := s.depth + s.retract * (pecks - 1) as real;
    QuotientTimes(travel, rate);
    var totalTime := travel / rate * DrillingSafety;
    assert totalTime * rate == (travel / rate * rate) * DrillingSafety;
    var checks := [(rate > 1000.0, HighDrillFeedRate),
                   (pecks > 1, MultiplePecks),
                   (s.diameter < 3.0 && tool.feed > 0.1, SmallDrillFeed)];
    EmitSpec(checks);
    DrillingEstimate(tool, rate, pecks, travel, totalTime, hourRate, CostOf(totalTime, hourRate), Emit(checks))
  }

  /** `calculate`: resolve the tool, then plan; a zero peck depth or a zero feed rate is
      a division by zero, and every exception becomes the error envelope. */
  function Calculate(s: DrillingDims, row: Option<ParamRow>, rating: real): (r: Report<DrillingEstimate>)
    ensures row.None? ==> r == Failed(ValueError(NoParameters))
    ensures row.Some? ==>
      var tool := ToolingFor(row, s.diameter, rating).value;
      && (r.Failed? <==> s.peckDepth == 0.0 || tool.feed * tool.speed == 0.0)
      && (r.Failed? ==> r.error == ZeroDivisionError)
      && (r.Done? ==> r.value == Plan(s, tool, HourRate(row.value)))
  {
    match ToolingFor(row, s.diameter, rating)
    case Err(e) => Failed(e)
    case Ok(tool) =>
      if s.peckDepth == 0.0 then Failed(ZeroDivisionError)
      else if tool.feed * tool.speed == 0.0 then Failed(ZeroDivisionError)
      else Done(Plan(s, tool, HourRate(row.value)))
  }

  /** Before `set_dimensions` the peck depth is zero, so any row fails with a division
      by zero. */
  lemma UnsetFails(row: ParamRow, rating: real)
    ensures Calculate(Unset, Some(row), rating) == Failed(ZeroDivisionError)
  {
  }

  /** Worked example: an 8 mm drill 40 mm deep pecks at the 15 mm default, so three
      pecks and 44 mm of travel with the 2 mm retract; at 0.1 mm/rev and 1000 RPM that
      is 0.484 minutes. */
  lemma WorkedExample()
    ensures SetDimensions(map["diameter" := Num(8.0), "depth" := Num(40.0)]) == Ok(DrillingDims(8.0, 40.0, 15.0, 2.0))
    ensures var e := Plan(DrillingDims(8.0, 40.0, 15.0, 2.0), Tooling(0.1, 1000.0), 150.0);
      e.peckCount == 3 && e.travel == 44.0 && e.totalTime == 0.484 && MultiplePecks in e.warnings
  {
    DefaultPeckAccepted(8.0, 40.0);
    assert Ceil(40.0 / 15.0) == 3;
  }
}

=== FILE: errors.dfy ===
/** The exceptions the engine raises and the error envelope its calculations return. */
module Errors {

  /** Why a `ValueError` was raised; one constructor per distinct message of the source. */
  datatype Reason =
    | NotANumber(text: string)
    | NotAnInteger(text: string)
    | TurningDimsNotPositive
    | StartNotAboveEnd
    | NoDepthToRemove
    | InvalidCutType(cutType: string)
    | FacingDimsNotPositive
    | FacingFeedSpeedNotPositive
    | NoParameters
    | BoringDimsMissing
    | DiametersNotPositive
    | FinalNotAboveInitial
    | DepthNotPositive
    | DrillingDimsRequired
    | DrillingInputInvalid
    | DrillingDimsNotPositive
    | PeckTooSmall
    | PeckTooLarge
    | NoThreadDimensions
    | MissingThreadParameters(names: seq<string>)
    | ThreadValuesInvalid
    | ThreadDimsNotPositive
    | ThreadsPerPassNotPositive
    | BadThreadType
    | KnurlingDimsRequired
    | KnurlingDimsNotPositive
    | KnurlingPhasesMissing
    | PartingDepthNotPositive
    | MillingDimsNotPositive
    | UnsupportedOperation(name: string)
    | CalculationFailed(inner: Error)

  /** The Python exception classes that can arise in the engine. */
  datatype Error =
    | ValueError(reason: Reason)
    | TypeError
    | ZeroDivisionError
    | AttributeError
    | KeyError

  /** What a `calculate` method returns: its result dictionary, or the `{'error': ...}`
      dictionary built from the exception it caught. */
  datatype Report<+T> = Done(value: T) | Failed(error: Error)
}

=== FILE: facing.dfy ===
/** Facing a bar end: roughing passes over the stock above the finishing allowance,
    then a finishing cut; every pass crosses the radius. The parameter queries go through
    a database connection nothing sets, so as written `calculate` never estimates
    (`CalculateAsWritten`); `Calculate` takes the rows as a parameter. */
module Facing {
  import opened Wrappers
  import opened Numeric
  import opened Errors
  import opened Inputs
  import opened Params
  import opened Warnings
  import BaseOperation

  const FaceApproach: real := 5.0
  const FaceOverrun: real := 5.0
  /** Facing's own overhead multiplier. */
  const FacingSafety: real := 1.1

  /** The attributes `set_dimensions` stores; all zero before it runs. */
  datatype FacingDims = FacingDims(diameter: real, depthOfCut: real, feed: real, spindleSpeed: real)

  const Unset: FacingDims := FacingDims(0.0, 0.0, 0.0, 0.0)

  datatype FacingEstimate = FacingEstimate(
    lengthOfCut: real,
    rough: PhaseParams, roughDepth: real, roughPasses: int, roughTime: real,
    finish: PhaseParams, finishDepth: real, finishPasses: int, finishTime: real,
    totalTime: real, cost: real,
    warnings: seq<Warning>)

  predicate ValidDims(s: FacingDims)
  {
    s.diameter > 0.0 && s.depthOfCut > 0.0 && s.feed > 0.0 && s.spindleSpeed > 0.0
  }

  /** The dimensions a map of numbers reads as: absent diameter and depth read 0, an
      absent feed or speed the row default. */
  function NumbersRead(d: Dims, row: Option<ParamRow>): FacingDims
  {
    FacingDims(NumOr(d, "diameter", 0.0), NumOr(d, "depth_of_cut", 0.0),
               NumOr(d, "feed", DefaultFeedSpeed(row).0), NumOr(d, "spindle_speed", DefaultFeedSpeed(row).1))
  }

  /** `set_dimensions`: diameter and depth of cut must be positive, and so must the feed
      and spindle speed (given, or defaulted from the row). */
  function SetDimensions(d: Dims, row: Option<ParamRow>): (r: Result<FacingDims, Error>)
    ensures r.Ok? ==> ValidDims(r.value)
    ensures AllNumbers(d) ==>
      (r.Ok? <==> ValidDims(NumbersRead(d, row))) && (r.Ok? ==> r.value == NumbersRead(d, row))
    ensures AllNumbers(d) && !(NumbersRead(d, row).diameter > 0.0 && NumbersRead(d, row).depthOfCut > 0.0) ==>
      r == Err(ValueError(FacingDimsNotPositive))
    ensures (&& AllNumbers(d) && NumbersRead(d, row).diameter > 0.0 && NumbersRead(d, row).depthOfCut > 0.0
             && !(NumbersRead(d, row).feed > 0.0 && NumbersRead(d, row).spindleSpeed > 0.0)) ==>
      r == Err(ValueError(FacingFeedSpeedNotPositive))
    ensures r.Ok? ==> "diameter" in d && d["diameter"] == Num(r.value.diameter)
    ensures r.Ok? ==> "depth_of_cut" in d && d["depth_of_cut"] == Num(r.value.depthOfCut)
    ensures r.Ok? && "feed" !in d ==> r.value.feed == DefaultFeedSpeed(row).0
    ensures r.Ok? && "spindle_speed" !in d ==> r.value.spindleSpeed == DefaultFeedSpeed(row).1
    ensures "diameter" !in d || "depth_of_cut" !in d ==> r.Err?
    ensures r.Err? && r.error == ValueError(FacingFeedSpeedNotPositive) ==>
      "diameter" in d && "depth_of_cut" in d
  {
    var defaults := DefaultFeedSpeed(row);
    var diameter :- FloatOr(d, "diameter", 0.0);
    var doc :- FloatOr(d, "depth_of_cut", 0.0);
    var feed :- FloatOr(d, "feed", defaults.0);
    var speed :- FloatOr(d, "spindle_speed", defaults.1);
    if diameter <= 0.0 || doc <= 0.0 then Err(ValueError(FacingDimsNotPositive))
    else if feed <= 0.0 || speed <= 0.0 then Err(ValueError(FacingFeedSpeedNotPositive))
    else Ok(FacingDims(diameter, doc, feed, speed))
  }

  /** `_get_machining_parameters`: the preferred row's phase extremes; no row at all is
      an error. */
  function PhaseFor(rows: seq<ParamRow>, phase: Phase): (r: Result<PhaseParams, Error>)
    ensures r.Err? <==> rows == []
    ensures r.Err? ==> r.error == ValueError(NoParameters)
    ensures r.Ok? ==> exists p :: p in rows && r.value == Extremes(p, phase)
    ensures r.Ok? && (exists k :: 0 <= k < |rows| && TaggedFor(rows[k], phase)) ==>
      exists p :: p in rows && TaggedFor(p, phase) && r.value == Extremes(p, phase)
  {
    match SelectRow(rows, phase)
    case None => Err(ValueError(NoParameters))
    case Some(p) => Ok(Extremes(p, phase))
  }

  /** `_calculate_cutting_time`: (0, 0) for a degenerate request; otherwise the pass count
      for the stock and that many passes of `length` at `feed * rpm`. */
  function CuttingTime(length: real, feed: real, rpm: real, depth: real, totalDepth: real): (r: (real, int))
    ensures depth <= 0.0 || totalDepth <= 0.0 || feed <= 0.0 || rpm <= 0.0 <==> r == (0.0, 0)
    ensures r.1 >= 1 ==> r.1 == PassCount(totalDepth, depth) && totalDepth / r.1 as real <= depth
    ensures r.1 >= 1 ==> r.0 * (feed * rpm) == r.1 as real * length
    ensures length >= 0.0 ==> r.0 >= 0.0
  {
    if depth <= 0.0 || totalDepth <= 0.0 || feed <= 0.0 || rpm <= 0.0 then (0.0, 0)
    else
      var passes := PassCount(totalDepth, depth);
      PassPlan(totalDepth, depth);
      var rate := feed * rpm;
      (BaseOperation.PassesAt(length, rate, passes), passes)
  }

  /** The plan once both phases are resolved. */
  function Plan(s: FacingDims, rough: PhaseParams, finish: PhaseParams): (e: FacingEstimate)
    requires s.diameter > 0.0 && s.depthOfCut > 0.0
    ensures e.lengthOfCut == s.diameter / 2.0 + FaceApproach + FaceOverrun
    ensures e.rough == rough && e.finish == finish
    ensures e.roughDepth >= 0.0 && e.roughDepth >= s.depthOfCut - finish.doc
    ensures e.roughDepth > 0.0 ==> e.roughDepth + finish.doc == s.depthOfCut
    ensures e.roughPasses == 0 <==>
      e.roughDepth == 0.0 || rough.doc <= 0.0 || rough.feed <= 0.0 || rough.speed <= 0.0
    ensures e.roughPasses >= 1 ==>
      e.roughPasses == PassCount(e.roughDepth, rough.doc) && e.roughDepth / e.roughPasses as real <= rough.doc
    ensures e.finishDepth <= finish.doc && e.finishDepth <= s.depthOfCut
    ensures e.finishDepth == finish.doc || e.finishDepth == s.depthOfCut
    ensures finish.doc > 0.0 && finish.feed > 0.0 && finish.speed > 0.0 ==> e.finishPasses == 1
    ensures finish.doc <= 0.0 || finish.feed <= 0.0 || finish.speed <= 0.0 ==> e.finishPasses == 0
    ensures e.roughPasses >= 1 ==> e.roughTime * (rough.feed * rough.speed) == e.roughPasses as real * e.lengthOfCut
    ensures e.finishPasses == 1 ==> e.finishTime * (finish.feed * finish.speed) == e.lengthOfCut
    ensures e.roughPasses == 0 ==> e.roughTime == 0.0
    ensures e.finishPasses == 0 ==> e.finishTime == 0.0
    ensures e.roughTime >= 0.0 && e.finishTime >= 0.0
    ensures Totals(e)
  {
    var lengthOfCut := s.diameter / 2.0 + FaceApproach + FaceOverrun;
    var roughDepth := Max(0.0, s.depthOfCut - finish.doc);
    var (roughTime, roughPasses) := CuttingTime(lengthOfCut, rough.feed, rough.speed, rough.doc, roughDepth);
    var finishDepth := Min(finish.doc, s.depthOfCut);
    FinishIsOnePass(finish.doc, s.depthOfCut);
    var (finishTime, finishPasses) := CuttingTime(lengthOfCut, finish.feed, finish.speed, finish.doc, finishDepth);
    Assemble(lengthOfCut, rough, roughDepth, roughPasses, roughTime, finish, finishDepth, finishPasses, finishTime)
  }

  /** The totals and warnings every facing estimate satisfies: safety factor, cost at the
      machine-hour rate, non-negative time and cost, warnings in order. */
  predicate Totals(e: FacingEstimate)
  {
    && e.totalTime == (e.roughTime + e.finishTime) * FacingSafety
    && e.cost == e.totalTime / 60.0 * BaseOperation.MachineHourRate
    && (e.roughTime >= 0.0 && e.finishTime >= 0.0 ==> e.totalTime >= 0.0 && e.cost >= 0.0)
    && Ordered(e.warnings)
    && (MultipleRoughPasses in e.warnings <==> e.roughPasses > 1)
    && (HighRoughFeedRate in e.warnings <==> e.rough.Rate() > 1000.0)
    && (HighFinishFeedRate in e.warnings <==> e.finish.Rate() > 800.0)
    && (forall w :: w in e.warnings ==> w in {MultipleRoughPasses, HighRoughFeedRate, HighFinishFeedRate})
  }

  function Assemble(lengthOfCut: real, rough: PhaseParams, roughDepth: real, roughPasses: int, roughTime: real,
                    finish: PhaseParams, finishDepth: real, finishPasses: int, finishTime: real): (e: FacingEstimate)
    ensures e.lengthOfCut == lengthOfCut && e.rough == rough && e.roughDepth == roughDepth
    ensures e.roughPasses == roughPasses && e.roughTime == roughTime
    ensures e.finish == finish && e.finishDepth == finishDepth
    ensures e.finishPasses == finishPasses && e.finishTime == finishTime
    ensures Totals(e)
  {
    var totalTime := (roughTime + finishTime) * FacingSafety;
    var checks := [(roughPasses > 1, MultipleRoughPasses),
                   (rough.Rate() > 1000.0, HighRoughFeedRate),
                   (finish.Rate() > 800.0, HighFinishFeedRate)];
    EmitSpec(checks);
    var e := FacingEstimate(lengthOfCut, rough, roughDepth, roughPasses, roughTime,
                            finish, finishDepth, finishPasses, finishTime,
                            totalTime, totalTime / 60.0 * BaseOperation.MachineHourRate, Emit(checks));
    e
  }

  /** The finishing stock never exceeds the finishing depth of cut, so it is one pass. */
  lemma FinishIsOnePass(finishDoc: real, depthOfCut: real)
    requires depthOfCut > 0.0
    ensures finishDoc > 0.0 ==> PassCount(Min(finishDoc, depthOfCut), finishDoc) == 1
  {
    if finishDoc > 0.0 {
      var m := Min(finishDoc, depthOfCut);
      assert m / finishDoc <= 1.0 by {
        QuotientTimes(m, finishDoc);
      }
    }
  }

  /** `calculate`: re-check the dimensions, resolve both phases, plan; every exception
      becomes the error envelope. */
  function Calculate(s: FacingDims, rows: seq<ParamRow>): (r: Report<FacingEstimate>)
    ensures !(s.diameter > 0.0 && s.depthOfCut > 0.0) ==> r == Failed(ValueError(FacingDimsNotPositive))
    ensures s.diameter > 0.0 && s.depthOfCut > 0.0 && rows == [] ==> r == Failed(ValueError(NoParameters))
    ensures r.Done? <==> s.diameter > 0.0 && s.depthOfCut > 0.0 && rows != []
    ensures r.Done? ==>
      r.value == Plan(s, PhaseFor(rows, Rough).value, PhaseFor(rows, Finish).value)
  {
    if s.diameter <= 0.0 || s.depthOfCut <= 0.0 then Failed(ValueError(FacingDimsNotPositive))
    else
      match PhaseFor(rows, Rough)
      case Err(e) => Failed(e)
      case Ok(rough) =>
        match PhaseFor(rows, Finish)
        case Err(e) => Failed(e)
        case Ok(finish) => Done(Plan(s, rough, finish))
  }

  /** `calculate` as written: past the dimension check, `_get_machining_parameters` reads
      a `db_conn` that nothing sets, and the handler turns that `AttributeError` into the
      error envelope, whatever the rows. */
  function CalculateAsWritten(s: FacingDims, rows: seq<ParamRow>): (r: Report<FacingEstimate>)
    ensures r.Failed?
    ensures s.diameter > 0.0 && s.depthOfCut > 0.0 ==> r.error == AttributeError
  {
    if s.diameter <= 0.0 || s.depthOfCut <= 0.0 then Failed(ValueError(FacingDimsNotPositive))
    else Failed(AttributeError)
  }

  /** The script never yields an estimate, while the model that is handed the rows yields
      one whenever the dimensions are positive and some row exists; both reject
      non-positive dimensions alike. */
  lemma {:induction false} AsWrittenNeverEstimates(s: FacingDims, rows: seq<ParamRow>)
    ensures CalculateAsWritten(s, rows).Failed?
    ensures Calculate(s, rows).Done? <==> s.diameter > 0.0 && s.depthOfCut > 0.0 && rows != []
    ensures !(s.diameter > 0.0 && s.depthOfCut > 0.0) ==> CalculateAsWritten(s, rows) == Calculate(s, rows)
  {
  }
}

=== FILE: grooving.dfy ===
/** Grooving: a parting-style tool plunges across the groove in passes no wider than
    the tool, roughing and then finishing at derated feeds and speeds. */
module Grooving {
  import opened Wrappers
  import opened Numeric
  import opened Errors
  import opened Params
  import opened Warnings
  import opened BaseOperation

  /** Grooving's own overhead multiplier. */
  const GroovingSafety: real := 1.3
  /** The widest tool assumed (mm). */
  const MaxToolWidth: real := 3.0
  /** Grooves narrower than this (mm) draw a warning. */
  const MinGrooveWidth: real := 1.0

  /** The groove the calculation reads: width, workpiece diameter and groove depth. */
  datatype GroovingDims = GroovingDims(width: real, diameter: real, depth: real)

  datatype GroovingEstimate = GroovingEstimate(
    toolWidth: real, passes: int, passLength: real,
    rough: PhaseParams, roughTime: real,
    finish: PhaseParams, finishTime: real,
    totalTime: real, cost: real,
    warnings: seq<Warning>)

  /** The derated parameters of a row: roughing at 70% of the maximum feed and the
      minimum speed, finishing at half the minimum feed and 80% of the maximum speed. */
  function Derated(row: ParamRow, phase: Phase): PhaseParams
  {
    match phase
    case Rough => PhaseParams(row.feedMax * 0.7, row.speedMin, row.docMax)
    case Finish => PhaseParams(row.feedMin * 0.5, row.speedMax * 0.8, row.docMin)
  }

  /** With non-negative columns the derated parameters never exceed the phase extremes,
      and they keep the extreme's depth of cut. */
  lemma DeratedBelowExtremes(row: ParamRow, phase: Phase)
    requires row.feedMin >= 0.0 && row.feedMax >= 0.0 && row.speedMax >= 0.0
    ensures Derated(row, phase).feed <= Extremes(row, phase).feed
    ensures Derated(row, phase).speed <= Extremes(row, phase).speed
    ensures Derated(row, phase).doc == Extremes(row, phase).doc
  {
  }

  /** `_get_machining_parameters`: the preferred row for the phase, derated; no row at
      all is an error. */
  function PhaseFor(rows: seq<ParamRow>, phase: Phase): (r: Result<PhaseParams, Error>)
    ensures r.Err? <==> rows == []
    ensures r.Err? ==> r.error == ValueError(NoParameters)
    ensures r.Ok? ==> exists p :: p in rows && r.value == Derated(p, phase)
    ensures r.Ok? && (exists k :: 0 <= k < |rows| && TaggedFor(rows[k], phase)) ==>
      exists p :: p in rows && TaggedFor(p, phase) && r.value == Derated(p, phase)
  {
    match SelectRow(rows, phase)
    case None => Err(ValueError(NoParameters))
    case Some(p) => Ok(Derated(p, phase))
  }

  /** The tool width: 90% of the groove, at most 3 mm. */
  function ToolWidth(width: real): real
  {
    Min(MaxToolWidth, width * 0.9)
  }

  /** A tool narrower than the groove always needs a second pass: any non-zero width
      takes at least two passes, and a groove up to 10/3 mm wide takes exactly two. */
  lemma {:induction false} AtLeastTwoPasses(width: real)
    requires width != 0.0
    ensures PassCount(width, ToolWidth(width)) >= 2
    ensures width <= 10.0 / 3.0 ==> PassCount(width, ToolWidth(width)) == 2
  {
    var t := ToolWidth(width);
    if width * 0.9 <= MaxToolWidth {
      assert t == width * 0.9;
      var q := width / t;
      QuotientTimes(width, t);
      assert (10.0 / 9.0) * t == width;
      Cancel(q, 10.0 / 9.0, t);
      assert Ceil(q) == 2;
    } else {
      assert t == 3.0 && width > 10.0 / 3.0;
      assert width / 3.0 > 1.0;
    }
  }

  /** The passes span the groove, and one pass fewer would not. */
  lemma {:induction false} PassesCoverGroove(width: real)
    ensures var t := ToolWidth(width);
      width > 0.0 ==>
        width <= PassCount(width, t) as real * t && (PassCount(width, t) - 1) as real * t < width
  {
    if width > 0.0 {
      var t := ToolWidth(width);
      var passes := PassCount(width, t);
      PassPlan(width, t);
      QuotientTimes(width, passes as real);
      MulMonotone(width / passes as real, t, passes as real);
      AtLeastTwoPasses(width);
    }
  }

  /** The plan once both phases are resolved: the same number of passes for roughing
      and finishing, each one turn of the workpiece. */
  function Plan(s: GroovingDims, rough: PhaseParams, finish: PhaseParams): (e: GroovingEstimate)
    requires s.width != 0.0 && rough.Rate() != 0.0 && finish.Rate() != 0.0
    ensures e.rough == rough && e.finish == finish
    ensures e.toolWidth == ToolWidth(s.width) <= MaxToolWidth
    ensures e.passes == PassCount(s.width, e.toolWidth) >= 2
    ensures s.width > 0.0 ==>
      s.width <= e.passes as real * e.toolWidth && (e.passes - 1) as real * e.toolWidth < s.width
    ensures e.passLength == s.diameter * Pi
    ensures e.roughTime * rough.Rate() == e.passes as real * e.passLength
    ensures e.finishTime * finish.Rate() == e.passes as real * e.passLength
    ensures e.totalTime == (e.roughTime + e.finishTime) * GroovingSafety
    ensures e.cost == CostOf(e.totalTime, MachineHourRate)
    ensures s.diameter >= 0.0 && rough.Rate() > 0.0 && finish.Rate() > 0.0 ==>
      e.roughTime >= 0.0 && e.finishTime >= 0.0 && e.totalTime >= 0.0 && e.cost >= 0.0
    ensures e.warnings == (if s.width < MinGrooveWidth then [NarrowGroove] else [])
  {
    var toolWidth := ToolWidth(s.width);
    AtLeastTwoPasses(s.width);
    PassesCoverGroove(s.width);
    Assemble(s, toolWidth, PassCount(s.width, toolWidth), rough, finish)
  }

  /** The times, cost and warnings for a fixed pass count. */
  function Assemble(s: GroovingDims, toolWidth: real, passes: int, rough: PhaseParams, finish: PhaseParams): (e: GroovingEstimate)
    requires rough.Rate() != 0.0 && finish.Rate() != 0.0 && passes >= 0
    ensures e.toolWidth == toolWidth && e.passes == passes
    ensures e.rough == rough && e.finish == finish
    ensures e.passLength == s.diameter * Pi
    ensures e.roughTime * rough.Rate() == e.passes as real * e.passLength
    ensures e.finishTime * finish.Rate() == e.passes as real * e.passLength
    ensures e.totalTime == (e.roughTime + e.finishTime) * GroovingSafety
    ensures e.cost == CostOf(e.totalTime, MachineHourRate)
    ensures s.diameter >= 0.0 && rough.Rate() > 0.0 && finish.Rate() > 0.0 ==>
      e.roughTime >= 0.0 && e.finishTime >= 0.0 && e.totalTime >= 0.0 && e.cost >= 0.0
    ensures e.warnings == (if s.width < MinGrooveWidth then [NarrowGroove] else [])
  {
    var passLength := s.diameter * Pi;
    var roughTime := PassesAt(passLength, rough.Rate(), passes);
    var finishTime := PassesAt(passLength, finish.Rate(), passes);
    var totalTime := (roughTime + finishTime) * GroovingSafety;
    GroovingEstimate(toolWidth, passes, passLength, rough, roughTime, finish, finishTime,
                     totalTime, CostOf(totalTime, MachineHourRate),
                     if s.width < MinGrooveWidth then [NarrowGroove] else [])
  }

  /** `calculate`: resolve both phases, then plan; a zero width or a zero feed rate is a
      division by zero, and every exception becomes the error envelope. */
  function Calculate(s: GroovingDims, rows: seq<ParamRow>): (r: Report<GroovingEstimate>)
    ensures rows == [] ==> r == Failed(ValueError(NoParameters))
    ensures rows != [] ==>
      var rough := PhaseFor(rows, Rough).value;
      var finish := PhaseFor(rows, Finish).value;
      && (r.Failed? <==> s.width == 0.0 || rough.Rate() == 0.0 || finish.Rate() == 0.0)
      && (r.Failed? ==> r.error == ZeroDivisionError)
      && (r.Done? ==> r.value == Plan(s, rough, finish))
  {
    match PhaseFor(rows, Rough)
    case Err(e) => Failed(e)
    case Ok(rough) =>
      match PhaseFor(rows, Finish)
      case Err(e) => Failed(e)
      case Ok(finish) =>
        if ToolWidth(s.width) == 0.0 then Failed(ZeroDivisionError)
        else if rough.Rate() == 0.0 || finish.Rate() == 0.0 then Failed(ZeroDivisionError)
        else Done(Plan(s, rough, finish))
  }

  /** A wider groove at the same diameter and feeds never takes fewer passes. */
  lemma {:induction false} WiderGrooveMorePasses(w1: real, w2: real)
    requires 0.0 < w1 <= w2
    ensures PassCount(w1, ToolWidth(w1)) <= PassCount(w2, ToolWidth(w2))
  {
    AtLeastTwoPasses(w1);
    AtLeastTwoPasses(w2);
    if w2 * 0.9 > MaxToolWidth {
      if w1 * 0.9 > MaxToolWidth {
        PassCountMonotone(w1, w2, MaxToolWidth);
      }
    }
  }
}

=== FILE: inputs.dfy ===
/** The user's dimension dictionary and the Python idioms used to read it. */
module Inputs {
  import opened Wrappers
  import opened Errors
  import opened Numeric

  /** A dictionary value: a number, or text that is never read as a number. */
  datatype Value = Num(x: real) | Text(s: string)

  type Dims = map<string, Value>

  /** `d.get(k)`: absent keys give `None`. */
  function Get(d: Dims, k: string): Option<Value>
  {
    if k in d then Some(d[k]) else None
  }

  /** Python truthiness: `None`, `0` and `''` are false. */
  predicate Truthy(v: Option<Value>)
  {
    match v
    case None => false
    case Some(Num(x)) => x != 0.0
    case Some(Text(s)) => |s| > 0
  }

  /** Python's `a or b`. */
  function Or(a: Option<Value>, b: Option<Value>): Option<Value>
  {
    if Truthy(a) then a else b
  }

  /** `float(v)`: `None` raises `TypeError`, text raises `ValueError`. */
  function Float(v: Option<Value>): Result<real, Error>
  {
    match v
    case None => Err(TypeError)
    case Some(Num(x)) => Ok(x)
    case Some(Text(s)) => Err(ValueError(NotANumber(s)))
  }

  /** `float(d.get(k, default))`. */
  function FloatOr(d: Dims, k: string, default: real): Result<real, Error>
  {
    Float(Some(Get(d, k).GetOr(Num(default))))
  }

  /** Every value given is a number. */
  predicate AllNumbers(d: Dims)
  {
    forall k :: k in d ==> d[k].Num?
  }

  /** The number a read produces when it is one, else `default`. */
  function NumOf(v: Option<Value>, default: real): real
  {
    match v
    case Some(Num(x)) => x
    case _ => default
  }

  /** `float(d.get(k, default))` for a key that is absent or holds a number. */
  function NumOr(d: Dims, k: string, default: real): real
  {
    NumOf(Get(d, k), default)
  }

  /** `int(v)`: a number is truncated toward zero, text raises `ValueError`. */
  function Int(v: Value): Result<int, Error>
  {
    match v
    case Num(x) => Ok(Trunc(x))
    case Text(s) => Err(ValueError(NotAnInteger(s)))
  }
}

=== FILE: knurling.dfy ===
/** Knurling: a roughing and a finishing pass, each run twice over the knurl length, with
    the phase parameters taken from the rows whose notes read "rough cut" and
    "finish cut". */
module Knurling {
  import opened Wrappers
  import opened Numeric
  import opened Errors
  import opened Inputs
  import opened Params
  import opened Warnings
  import opened BaseOperation
  import opened Text

  /** Knurling's own overhead multiplier. */
  const KnurlingSafety: real := 1.1
  /** Each phase runs this many times. */
  const KnurlPasses: real := 2.0
  /** Knurling charges a fixed hourly rate, whatever the row says. */
  const KnurlHourRate: real := 150.0

  /** The attributes `set_dimensions` stores; zero before it runs. */
  datatype KnurlingDims = KnurlingDims(length: real, diameter: real)

  const Unset: KnurlingDims := KnurlingDims(0.0, 0.0)

  datatype KnurlingEstimate = KnurlingEstimate(
    rough: PhaseParams, finish: PhaseParams,
    roughPassTime: real, finishPassTime: real,
    totalTime: real, cost: real,
    warnings: seq<Warning>)

  predicate ValidDims(s: KnurlingDims)
  {
    s.length > 0.0 && s.diameter > 0.0
  }

  /** `set_dimensions`: length and diameter under either name; anything unreadable or
      absent is one error, then both must be positive. */
  function SetDimensions(d: Dims): (r: Result<KnurlingDims, Error>)
    ensures r.Ok? ==> ValidDims(r.value)
    ensures r.Ok? ==> Or(Get(d, "knurling_length"), Get(d, "length")) == Some(Num(r.value.length))
    ensures r.Ok? ==> Or(Get(d, "workpiece_diameter"), Get(d, "diameter")) == Some(Num(r.value.diameter))
    ensures r.Err? ==> r.error == ValueError(KnurlingDimsRequired) || r.error == ValueError(KnurlingDimsNotPositive)
    ensures Or(Get(d, "knurling_length"), Get(d, "length")).None? ==> r == Err(ValueError(KnurlingDimsRequired))
    ensures
      AllNumbers(d) && Or(Get(d, "knurling_length"), Get(d, "length")).Some?
      && Or(Get(d, "workpiece_diameter"), Get(d, "diameter")).Some?
      ==> (r.Err? <==> r == Err(ValueError(KnurlingDimsNotPositive)))
    ensures
      AllNumbers(d) && Or(Get(d, "knurling_length"), Get(d, "length")).Some?
      && Or(Get(d, "workpiece_diameter"), Get(d, "diameter")).Some?
      ==> var s := KnurlingDims(NumOf(Or(Get(d, "knurling_length"), Get(d, "length")), 0.0),
                                NumOf(Or(Get(d, "workpiece_diameter"), Get(d, "diameter")), 0.0));
          (r.Ok? <==> ValidDims(s)) && (r.Ok? ==> r.value == s)
  {
    var read :=
      var length :- Float(Or(Get(d, "knurling_length"), Get(d, "length")));
      var diameter :- Float(Or(Get(d, "workpiece_diameter"), Get(d, "diameter")));
      Ok(KnurlingDims(length, diameter));
    match read
    case Err(_) => Err(ValueError(KnurlingDimsRequired))
    case Ok(s) =>
      if s.length <= 0.0 || s.diameter <= 0.0 then Err(ValueError(KnurlingDimsNotPositive))
      else Ok(s)
  }

  /** A row's notes stripped and lower-cased (empty when the row has none). */
  function Note(row: ParamRow): string
  {
    Lower(Strip(row.notes.GetOr("")))
  }

  const RoughTag: string := "rough cut"
  const FinishTag: string := "finish cut"

  /** The index of the last row whose note is `tag`. */
  function LastWith(rows: seq<ParamRow>, tag: string): (k: Option<nat>)
    ensures k.Some? ==> k.value < |rows| && Note(rows[k.value]) == tag
    ensures k.Some? ==> forall j :: k.value < j < |rows| ==> Note(rows[j]) != tag
    ensures k.None? ==> forall j :: 0 <= j < |rows| ==> Note(rows[j]) != tag
  {
    if rows == [] then None
    else if Note(rows[|rows| - 1]) == tag then Some(|rows| - 1)
    else LastWith(rows[..|rows| - 1], tag)
  }

  /** The phase a tagged row provides, if any. */
  function Tagged(rows: seq<ParamRow>, tag: string, phase: Phase): Option<PhaseParams>
  {
    match LastWith(rows, tag)
    case None => None
    case Some(k) => Some(Extremes(rows[k], phase))
  }

  /** What `_get_machining_parameters` computes: a row without notes fails the scan;
      otherwise the last "rough cut" row gives the rough extremes and the last
      "finish cut" row the finish extremes, and both must exist. */
  function Phases(rows: seq<ParamRow>): (r: Result<(PhaseParams, PhaseParams), Error>)
  {
    if exists i :: 0 <= i < |rows| && rows[i].notes.None? then Err(AttributeError)
    else
      match (Tagged(rows, RoughTag, Rough), Tagged(rows, FinishTag, Finish))
      case (Some(rough), Some(finish)) => Ok((rough, finish))
      case _ => Err(ValueError(KnurlingPhasesMissing))
  }

  /** `_get_machining_parameters` as the loop over the rows it is: every matching row
      overwrites the phase found so far. */
  method Classify(rows: seq<ParamRow>) returns (r: Result<(PhaseParams, PhaseParams), Error>)
    ensures r == Phases(rows)
  {
    var rough: Option<PhaseParams> := None;
    var finish: Option<PhaseParams> := None;
    var i := 0;
    while i < |rows|
      invariant 0 <= i <= |rows|
      invariant forall j :: 0 <= j < i ==> rows[j].notes.Some?
      invariant rough == Tagged(rows[..i], RoughTag, Rough)
      invariant finish == Tagged(rows[..i], FinishTag, Finish)
    {
      if rows[i].notes.None? {
        return Err(AttributeError);
      }
      assert rows[..i + 1][..i] == rows[..i];
      var note := Lower(Strip(rows[i].notes.value));
      if note == RoughTag {
        rough := Some(Extremes(rows[i], Rough));
      } else if note == FinishTag {
        finish := Some(Extremes(rows[i], Finish));
      }
      i := i + 1;
    }
    assert rows[..i] == rows;
    if rough.None? || finish.None? {
      return Err(ValueError(KnurlingPhasesMissing));
    }
    return Ok((rough.value, finish.value));
  }

  /** The time for the two phases on a knurl of the given length. */
  function Plan(length: real, rough: PhaseParams, finish: PhaseParams): (e: KnurlingEstimate)
    requires rough.speed * rough.feed != 0.0 && finish.speed * finish.feed != 0.0
    ensures e.rough == rough && e.finish == finish
    ensures e.roughPassTime * (rough.speed * rough.feed) == length
    ensures e.finishPassTime * (finish.speed * finish.feed) == length
    ensures e.totalTime == (e.roughPassTime + e.finishPassTime) * KnurlPasses * KnurlingSafety
    ensures e.cost == CostOf(e.totalTime, KnurlHourRate)
    ensures Ordered(e.warnings)
    ensures HighKnurlSpeed in e.warnings <==> rough.speed > 200.0
    ensures HighKnurlFeed in e.warnings <==> rough.feed > 0.5
    ensures forall w :: w in e.warnings ==> w in {HighKnurlSpeed, HighKnurlFeed}
  {
    QuotientTimes(length, rough.speed * rough.feed);
    QuotientTimes(length, finish.speed * finish.feed);
    var roughTime := length / (rough.speed * rough.feed);
    var finishTime := length / (finish.speed * finish.feed);
    var totalTime := (roughTime + finishTime) * KnurlPasses * KnurlingSafety;
    var checks := [(rough.speed > 200.0, HighKnurlSpeed), (rough.feed > 0.5, HighKnurlFeed)];
    EmitSpec(checks);
    KnurlingEstimate(rough, finish, roughTime, finishTime, totalTime, CostOf(totalTime, KnurlHourRate), Emit(checks))
  }

  /** `calculate`: find both phases, then divide the length by each phase's feed rate; a
      zero rate is a division by zero and every exception becomes the error envelope.
      The dimensions are not re-checked. */
  function Calculate(s: KnurlingDims, rows: seq<ParamRow>): (r: Report<KnurlingEstimate>)
    ensures Phases(rows).Err? ==> r == Failed(Phases(rows).error)
    ensures Phases(rows).Ok? ==>
      var (rough, finish) := Phases(rows).value;
      && (r.Failed? <==> rough.speed * rough.feed == 0.0 || finish.speed * finish.feed == 0.0)
      && (r.Failed? ==> r.error == ZeroDivisionError)
      && (r.Done? ==> r.value == Plan(s.length, rough, finish))
  {
    match Phases(rows)
    case Err(e) => Failed(e)
    case Ok((rough, finish)) =>
      if rough.speed * rough.feed == 0.0 || finish.speed * finish.feed == 0.0 then Failed(ZeroDivisionError)
      else Done(Plan(s.length, rough, finish))
  }

  /** Appending a "rough cut" row to rows that already yield both phases replaces the
      rough phase with that row's extremes and keeps the finish phase. */
  lemma {:induction false} LastRoughRowWins(rows: seq<ParamRow>, row: ParamRow)
    requires Phases(rows).Ok? && row.notes.Some? && Note(row) == RoughTag
    ensures Phases(rows + [row]) == Ok((Extremes(row, Rough), Phases(rows).value.1))
  {
    var all := rows + [row];
    assert all[..|all| - 1] == rows;
    assert RoughTag != FinishTag by { assert RoughTag[0] != FinishTag[0]; }
    assert forall i :: 0 <= i < |rows| ==> rows[i].notes.Some?;
    assert forall i :: 0 <= i < |all| ==> all[i].notes.Some? by {
      forall i | 0 <= i < |all|
        ensures all[i].notes.Some?
      {
        if i < |rows| { assert all[i] == rows[i]; }
      }
    }
  }

  /** A knurl of zero length takes no time: knurling from the unset state "succeeds"
      with zero time whenever both phases have a non-zero feed rate. */
  lemma UnsetTakesNoTime(rows: seq<ParamRow>)
    requires Calculate(Unset, rows).Done?
    ensures Calculate(Unset, rows).value.totalTime == 0.0
  {
    var (rough, finish) := Phases(rows).value;
    var e := Plan(0.0, rough, finish);
    assert e.roughPassTime == 0.0 by {
      if e.roughPassTime != 0.0 { MulStrict(0.0, 1.0, 1.0); }
    }
  }
}

=== FILE: machining_calculator.dfy ===
/** The name-keyed dispatcher in front of the operation models, and its time figure
    adjusted for the material. The dispatcher builds each operation from the parameter
    row and the rating only, so the turning, facing and drilling models run on their
    dimensions as initialised, before any `set_dimensions`. */
module MachiningCalculator {
  import opened Wrappers
  import opened Errors
  import opened Inputs
  import opened Params
  import opened Text
  import Turning
  import Facing
  import Drilling
  import Milling

  /** The names the dispatcher accepts, lower-case. */
  const Operations: set<string> := {"turning", "facing", "drilling", "milling"}

  /** The result dictionary of whichever operation ran. */
  datatype Outcome =
    | TurningOutcome(turning: Report<Turning.TurningEstimate>)
    | FacingOutcome(facing: Report<Facing.FacingEstimate>)
    | DrillingOutcome(drilling: Report<Drilling.DrillingEstimate>)
    | MillingOutcome(milling: Report<Milling.MillingEstimate>)
  {
    /** The result carries the `error` key. */
    predicate Failed()
    {
      match this
      case TurningOutcome(r) => r.Failed?
      case FacingOutcome(r) => r.Failed?
      case DrillingOutcome(r) => r.Failed?
      case MillingOutcome(r) => r.Failed?
    }

    /** The error the `error` key carries. */
    function Failure(): Error
      requires Failed()
    {
      match this
      case TurningOutcome(r) => r.error
      case FacingOutcome(r) => r.error
      case DrillingOutcome(r) => r.error
      case MillingOutcome(r) => r.error
    }
  }

  /** The calculator's parameter row as the facing model's list of candidate rows. */
  function Rows(row: Option<ParamRow>): seq<ParamRow>
  {
    match row
    case None => []
    case Some(p) => [p]
  }

  /** `calculate_machining_parameters`: look the name up case-insensitively and run that
      operation on the inputs given to the calculator when it was built; the inputs
      passed to this call are not used. */
  function Dispatch(name: string, row: Option<ParamRow>, rating: real, userInputs: Option<Dims>,
                    callInputs: Option<Dims>): (r: Result<Outcome, Error>)
    ensures Lower(name) !in Operations <==> r == Err(ValueError(UnsupportedOperation(name)))
    ensures Lower(name) == "turning" ==> r == Ok(TurningOutcome(Turning.Calculate(Turning.Unset, row, rating)))
    ensures Lower(name) == "facing" ==> r == Ok(FacingOutcome(Facing.Calculate(Facing.Unset, Rows(row))))
    ensures Lower(name) == "drilling" ==> r == Ok(DrillingOutcome(Drilling.Calculate(Drilling.Unset, row, rating)))
    ensures Lower(name) == "milling" && userInputs.None? ==> r == Err(AttributeError)
    ensures Lower(name) == "milling" && userInputs.Some? ==>
      r == (match Milling.Calculate(userInputs.value, row, rating)
            case Ok(report) => Ok(MillingOutcome(report))
            case Err(e) => Err(e))
  {
    var op := Lower(name);
    if op == "turning" then Ok(TurningOutcome(Turning.Calculate(Turning.Unset, row, rating)))
    else if op == "facing" then Ok(FacingOutcome(Facing.Calculate(Facing.Unset, Rows(row))))
    else if op == "drilling" then Ok(DrillingOutcome(Drilling.Calculate(Drilling.Unset, row, rating)))
    else if op == "milling" then
      match userInputs
      case None => Err(AttributeError)
      case Some(d) =>
        match Milling.Calculate(d, row, rating)
        case Ok(report) => Ok(MillingOutcome(report))
        case Err(e) => Err(e)
    else Err(ValueError(UnsupportedOperation(name)))
  }

  /** The lookup ignores case: any spelling of a supported name dispatches the same way. */
  lemma {:induction false} CaseInsensitive(name: string, row: Option<ParamRow>, rating: real,
                                           userInputs: Option<Dims>, callInputs: Option<Dims>)
    requires Lower(name) in Operations
    ensures Dispatch(name, row, rating, userInputs, callInputs)
      == Dispatch(Lower(name), row, rating, userInputs, callInputs)
  {
    LowerIdempotent(name);
  }

  /** Built without dimensions, turning, facing and drilling always return the error
      envelope: only milling can produce a result. */
  lemma OnlyMillingSucceeds(name: string, row: Option<ParamRow>, rating: real,
                                               userInputs: Option<Dims>, callInputs: Option<Dims>)
    requires Dispatch(name, row, rating, userInputs, callInputs).Ok?
    requires !Dispatch(name, row, rating, userInputs, callInputs).value.Failed()
    ensures Lower(name) == "milling"
  {
  }

  /** Time with the material allowance: 10% of the rating on top of the machining time. */
  function MaterialAdjusted(machiningTime: real, rating: real): (t: real)
    ensures machiningTime >= 0.0 && rating >= 0.0 ==> t >= machiningTime
    ensures machiningTime >= 0.0 && rating <= 1.0 ==> t <= machiningTime * 1.1
    ensures rating == 0.0 ==> t == machiningTime
  {
    AllowanceBounds(machiningTime, rating);
    machiningTime * (1.0 + rating * 0.1)
  }

  lemma AllowanceBounds(machiningTime: real, rating: real)
    ensures machiningTime >= 0.0 && rating >= 0.0 ==> machiningTime * (1.0 + rating * 0.1) >= machiningTime
    ensures machiningTime >= 0.0 && rating <= 1.0 ==> machiningTime * (1.0 + rating * 0.1) <= machiningTime * 1.1
  {
    assert machiningTime * (1.0 + rating * 0.1) == machiningTime + rating * 0.1 * machiningTime;
    if machiningTime >= 0.0 {
      if rating >= 0.0 {
        Numeric.MulMonotone(0.0, rating * 0.1, machiningTime);
      }
      if rating <= 1.0 {
        Numeric.MulMonotone(rating * 0.1, 0.1, machiningTime);
      }
    }
  }

  /** The `machining_time` entry of a result: only the milling result has one; the other
      results lack the key and read as 0. */
  function MachiningTime(o: Outcome): real
  {
    match o
    case MillingOutcome(Done(e)) => e.totalTime
    case _ => 0.0
  }

  /** `calculate_time`: dispatch; an error envelope is raised again as a `ValueError`
      carrying the error; otherwise the machining time and the material-adjusted time. */
  function CalculateTime(name: string, row: Option<ParamRow>, rating: real, userInputs: Option<Dims>,
                         callInputs: Option<Dims>): (r: Result<(real, real), Error>)
    ensures var o := Dispatch(name, row, rating, userInputs, callInputs);
      && (o.Err? ==> r == Err(o.error))
      && (o.Ok? && o.value.Failed() ==> r == Err(ValueError(CalculationFailed(o.value.Failure()))))
      && (o.Ok? && !o.value.Failed() ==> r.Ok? && r.value.0 == MachiningTime(o.value))
    ensures r.Ok? ==> r.value.1 == MaterialAdjusted(r.value.0, rating)
    ensures r.Ok? ==> Lower(name) == "milling"
  {
    var o :- Dispatch(name, row, rating, userInputs, callInputs);
    if o.Failed() then
      Err(ValueError(CalculationFailed(o.Failure())))
    else
      OnlyMillingSucceeds(name, row, rating, userInputs, callInputs);
      var machiningTime := MachiningTime(o);
      Ok((machiningTime, MaterialAdjusted(machiningTime, rating)))
  }
}

=== FILE: milling.dfy ===
/** Milling: a two-flute cutter traverses the work length plus approach and overrun
    once per depth step, at the recommended cutting speed and feed of the base class. */
module Milling {
  import opened Wrappers
  import opened Numeric
  import opened Errors
  import opened Inputs
  import opened Params
  import opened Warnings
  import opened BaseOperation

  /** Cutter diameter (mm) when none is given. */
  const DefaultToolDiameter: real := 10.0
  /** Flutes on the cutter. */
  const Teeth: real := 2.0

  datatype MillingEstimate = MillingEstimate(
    cuttingSpeed: real, feed: real, rpm: real, depth: real, toolDiameter: real,
    effectiveFeed: real, timePerPass: real, totalDepth: real, passes: int,
    totalTime: real, cost: real,
    warnings: seq<Warning>)

  /** Spindle speed for a cutting speed in m/min on a cutter of diameter `toolDiameter`
      mm: the rim then travels `cuttingSpeed` metres a minute. */
  function Rpm(cuttingSpeed: real, toolDiameter: real): (rpm: real)
    requires toolDiameter != 0.0
    ensures rpm * (Pi * toolDiameter) == cuttingSpeed * 1000.0
  {
    QuotientTimes(cuttingSpeed * 1000.0, Pi * toolDiameter);
    cuttingSpeed * 1000.0 / (Pi * toolDiameter)
  }

  /** Table feed: the feed split over the teeth and multiplied back, per revolution;
      the tooth count cancels out. */
  function EffectiveFeed(feed: real, rpm: real): (f: real)
    ensures f == feed * rpm
  {
    var feedPerTooth := feed / Teeth;
    assert feedPerTooth * Teeth == feed;
    feedPerTooth * Teeth * rpm
  }

  /** A positive step depth, a cutter with a diameter and a non-zero table feed: the
      plan's divisions are defined. */
  predicate Feasible(row: ParamRow, rating: real, depth: real, toolDiameter: real)
  {
    depth > 0.0 && toolDiameter != 0.0
    && EffectiveFeed(FeedRate(row, rating), Rpm(CuttingSpeed(row, rating), toolDiameter)) != 0.0
  }

  /** The plan for validated dimensions: the recommended speed and feed, passes of at
      most `depth` through `totalDepth`, each the length plus approach and overrun. */
  function Plan(row: ParamRow, rating: real, length: real, depth: real, toolDiameter: real, totalDepth: real): (e: MillingEstimate)
    requires Feasible(row, rating, depth, toolDiameter)
    ensures e.cuttingSpeed == CuttingSpeed(row, rating) && e.feed == FeedRate(row, rating)
    ensures e.depth == depth && e.toolDiameter == toolDiameter && e.totalDepth == totalDepth
    ensures e.rpm * (Pi * toolDiameter) == e.cuttingSpeed * 1000.0
    ensures e.effectiveFeed == e.feed * e.rpm
    ensures e.timePerPass * e.effectiveFeed == length + Approach + Overrun
    ensures e.passes == PassCount(totalDepth, depth) >= 1
    ensures totalDepth >= 0.0 ==>
      totalDepth <= e.passes as real * depth && (e.passes > 1 ==> (e.passes - 1) as real * depth < totalDepth)
    ensures e.totalTime * e.effectiveFeed == e.passes as real * (length + Approach + Overrun)
    ensures e.cost == CostOf(e.totalTime, MachineHourRate)
    ensures length >= 0.0 && e.effectiveFeed > 0.0 ==> e.totalTime >= 0.0 && e.cost >= 0.0
    ensures e.warnings == CheckLimits(row, e.rpm, e.feed, depth)
  {
    var cuttingSpeed := CuttingSpeed(row, rating);
    var feed := FeedRate(row, rating);
    var rpm := Rpm(cuttingSpeed, toolDiameter);
    var effectiveFeed := EffectiveFeed(feed, rpm);
    var travel := length + Approach + Overrun;
    var timePerPass := PassesAt(travel, effectiveFeed, 1);
    var passes := PassCount(totalDepth, depth);
    PassesCover(totalDepth, depth);
    var totalTime := PassesAt(travel, effectiveFeed, passes);
    MillingEstimate(cuttingSpeed, feed, rpm, depth, toolDiameter, effectiveFeed, timePerPass,
                    totalDepth, passes, totalTime, CostOf(totalTime, MachineHourRate),
                    CheckLimits(row, rpm, feed, depth))
  }

  /** A higher rating never slows the table feed, which stays non-negative. */
  lemma {:induction false} TableFeedMonotone(row: ParamRow, r1: real, r2: real, toolDiameter: real)
    requires 0.0 <= r1 <= r2
    requires row.speedMin + row.speedMax >= 0.0 && row.feedMin + row.feedMax >= 0.0
    requires toolDiameter > 0.0
    ensures var f1 := EffectiveFeed(FeedRate(row, r1), Rpm(CuttingSpeed(row, r1), toolDiameter));
      var f2 := EffectiveFeed(FeedRate(row, r2), Rpm(CuttingSpeed(row, r2), toolDiameter));
      0.0 <= f1 <= f2
  {
    var avgSpeed, avgFeed := (row.speedMin + row.speedMax) / 2.0, (row.feedMin + row.feedMax) / 2.0;
    CuttingSpeedMonotone(row, r1, r2);
    FeedRateMonotone(row, r1, r2);
    MulMonotone(0.0, r1, avgSpeed);
    MulMonotone(0.0, 0.5 + r1 / 2.0, avgFeed);
    RpmMonotone(CuttingSpeed(row, r1), CuttingSpeed(row, r2), toolDiameter);
    ProductMonotone(FeedRate(row, r1), FeedRate(row, r2),
                    Rpm(CuttingSpeed(row, r1), toolDiameter), Rpm(CuttingSpeed(row, r2), toolDiameter));
  }

  /** A faster cutting speed turns the cutter faster. */
  lemma {:induction false} RpmMonotone(cs1: real, cs2: real, toolDiameter: real)
    requires 0.0 <= cs1 <= cs2 && toolDiameter > 0.0
    ensures 0.0 <= Rpm(cs1, toolDiameter) <= Rpm(cs2, toolDiameter)
  {
    var rpm1, rpm2 := Rpm(cs1, toolDiameter), Rpm(cs2, toolDiameter);
    var scale := Pi * toolDiameter;
    MulStrict(0.0, Pi, toolDiameter);
    if rpm1 < 0.0 {
      MulStrict(rpm1, 0.0, scale);
      assert false;
    }
    if rpm1 > rpm2 {
      MulStrict(rpm2, rpm1, scale);
      assert false;
    }
  }

  /** A better-machining material mills no slower: with non-negative average speeds
      and feeds, a higher rating gives a faster table feed and so a shorter time. */
  lemma {:induction false} BetterMaterialMillsSooner(row: ParamRow, r1: real, r2: real, length: real,
                                                     depth: real, toolDiameter: real, totalDepth: real)
    requires 0.0 <= r1 <= r2
    requires row.speedMin + row.speedMax >= 0.0 && row.feedMin + row.feedMax >= 0.0
    requires toolDiameter > 0.0 && length >= 0.0
    requires Feasible(row, r1, depth, toolDiameter) && Feasible(row, r2, depth, toolDiameter)
    ensures Plan(row, r2, length, depth, toolDiameter, totalDepth).totalTime
      <= Plan(row, r1, length, depth, toolDiameter, totalDepth).totalTime
  {
    var e1 := Plan(row, r1, length, depth, toolDiameter, totalDepth);
    var e2 := Plan(row, r2, length, depth, toolDiameter, totalDepth);
    TableFeedMonotone(row, r1, r2, toolDiameter);
    PassesAtAntitone(length + Approach + Overrun, e1.passes, e1.effectiveFeed, e2.effectiveFeed);
  }

  /** Width, length and depth all read as numbers and are all positive. */
  predicate PositiveDims(d: Dims, p: ParamRow)
  {
    && FloatOr(d, "width", 0.0).Ok? && FloatOr(d, "width", 0.0).value > 0.0
    && FloatOr(d, "length", 0.0).Ok? && FloatOr(d, "length", 0.0).value > 0.0
    && FloatOr(d, "depth", p.docMin).Ok? && FloatOr(d, "depth", p.docMin).value > 0.0
  }

  /** The cutter diameter read is a number and neither it nor the table feed is zero:
      both divisions of `calculate` are defined. */
  predicate Divisible(d: Dims, p: ParamRow, rating: real)
  {
    && FloatOr(d, "tool_diameter", DefaultToolDiameter).Ok?
    && FloatOr(d, "tool_diameter", DefaultToolDiameter).value != 0.0
    && EffectiveFeed(FeedRate(p, rating),
                     Rpm(CuttingSpeed(p, rating), FloatOr(d, "tool_diameter", DefaultToolDiameter).value)) != 0.0
  }

  /** `calculate(inputs)`: read width, length and depth (the depth defaults to the row's
      minimum depth of cut, looked up even when a depth is given), require them
      positive, then plan. Only `ValueError` and `TypeError` become the error envelope:
      no row (an attribute lookup on `None`) and a division by zero escape as `Err`. */
  function Calculate(d: Dims, row: Option<ParamRow>, rating: real): (r: Result<Report<MillingEstimate>, Error>)
    ensures FloatOr(d, "width", 0.0).Err? ==> r == Ok(Failed(FloatOr(d, "width", 0.0).error))
    ensures FloatOr(d, "width", 0.0).Ok? && FloatOr(d, "length", 0.0).Err? ==>
      r == Ok(Failed(FloatOr(d, "length", 0.0).error))
    ensures r == Err(AttributeError) <==>
      FloatOr(d, "width", 0.0).Ok? && FloatOr(d, "length", 0.0).Ok? && row.None?
    ensures (&& row.Some? && FloatOr(d, "width", 0.0).Ok? && FloatOr(d, "length", 0.0).Ok?
             && FloatOr(d, "depth", row.value.docMin).Ok? && !PositiveDims(d, row.value)) ==>
      r == Ok(Failed(ValueError(MillingDimsNotPositive)))
    ensures r == Err(ZeroDivisionError) <==>
      row.Some? && PositiveDims(d, row.value)
      && FloatOr(d, "tool_diameter", DefaultToolDiameter).Ok? && !Divisible(d, row.value, rating)
    ensures r.Err? ==> r.error == AttributeError || r.error == ZeroDivisionError
    ensures ("width" !in d || "length" !in d) && row.Some? ==> r.Ok? && r.value.Failed?
    ensures r.Ok? && r.value.Done? <==>
      row.Some? && PositiveDims(d, row.value) && Divisible(d, row.value, rating)
      && FloatOr(d, "total_depth", FloatOr(d, "depth", row.value.docMin).value).Ok?
    ensures r.Ok? && r.value.Done? ==>
      var depth := FloatOr(d, "depth", row.value.docMin).value;
      && Feasible(row.value, rating, depth, FloatOr(d, "tool_diameter", DefaultToolDiameter).value)
      && r.value.value == Plan(row.value, rating, FloatOr(d, "length", 0.0).value, depth,
                               FloatOr(d, "tool_diameter", DefaultToolDiameter).value,
                               FloatOr(d, "total_depth", depth).value)
      && ("total_depth" !in d ==> r.value.value.passes == 1)
  {
    match FloatOr(d, "width", 0.0)
    case Err(e) => Ok(Failed(e))
    case Ok(width) =>
      match FloatOr(d, "length", 0.0)
      case Err(e) => Ok(Failed(e))
      case Ok(length) =>
        match row
        case None => Err(AttributeError)
        case Some(p) =>
          match FloatOr(d, "depth", p.docMin)
          case Err(e) => Ok(Failed(e))
          case Ok(depth) =>
            if width <= 0.0 || length <= 0.0 || depth <= 0.0 then Ok(Failed(ValueError(MillingDimsNotPositive)))
            else Steps(d, p, rating, length, depth)
  }

  /** The rest of `calculate` once the dimensions are valid: the cutter diameter, the
      two divisions, the total depth. A cutter diameter or total depth that is not a
      number is the envelope; a zero diameter or table feed divides by zero. */
  function Steps(d: Dims, p: ParamRow, rating: real, length: real, depth: real): (r: Result<Report<MillingEstimate>, Error>)
    requires depth > 0.0
    ensures FloatOr(d, "tool_diameter", DefaultToolDiameter).Err? ==>
      r == Ok(Failed(FloatOr(d, "tool_diameter", DefaultToolDiameter).error))
    ensures r == Err(ZeroDivisionError) <==>
      FloatOr(d, "tool_diameter", DefaultToolDiameter).Ok? && !Divisible(d, p, rating)
    ensures r.Err? ==> r.error == ZeroDivisionError
    ensures Divisible(d, p, rating) && FloatOr(d, "total_depth", depth).Err? ==>
      r == Ok(Failed(FloatOr(d, "total_depth", depth).error))
    ensures r.Ok? && r.value.Done? <==> Divisible(d, p, rating) && FloatOr(d, "total_depth", depth).Ok?
    ensures r.Ok? && r.value.Done? ==>
      && Feasible(p, rating, depth, FloatOr(d, "tool_diameter", DefaultToolDiameter).value)
      && r.value.value == Plan(p, rating, length, depth, FloatOr(d, "tool_diameter", DefaultToolDiameter).value,
                               FloatOr(d, "total_depth", depth).value)
      && ("total_depth" !in d ==> r.value.value.passes == 1)
  {
    match FloatOr(d, "tool_diameter", DefaultToolDiameter)
    case Err(e) => Ok(Failed(e))
    case Ok(toolDiameter) =>
      if toolDiameter == 0.0 then Err(ZeroDivisionError)
      else if EffectiveFeed(FeedRate(p, rating), Rpm(CuttingSpeed(p, rating), toolDiameter)) == 0.0 then
        Err(ZeroDivisionError)
      else
        match FloatOr(d, "total_depth", depth)
        case Err(e) => Ok(Failed(e))
        case Ok(totalDepth) =>
          OneStep(depth);
          Ok(Done(Plan(p, rating, length, depth, toolDiameter, totalDepth)))
  }

  /** With no total depth given, the total is one step deep. */
  lemma OneStep(depth: real)
    requires depth > 0.0
    ensures PassCount(depth, depth) == 1
  {
  }
}

=== FILE: numeric.dfy ===
/** Integer rounding, the pass-count rule shared by every multi-pass operation, and pi. */
module Numeric {

  /** Python's `math.pi`. Every property in this project uses only `Pi > 0`. */
  const Pi: real := 3.141592653589793

  /** Python's `max(a, b)` on two numbers. */
  function Max(a: real, b: real): real
  {
    if a >= b then a else b
  }

  /** Python's `min(a, b)` on two numbers. */
  function Min(a: real, b: real): real
  {
    if a <= b then a else b
  }

  /** `math.ceil`: the least integer not below `x`. */
  function Ceil(x: real): (n: int)
    ensures x <= n as real < x + 1.0
  {
    if x.Floor as real == x then x.Floor else x.Floor + 1
  }

  /** Python's `int(x)` on a float: truncation toward zero. */
  function Trunc(x: real): (n: int)
    ensures x >= 0.0 ==> 0 <= n && n as real <= x < n as real + 1.0
    ensures x < 0.0 ==> n <= 0 && n as real - 1.0 < x <= n as real
  {
    if x >= 0.0 then x.Floor else -((-x).Floor)
  }

  /** `max(1, ceil(stock / doc))`: the number of equal passes that removes `stock`
      when no pass may cut deeper than `doc`. */
  function PassCount(stock: real, doc: real): (n: int)
    requires doc != 0.0
    ensures n >= 1
    ensures n == 1 <==> stock / doc <= 1.0
  {
    var c := Ceil(stock / doc);
    if 1 >= c then 1 else c
  }

  /** The pass plan removes the stock exactly in equal passes, no pass exceeds the
      depth limit, and one pass fewer would exceed it. */
  lemma {:induction false} PassPlan(stock: real, doc: real)
    requires stock >= 0.0 && doc > 0.0
    ensures var n := PassCount(stock, doc);
      && (stock / n as real) * n as real == stock
      && stock / n as real <= doc
      && (n > 1 ==> (n - 1) as real * doc < stock)
  {
    var n := PassCount(stock, doc);
    var q := stock / doc;
    QuotientTimes(stock, doc);
    QuotientTimes(stock, n as real);
    assert q <= n as real;
    UpperBound(stock, doc, n as real);
    if n > 1 {
      LowerBound(stock, doc, (n - 1) as real);
    }
  }

  /** The passes remove the whole stock, and one pass fewer would not. */
  lemma {:induction false} PassesCover(stock: real, doc: real)
    requires doc > 0.0
    ensures var n := PassCount(stock, doc);
      stock >= 0.0 ==>
        stock <= n as real * doc && (n > 1 ==> (n - 1) as real * doc < stock)
  {
    if stock >= 0.0 {
      var n := PassCount(stock, doc);
      PassPlan(stock, doc);
      QuotientTimes(stock, n as real);
      MulMonotone(stock / n as real, doc, n as real);
    }
  }

  lemma QuotientTimes(s: real, d: real)
    requires d != 0.0
    ensures (s / d) * d == s
  {
  }

  /** `s / d <= k` means `s / k <= d` for positive `d` and `k`. */
  lemma UpperBound(s: real, d: real, k: real)
    requires d > 0.0 && k > 0.0 && s / d <= k
    ensures s / k <= d
  {
    assert s <= k * d by {
      QuotientTimes(s, d);
      MulMonotone(s / d, k, d);
    }
    assert (s / k) * k <= d * k by {
      QuotientTimes(s, k);
    }
  }

  /** `m < s / d` means `m * d < s` for positive `d`. */
  lemma LowerBound(s: real, d: real, m: real)
    requires d > 0.0 && m < s / d
    ensures m * d < s
  {
    MulStrict(m, s / d, d);
    QuotientTimes(s, d);
  }

  lemma MulMonotone(a: real, b: real, c: real)
    requires a <= b && c >= 0.0
    ensures a * c <= b * c
  {
  }

  lemma MulStrict(a: real, b: real, c: real)
    requires a < b && c > 0.0
    ensures a * c < b * c
  {
  }

  /** A non-zero factor cancels. */
  lemma Cancel(a: real, b: real, t: real)
    requires t != 0.0 && a * t == b * t
    ensures a == b
  {
    if a < b {
      if t > 0.0 { MulStrict(a, b, t); } else { MulStrict(a, b, -t); }
    } else if b < a {
      if t > 0.0 { MulStrict(b, a, t); } else { MulStrict(b, a, -t); }
    }
  }

  /** Products of non-negative factors grow with each factor. */
  lemma ProductMonotone(a1: real, a2: real, b1: real, b2: real)
    requires 0.0 <= a1 <= a2 && 0.0 <= b1 <= b2
    ensures 0.0 <= a1 * b1 <= a2 * b2
  {
    MulMonotone(a1, a2, b1);
    MulMonotone(b1, b2, a2);
    MulMonotone(0.0, a1, b1);
  }

  /** A pass count is never above a larger stock's pass count at the same depth limit. */
  lemma {:induction false} PassCountMonotone(s1: real, s2: real, doc: real)
    requires s1 <= s2 && doc > 0.0
    ensures PassCount(s1, doc) <= PassCount(s2, doc)
  {
    assert s1 / doc <= s2 / doc by {
      MulMonotone(s1, s2, 1.0 / doc);
    }
  }

  /** Dividing a non-negative amount by a larger positive rate gives no more time. */
  lemma {:induction false} QuotientAntitone(n: real, a: real, b: real)
    requires 0.0 < a <= b && n >= 0.0
    ensures n / b <= n / a
  {
    QuotientTimes(n, a);
    QuotientTimes(n, b);
    if n / b > n / a {
      MulStrict(n / a, n / b, a);
      MulMonotone(a, b, n / b);
      assert false;
    }
  }

  /** The integer nearest `y`, ties to the even neighbour: Python's `round` on the exact
      value. */
  function RoundInt(y: real): (n: int)
    ensures y - 0.5 <= n as real <= y + 0.5
    ensures (n as real == y - 0.5 || n as real == y + 0.5) ==> n % 2 == 0
  {
    var k := y.Floor;
    var frac := y - k as real;
    if frac < 0.5 then k
    else if frac > 0.5 then k + 1
    else if k % 2 == 0 then k else k + 1
  }

  /** Rounding to the nearest integer never reverses the order of two values. */
  lemma {:induction false} RoundIntMonotone(y1: real, y2: real)
    requires y1 <= y2
    ensures RoundInt(y1) <= RoundInt(y2)
  {
    var n1, n2 := RoundInt(y1), RoundInt(y2);
    if n1 > n2 {
      assert false;
    }
  }

  /** The nearest integer is zero exactly on [-1/2, 1/2]. */
  lemma RoundIntZero(y: real)
    ensures RoundInt(y) == 0 <==> -0.5 <= y <= 0.5
  {
  }

  /** `round(x, digits)` for `scale == 10^digits`: the nearest multiple of `1 / scale`. */
  function Round(x: real, scale: real): (r: real)
    requires scale > 0.0
    ensures r * scale == RoundInt(x * scale) as real
  {
    QuotientTimes(RoundInt(x * scale) as real, scale);
    RoundInt(x * scale) as real / scale
  }
}

=== FILE: params.dfy ===
/** One machining-parameter row as the database returns it, and the phase-tagged row
    selection shared by the facing and grooving models. */
module Params {
  import opened Wrappers
  import opened Text

  datatype Phase = Rough | Finish

  /** A `MachiningParameters` row. `extras` holds the columns only some rows carry
      (phase-specific values, `cutting_speed`, `threading_passes`, `machine_hour_rate`,
      ...), so that `getattr(row, name, default)` is `Attr(row, name, default)`. */
  datatype ParamRow = ParamRow(
    speedMin: real, speedMax: real,
    feedMin: real, feedMax: real,
    docMin: real, docMax: real,
    notes: Option<string>,
    extras: map<string, real>)

  /** `getattr(row, name, default)` for an optional numeric column. */
  function Attr(row: ParamRow, name: string, default: real): real
  {
    if name in row.extras then row.extras[name] else default
  }

  /** `getattr(row, 'machine_hour_rate', 150.0)`: the hourly rate the boring, drilling,
      threading and knurling models charge. */
  function HourRate(row: ParamRow): real
  {
    Attr(row, "machine_hour_rate", 150.0)
  }

  /** Default feed and spindle speed for the dimension form: the row's average feed and
      speed, else 0.2 mm/rev at 150 RPM. */
  function DefaultFeedSpeed(row: Option<ParamRow>): (real, real)
  {
    match row
    case Some(p) => ((p.feedMin + p.feedMax) / 2.0, (p.speedMin + p.speedMax) / 2.0)
    case None => (0.2, 150.0)
  }

  /** Resolved cutting parameters for one phase. */
  datatype PhaseParams = PhaseParams(feed: real, speed: real, doc: real)
  {
    /** Feed per revolution times revolutions per minute: the table feed in mm/min. */
    function Rate(): real { feed * speed }
  }

  /** The phase extremes: roughing takes the maximum feed, the minimum speed and the
      deepest cut; finishing takes the minimum feed, the maximum speed and the
      lightest cut. */
  function Extremes(row: ParamRow, phase: Phase): PhaseParams
  {
    match phase
    case Rough => PhaseParams(row.feedMax, row.speedMin, row.docMax)
    case Finish => PhaseParams(row.feedMin, row.speedMax, row.docMin)
  }

  /** A row whose ranges are well formed. */
  predicate WellFormed(row: ParamRow)
  {
    row.feedMin <= row.feedMax && row.speedMin <= row.speedMax && row.docMin <= row.docMax
  }

  /** On a well-formed row the phases invert: roughing feeds harder and cuts deeper,
      finishing spins faster. */
  lemma PhaseInversion(row: ParamRow)
    requires WellFormed(row)
    ensures Extremes(row, Rough).feed >= Extremes(row, Finish).feed
    ensures Extremes(row, Rough).speed <= Extremes(row, Finish).speed
    ensures Extremes(row, Rough).doc >= Extremes(row, Finish).doc
  {
  }

  /** SQL `notes LIKE '%Rough%'` (or `'%Finish%'`): SQLite's LIKE ignores ASCII case,
      and a NULL note matches nothing. */
  predicate TaggedFor(row: ParamRow, phase: Phase)
  {
    match row.notes
    case None => false
    case Some(n) => Contains(Lower(n), if phase == Rough then "rough" else "finish")
  }

  /** The row a query `ORDER BY <tagged first> LIMIT 1` returns: the first row tagged
      for the phase, else the first row, else none. */
  function SelectRow(rows: seq<ParamRow>, phase: Phase): (r: Option<ParamRow>)
    ensures r.None? <==> rows == []
    ensures r.Some? ==> r.value in rows
    ensures r.Some? && TaggedFor(r.value, phase) ==>
      exists k :: 0 <= k < |rows| && rows[k] == r.value && NoneTaggedBefore(rows, k, phase)
    ensures (exists k :: 0 <= k < |rows| && TaggedFor(rows[k], phase)) ==>
      r.Some? && TaggedFor(r.value, phase)
    ensures r.Some? && !TaggedFor(r.value, phase) ==> r.value == rows[0]
  {
    match FirstTagged(rows, phase)
    case Some(k) => Some(rows[k])
    case None => if rows == [] then None else Some(rows[0])
  }

  predicate NoneTaggedBefore(rows: seq<ParamRow>, k: int, phase: Phase)
    requires 0 <= k <= |rows|
  {
    forall j :: 0 <= j < k ==> !TaggedFor(rows[j], phase)
  }

  /** Index of the first row tagged for the phase. */
  function FirstTagged(rows: seq<ParamRow>, phase: Phase): (r: Option<nat>)
    ensures r.Some? ==>
      r.value < |rows| && TaggedFor(rows[r.value], phase) && NoneTaggedBefore(rows, r.value, phase)
    ensures r.None? ==> NoneTaggedBefore(rows, |rows|, phase)
  {
    if rows == [] then None
    else if TaggedFor(rows[0], phase) then Some(0)
    else match FirstTagged(rows[1..], phase)
      case Some(k) => Some(k + 1)
      case None => None
  }
}

=== FILE: parting.dfy ===
/** Parting off: the tool feeds from the outside diameter to the centre, in as many
    passes as the depth needs at three tool widths per pass. */
module Parting {
  import opened Wrappers
  import opened Numeric
  import opened Errors
  import opened Inputs
  import opened Params
  import opened Warnings
  import opened BaseOperation

  /** Parting runs 50% slower than a plain radial feed. */
  const PartingSlowdown: real := 1.5
  /** Parting's own overhead multiplier. */
  const PartingBuffer: real := 1.25
  /** Tool width (mm) when none is given. */
  const DefaultToolWidth: real := 3.0
  /** Diameters below this (mm) draw a warning. */
  const MinPartingDiameter: real := 5.0

  /** The feed and spindle speed used for the whole cut. */
  datatype Tooling = Tooling(feed: real, speed: real)
  {
    function Rate(): real { feed * speed }
  }

  datatype PartingEstimate = PartingEstimate(
    depth: real, toolWidth: real, tool: Tooling,
    passes: int, timePerPass: real, totalTime: real, cost: real,
    warnings: seq<Warning>)

  /** `_get_machining_parameters`: 70% of the minimum feed and 60% of the minimum
      speed of the row; no row is an error. */
  function ToolingFor(row: Option<ParamRow>): (r: Result<Tooling, Error>)
    ensures r.Err? <==> row.None?
    ensures r.Err? ==> r.error == ValueError(NoParameters)
    ensures r.Ok? ==> r.value.feed == row.value.feedMin * 0.7 && r.value.speed == row.value.speedMin * 0.6
  {
    match row
    case None => Err(ValueError(NoParameters))
    case Some(p) => Ok(Tooling(p.feedMin * 0.7, p.speedMin * 0.6))
  }

  /** Parting stays below the row's slowest feed and speed, and so below its slowest
      feed rate. */
  lemma {:induction false} PartingIsGentle(p: ParamRow)
    requires p.feedMin >= 0.0 && p.speedMin >= 0.0
    ensures ToolingFor(Some(p)).value.feed <= p.feedMin
    ensures ToolingFor(Some(p)).value.speed <= p.speedMin
    ensures ToolingFor(Some(p)).value.Rate() <= p.feedMin * p.speedMin
  {
    var t := ToolingFor(Some(p)).value;
    MulMonotone(t.feed, p.feedMin, t.speed);
    MulMonotone(t.speed, p.speedMin, p.feedMin);
    assert t.speed * p.feedMin == p.feedMin * t.speed;
  }

  /** The plan for a positive depth: passes of at most three tool widths, each one a
      radial feed to the centre, with the slowdown and the buffer. */
  function Plan(depth: real, toolWidth: real, diameter: real, tool: Tooling): (e: PartingEstimate)
    requires depth > 0.0 && toolWidth != 0.0 && tool.Rate() != 0.0
    ensures e.depth == depth && e.toolWidth == toolWidth && e.tool == tool
    ensures e.passes == PassCount(depth, toolWidth * 3.0) >= 1
    ensures toolWidth > 0.0 ==>
      depth <= e.passes as real * (toolWidth * 3.0)
      && (e.passes > 1 ==> (e.passes - 1) as real * (toolWidth * 3.0) < depth)
    ensures toolWidth < 0.0 ==> e.passes == 1
    ensures e.timePerPass * tool.Rate() == diameter / 2.0 * PartingSlowdown
    ensures e.totalTime == e.timePerPass * e.passes as real * PartingBuffer
    ensures e.cost == CostOf(e.totalTime, MachineHourRate)
    ensures diameter >= 0.0 && tool.Rate() > 0.0 ==> e.timePerPass >= 0.0 && e.totalTime >= 0.0 && e.cost >= 0.0
    ensures e.warnings == (if diameter < MinPartingDiameter then [SmallPartingDiameter] else [])
  {
    var maxPassDepth := toolWidth * 3.0;
    var passes := PassCount(depth, maxPassDepth);
    PassesCoverDepth(depth, toolWidth);
    var timePerPass := PassesAt(diameter / 2.0, tool.Rate(), 1) * PartingSlowdown;
    var totalTime := timePerPass * passes as real * PartingBuffer;
    PerHour(totalTime);
    if diameter >= 0.0 && tool.Rate() > 0.0 then
      MulMonotone(0.0, timePerPass, passes as real);
      PartingEstimate(depth, toolWidth, tool, passes, timePerPass, totalTime,
                      totalTime * (MachineHourRate / 60.0),
                      if diameter < MinPartingDiameter then [SmallPartingDiameter] else [])
    else
      PartingEstimate(depth, toolWidth, tool, passes, timePerPass, totalTime,
                      totalTime * (MachineHourRate / 60.0),
                      if diameter < MinPartingDiameter then [SmallPartingDiameter] else [])
  }

  /** The per-minute rate charged on the parting time is the hourly rate over 60. */
  lemma PerHour(minutes: real)
    ensures minutes * (MachineHourRate / 60.0) == CostOf(minutes, MachineHourRate)
  {
  }

  /** The passes cut the whole depth; a negative tool width makes the quotient
      negative, which is a single pass. */
  lemma {:induction false} PassesCoverDepth(depth: real, toolWidth: real)
    requires depth > 0.0 && toolWidth != 0.0
    ensures var n := PassCount(depth, toolWidth * 3.0);
      && (toolWidth > 0.0 ==> depth <= n as real * (toolWidth * 3.0) && (n > 1 ==> (n - 1) as real * (toolWidth * 3.0) < depth))
      && (toolWidth < 0.0 ==> n == 1)
  {
    var m := toolWidth * 3.0;
    var n := PassCount(depth, m);
    if toolWidth > 0.0 {
      PassPlan(depth, m);
      QuotientTimes(depth, n as real);
      MulMonotone(depth / n as real, m, n as real);
    } else {
      QuotientTimes(depth, m);
      if depth / m > 0.0 {
        assert false;
      }
    }
  }

  /** A cut no deeper than three tool widths is one pass. */
  lemma {:induction false} ShallowCutOnePass(depth: real, toolWidth: real)
    requires 0.0 < depth <= toolWidth * 3.0
    ensures PassCount(depth, toolWidth * 3.0) == 1
  {
    var m := toolWidth * 3.0;
    QuotientTimes(depth, m);
    if depth / m > 1.0 {
      MulStrict(1.0, depth / m, m);
      assert false;
    }
  }

  /** `calculate`: read the depth (default 0) and the tool width (default 3 mm),
      reject a depth that is not positive, resolve the tooling and plan; a zero width
      or feed rate is a division by zero, and every exception becomes the error
      envelope. */
  function Calculate(d: Dims, diameter: real, row: Option<ParamRow>): (r: Report<PartingEstimate>)
    ensures FloatOr(d, "depth", 0.0).Err? ==> r == Failed(FloatOr(d, "depth", 0.0).error)
    ensures "depth" !in d && FloatOr(d, "width", DefaultToolWidth).Ok? ==>
      r == Failed(ValueError(PartingDepthNotPositive))
    ensures r.Done? <==>
      && FloatOr(d, "depth", 0.0).Ok? && FloatOr(d, "depth", 0.0).value > 0.0
      && FloatOr(d, "width", DefaultToolWidth).Ok? && FloatOr(d, "width", DefaultToolWidth).value != 0.0
      && row.Some? && ToolingFor(row).value.Rate() != 0.0
    ensures r.Done? ==>
      r.value == Plan(FloatOr(d, "depth", 0.0).value, FloatOr(d, "width", DefaultToolWidth).value,
                      diameter, ToolingFor(row).value)
    ensures "width" !in d && r.Done? ==> r.value.toolWidth == DefaultToolWidth
  {
    match FloatOr(d, "depth", 0.0)
    case Err(e) => Failed(e)
    case Ok(depth) =>
      match FloatOr(d, "width", DefaultToolWidth)
      case Err(e) => Failed(e)
      case Ok(width) =>
        if depth <= 0.0 then Failed(ValueError(PartingDepthNotPositive))
        else
          match ToolingFor(row)
          case Err(e) => Failed(e)
          case Ok(tool) =>
            if width * 3.0 == 0.0 || tool.Rate() == 0.0 then Failed(ZeroDivisionError)
            else Done(Plan(depth, width, diameter, tool))
  }
}

=== FILE: reaming.dfy ===
/** Reaming: one finishing pass through an existing hole at a low feed and a high
    speed. The script asks a helper for the cutting time that no class it inherits from
    defines, so as written it always returns the error envelope (`CalculateAsWritten`);
    `Calculate` models the evident intent with the cutting time as an input. */
module Reaming {
  import opened Wrappers
  import opened Numeric
  import opened Errors
  import opened Params
  import opened Warnings
  import opened BaseOperation

  /** Reaming's own overhead multiplier. */
  const ReamingBuffer: real := 1.1
  /** Reamers below this diameter (mm) draw a warning. */
  const MinReamerDiameter: real := 3.0

  datatype ReamingDims = ReamingDims(diameter: real, depth: real)

  /** The feed and spindle speed of the pass. */
  datatype Tooling = Tooling(feed: real, speed: real)

  datatype ReamingEstimate = ReamingEstimate(
    tool: Tooling, cuttingTime: real, totalTime: real, cost: real,
    warnings: seq<Warning>)

  /** `_get_machining_parameters`: half the minimum feed and 80% of the maximum speed;
      no row is an error. */
  function ToolingFor(row: Option<ParamRow>): (r: Result<Tooling, Error>)
    ensures r.Err? <==> row.None?
    ensures r.Err? ==> r.error == ValueError(NoParameters)
    ensures r.Ok? ==> r.value.feed == row.value.feedMin * 0.5 && r.value.speed == row.value.speedMax * 0.8
  {
    match row
    case None => Err(ValueError(NoParameters))
    case Some(p) => Ok(Tooling(p.feedMin * 0.5, p.speedMax * 0.8))
  }

  /** With non-negative columns the reamer feeds no faster than the row's slowest feed
      and spins no faster than its top speed, so it cuts no faster than the finishing
      extremes of the row. */
  lemma {:induction false} ReamerIsGentle(p: ParamRow)
    requires p.feedMin >= 0.0 && p.speedMax >= 0.0
    ensures ToolingFor(Some(p)).value.feed <= Extremes(p, Finish).feed
    ensures ToolingFor(Some(p)).value.speed <= Extremes(p, Finish).speed
    ensures ToolingFor(Some(p)).value.feed * ToolingFor(Some(p)).value.speed
      <= Extremes(p, Finish).feed * Extremes(p, Finish).speed
  {
    var t := ToolingFor(Some(p)).value;
    MulMonotone(t.feed, p.feedMin, t.speed);
    MulMonotone(t.speed, p.speedMax, p.feedMin);
    assert t.speed * p.feedMin == p.feedMin * t.speed;
  }

  /** `calculate`: resolve the tooling, add the buffer to the cutting time, charge it at
      the machine-hour rate and warn about a small reamer; every exception becomes the
      error envelope. */
  function Calculate(s: ReamingDims, row: Option<ParamRow>, cuttingTime: real): (r: Report<ReamingEstimate>)
    ensures r.Failed? <==> row.None?
    ensures r.Failed? ==> r.error == ValueError(NoParameters)
    ensures r.Done? ==> r.value.tool == ToolingFor(row).value && r.value.cuttingTime == cuttingTime
    ensures r.Done? ==> r.value.totalTime == cuttingTime * ReamingBuffer
    ensures r.Done? ==> r.value.cost == CostOf(r.value.totalTime, MachineHourRate)
    ensures r.Done? && cuttingTime >= 0.0 ==>
      cuttingTime <= r.value.totalTime && 0.0 <= r.value.cost
    ensures r.Done? ==> (SmallReamer in r.value.warnings <==> s.diameter < MinReamerDiameter)
    ensures r.Done? ==> forall w :: w in r.value.warnings ==> w == SmallReamer
  {
    match ToolingFor(row)
    case Err(e) => Failed(e)
    case Ok(tool) =>
      var totalTime := cuttingTime * ReamingBuffer;
      Done(ReamingEstimate(tool, cuttingTime, totalTime, CostOf(totalTime, MachineHourRate),
                           if s.diameter < MinReamerDiameter then [SmallReamer] else []))
  }

  /** `calculate` as written: after the tooling lookup it calls `_calculate_cutting_time`,
      which no class above `ReamingOperation` defines, so the `AttributeError` it raises
      lands in the `except Exception` handler whenever a row exists. */
  function CalculateAsWritten(s: ReamingDims, row: Option<ParamRow>): (r: Report<ReamingEstimate>)
    ensures r.Failed?
    ensures r.error == (if row.None? then ValueError(NoParameters) else AttributeError)
  {
    match ToolingFor(row)
    case Err(e) => Failed(e)
    case Ok(_) => Failed(AttributeError)
  }

  /** The script never yields an estimate, while the model that takes the cutting time
      as given yields one for every row; both fail alike without a row. */
  lemma {:induction false} AsWrittenNeverEstimates(s: ReamingDims, row: Option<ParamRow>, cuttingTime: real)
    ensures CalculateAsWritten(s, row).Failed?
    ensures Calculate(s, row, cuttingTime).Done? <==> row.Some?
    ensures row.None? ==> CalculateAsWritten(s, row) == Calculate(s, row, cuttingTime)
  {
  }

  /** A longer cutting time never costs less. */
  lemma {:induction false} LongerCutCostsMore(s: ReamingDims, p: ParamRow, t1: real, t2: real)
    requires t1 <= t2
    ensures Calculate(s, Some(p), t1).value.totalTime <= Calculate(s, Some(p), t2).value.totalTime
    ensures Calculate(s, Some(p), t1).value.cost <= Calculate(s, Some(p), t2).value.cost
  {
    var e1, e2 := Calculate(s, Some(p), t1).value, Calculate(s, Some(p), t2).value;
    assert e1.totalTime <= e2.totalTime;
    MulMonotone(e1.totalTime / 60.0, e2.totalTime / 60.0, MachineHourRate);
  }
}

=== FILE: text.dfy ===
/** The few string operations the engine performs on database notes and user text:
    lower-casing, stripping whitespace and substring search (ASCII only). */
module Text {

  predicate IsUpper(c: char)
  {
    'A' <= c <= 'Z'
  }

  /** Python's `str.lower()` on one ASCII character. */
  function LowerChar(c: char): char
  {
    if IsUpper(c) then (c as int + 32) as char else c
  }

  /** Python's `str.lower()` / JavaScript's `toLowerCase()` on ASCII text. */
  function Lower(s: string): string
  {
    if s == [] then [] else [LowerChar(s[0])] + Lower(s[1..])
  }

  /** Lower-casing maps every character on its own and keeps the length. */
  lemma {:induction false} LowerSpec(s: string)
    ensures |Lower(s)| == |s|
    ensures forall i :: 0 <= i < |s| ==> Lower(s)[i] == LowerChar(s[i])
  {
    if s != [] {
      LowerSpec(s[1..]);
    }
  }

  /** A string without upper-case letters is its own lower-case form. */
  lemma {:induction false} LowerFixesLowerCase(s: string)
    requires forall i :: 0 <= i < |s| ==> !IsUpper(s[i])
    ensures Lower(s) == s
  {
    LowerSpec(s);
  }

  /** Lower-casing twice is lower-casing once. */
  lemma {:induction false} LowerIdempotent(s: string)
    ensures Lower(Lower(s)) == Lower(s)
  {
    LowerSpec(s);
    LowerSpec(Lower(s));
  }

  /** The characters Python's `str.strip()` removes, restricted to ASCII. */
  predicate IsSpace(c: char)
  {
    c == ' ' || 9 <= c as int <= 13 || 28 <= c as int <= 31
  }

  function TrimLeft(s: string): string
  {
    if |s| > 0 && IsSpace(s[0]) then TrimLeft(s[1..]) else s
  }

  function TrimRight(s: string): string
  {
    if |s| > 0 && IsSpace(s[|s| - 1]) then TrimRight(s[..|s| - 1]) else s
  }

  /** Trimming on the left drops exactly the leading whitespace. */
  lemma {:induction false} TrimLeftSpec(s: string)
    ensures |TrimLeft(s)| <= |s| && TrimLeft(s) == s[|s| - |TrimLeft(s)|..]
    ensures forall i :: 0 <= i < |s| - |TrimLeft(s)| ==> IsSpace(s[i])
    ensures |TrimLeft(s)| > 0 ==> !IsSpace(TrimLeft(s)[0])
  {
    if |s| > 0 && IsSpace(s[0]) {
      TrimLeftSpec(s[1..]);
    }
  }

  /** Trimming on the right drops exactly the trailing whitespace. */
  lemma {:induction false} TrimRightSpec(s: string)
    ensures |TrimRight(s)| <= |s| && TrimRight(s) == s[..|TrimRight(s)|]
    ensures forall i :: |TrimRight(s)| <= i < |s| ==> IsSpace(s[i])
    ensures |TrimRight(s)| > 0 ==> !IsSpace(TrimRight(s)[|TrimRight(s)| - 1])
  {
    if |s| > 0 && IsSpace(s[|s| - 1]) {
      TrimRightSpec(s[..|s| - 1]);
    }
  }

  /** Python's `str.strip()`. */
  function Strip(s: string): string
  {
    TrimRight(TrimLeft(s))
  }

  /** A stripped text neither starts nor ends with whitespace, and stripping it again
      changes nothing. */
  lemma StripSpec(s: string)
    ensures var t := Strip(s); |t| > 0 ==> !IsSpace(t[0]) && !IsSpace(t[|t| - 1])
    ensures Strip(Strip(s)) == Strip(s)
  {
    var l := TrimLeft(s);
    TrimLeftSpec(s);
    TrimRightSpec(l);
    var t := TrimRight(l);
    if |t| > 0 {
      assert t[0] == l[0];
      assert !IsSpace(t[0]) && !IsSpace(t[|t| - 1]);
    }
    assert TrimLeft(t) == t;
    assert TrimRight(t) == t;
  }

  /** `sub` occurs in `s` as a contiguous block. */
  predicate Contains(s: string, sub: string)
    decreases |s|
  {
    |sub| <= |s| && (s[..|sub|] == sub || Contains(s[1..], sub))
  }
}

=== FILE: threading.dfy ===
/** Single-point threading: a fixed number of passes over the thread length, each at the
    thread feed (normally the pitch) times the spindle speed. The constructor never stores
    the row it is given, so as written every row read raises `AttributeError`
    (`SetDimensionsAsWritten`, `CalculateAsWritten`); `SetDimensions` and `Calculate` take
    the row as a parameter. */
module Threading {
  import opened Wrappers
  import opened Numeric
  import opened Errors
  import opened Inputs
  import opened Params
  import opened Warnings
  import opened BaseOperation
  import opened Text

  /** Threading's own overhead multiplier. */
  const ThreadingSafety: real := 1.1
  /** Passes per thread when the row does not say. */
  const DefaultPasses: real := 7.0

  /** The attributes `set_dimensions` stores; before it runs, zero dimensions and an
      external thread. */
  datatype ThreadingDims = ThreadingDims(
    diameter: real, length: real, pitch: real, threadType: string, threadsPerPass: int)

  const Unset: ThreadingDims := ThreadingDims(0.0, 0.0, 0.0, "external", 0)

  datatype ThreadingEstimate = ThreadingEstimate(
    feed: real, speed: real, passes: int,
    passTime: real, totalTime: real, hourRate: real, cost: real,
    warnings: seq<Warning>)

  predicate ValidDims(s: ThreadingDims)
  {
    && s.diameter > 0.0 && s.length > 0.0 && s.pitch > 0.0
    && s.threadsPerPass > 0
    && (s.threadType == "internal" || s.threadType == "external")
  }

  /** A dimension under its standard name, else under its alternative name. */
  function Either(d: Dims, standard: string, alternative: string): Option<Value>
  {
    Or(Get(d, standard), Get(d, alternative))
  }

  /** The names reported missing, in the order diameter, length, pitch. */
  function Missing(d: Dims): (names: seq<string>)
    ensures "diameter/thread_diameter" in names <==> Either(d, "diameter", "thread_diameter").None?
    ensures "length/thread_length" in names <==> Either(d, "length", "thread_length").None?
    ensures "pitch/thread_pitch" in names <==> Either(d, "pitch", "thread_pitch").None?
    ensures |names| <= 3
  {
    (if Either(d, "diameter", "thread_diameter").None? then ["diameter/thread_diameter"] else [])
    + (if Either(d, "length", "thread_length").None? then ["length/thread_length"] else [])
    + (if Either(d, "pitch", "thread_pitch").None? then ["pitch/thread_pitch"] else [])
  }

  /** The passes per thread the row gives; `getattr` on a missing row gives the default. */
  function RowPasses(row: Option<ParamRow>): real
  {
    match row
    case None => DefaultPasses
    case Some(p) => Attr(p, "threading_passes", DefaultPasses)
  }

  /** The body of the `try` in `set_dimensions`: convert the three dimensions, lower-case
      the thread type (a number has no `lower`), read the threads per pass. `fallback` is
      what the `getattr` on the stored row yields when the user gives no threads per pass. */
  function ReadDims(diameter: Value, length: Value, pitch: Value, d: Dims, fallback: Result<real, Error>): (r: Result<ThreadingDims, Error>)
    ensures r.Ok? ==> diameter == Num(r.value.diameter) && length == Num(r.value.length) && pitch == Num(r.value.pitch)
    ensures r.Ok? && "type" !in d ==> r.value.threadType == "external"
    ensures r.Ok? && "type" in d ==> d["type"].Text? && Lower(d["type"].s) == r.value.threadType
    ensures diameter.Num? && length.Num? && pitch.Num? && "type" in d && d["type"].Num? ==> r == Err(AttributeError)
  {
    var dia :- Float(Some(diameter));
    var len :- Float(Some(length));
    var p :- Float(Some(pitch));
    var threadType :- ThreadType(d);
    var perPass :- PerPass(d, fallback);
    Ok(ThreadingDims(dia, len, p, threadType, perPass))
  }

  /** The thread type, lower-cased, external by default; a number has no `lower`. */
  function ThreadType(d: Dims): (r: Result<string, Error>)
    ensures "type" !in d ==> r == Ok("external")
    ensures "type" in d ==> r == if d["type"].Text? then Ok(Lower(d["type"].s)) else Err(AttributeError)
  {
    match Get(d, "type").GetOr(Text("external"))
    case Text(t) => LowerFixesLowerCase("external"); Ok(Lower(t))
    case Num(_) => Err(AttributeError)
  }

  /** The user's threads per pass when truthy, else the row's, truncated. */
  function PerPass(d: Dims, fallback: Result<real, Error>): Result<int, Error>
  {
    if Truthy(Get(d, "threads_per_pass")) then Int(Get(d, "threads_per_pass").value)
    else var n :- fallback; Int(Num(n))
  }

  /** Numeric dimensions and a textual (or absent) thread type leave only the threads
      per pass to read, so a failing row read escapes the handler unchanged. */
  lemma {:induction false} ConvertRaisesWithoutRow(diameter: real, length: real, pitch: real, d: Dims)
    requires "type" in d ==> d["type"].Text?
    requires !Truthy(Get(d, "threads_per_pass"))
    ensures Convert(Num(diameter), Num(length), Num(pitch), d, Err(AttributeError)) == Err(AttributeError)
  {
    assert ThreadType(d).Ok?;
    assert PerPass(d, Err(AttributeError)) == Err(AttributeError);
  }

  /** The `try` with its handler: a value or type error becomes "invalid parameter
      values"; the `AttributeError` of a numeric thread type escapes. */
  function Convert(diameter: Value, length: Value, pitch: Value, d: Dims, fallback: Result<real, Error>): (r: Result<ThreadingDims, Error>)
    ensures r.Ok? ==> diameter == Num(r.value.diameter) && length == Num(r.value.length) && pitch == Num(r.value.pitch)
    ensures r.Ok? && "type" !in d ==> r.value.threadType == "external"
    ensures r.Ok? && "type" in d ==> d["type"].Text? && Lower(d["type"].s) == r.value.threadType
    ensures diameter.Num? && length.Num? && pitch.Num? && "type" in d && d["type"].Num? ==> r == Err(AttributeError)
    ensures r.Err? ==> r.error == ValueError(ThreadValuesInvalid) || r.error == AttributeError
  {
    match ReadDims(diameter, length, pitch, d, fallback)
    case Err(AttributeError) => Err(AttributeError)
    case Err(_) => Err(ValueError(ThreadValuesInvalid))
    case Ok(s) => Ok(s)
  }

  /** The checks after the conversion. */
  function Validate(s: ThreadingDims): (r: Result<ThreadingDims, Error>)
    ensures r.Ok? <==> ValidDims(s)
    ensures r.Ok? ==> r.value == s
    ensures r.Err? ==> r.error.ValueError?
  {
    if s.diameter <= 0.0 || s.length <= 0.0 || s.pitch <= 0.0 then Err(ValueError(ThreadDimsNotPositive))
    else if s.threadsPerPass <= 0 then Err(ValueError(ThreadsPerPassNotPositive))
    else if s.threadType != "internal" && s.threadType != "external" then Err(ValueError(BadThreadType))
    else Ok(s)
  }

  /** The three dimensions are all present and numbers. */
  predicate NumbersGiven(d: Dims)
  {
    && Either(d, "diameter", "thread_diameter").Some? && Either(d, "diameter", "thread_diameter").value.Num?
    && Either(d, "length", "thread_length").Some? && Either(d, "length", "thread_length").value.Num?
    && Either(d, "pitch", "thread_pitch").Some? && Either(d, "pitch", "thread_pitch").value.Num?
  }

  /** `set_dimensions`: no dimensions at all, then the missing ones by name, then values
      that are not numbers, then positivity, the threads per pass and the thread type. */
  function SetDimensions(d: Dims, row: Option<ParamRow>): (r: Result<ThreadingDims, Error>)
    ensures d == map[] ==> r == Err(ValueError(NoThreadDimensions))
    ensures d != map[] && Missing(d) != [] ==> r == Err(ValueError(MissingThreadParameters(Missing(d))))
    ensures r.Ok? ==> ValidDims(r.value)
    ensures r.Ok? ==> Either(d, "diameter", "thread_diameter") == Some(Num(r.value.diameter))
    ensures r.Ok? ==> Either(d, "length", "thread_length") == Some(Num(r.value.length))
    ensures r.Ok? ==> Either(d, "pitch", "thread_pitch") == Some(Num(r.value.pitch))
    ensures r.Ok? && "type" !in d ==> r.value.threadType == "external"
    ensures r.Ok? && "type" in d ==> d["type"].Text? && Lower(d["type"].s) == r.value.threadType
    ensures d != map[] && NumbersGiven(d) && "type" in d && d["type"].Num? ==> r == Err(AttributeError)
    ensures r.Err? ==> r.error.ValueError? || r.error == AttributeError
    ensures AllNumbers(d) && NumbersGiven(d) && "type" !in d ==>
      (r.Ok? <==> ValidDims(Read(d, row))) && (r.Ok? ==> r.value == Read(d, row))
  {
    NumbersRead(d, row);
    SetDimensionsWith(d, Ok(RowPasses(row)))
  }

  /** The dimensions a map of numbers without a thread type reads as: either name of each
      dimension, an external thread, and the threads per pass given or else the row's. */
  function Read(d: Dims, row: Option<ParamRow>): ThreadingDims
  {
    ThreadingDims(
      NumOf(Either(d, "diameter", "thread_diameter"), 0.0), NumOf(Either(d, "length", "thread_length"), 0.0),
      NumOf(Either(d, "pitch", "thread_pitch"), 0.0), "external",
      Trunc(NumOf(Or(Get(d, "threads_per_pass"), Some(Num(RowPasses(row)))), 0.0)))
  }

  /** On a map of numbers without a thread type, `set_dimensions` validates what it reads. */
  lemma {:induction false} NumbersRead(d: Dims, row: Option<ParamRow>)
    ensures AllNumbers(d) && NumbersGiven(d) && "type" !in d ==>
      SetDimensionsWith(d, Ok(RowPasses(row))) == Validate(Read(d, row))
  {
    if AllNumbers(d) && NumbersGiven(d) && "type" !in d {
      assert d != map[] by { assert "diameter" in d || "thread_diameter" in d; }
      var s := Read(d, row);
      assert PerPass(d, Ok(RowPasses(row))) == Ok(s.threadsPerPass);
      var dia, len, p := Either(d, "diameter", "thread_diameter").value, Either(d, "length", "thread_length").value,
                         Either(d, "pitch", "thread_pitch").value;
      assert ReadDims(dia, len, p, d, Ok(RowPasses(row))) == Ok(s);
    }
  }

  /** The steps of `set_dimensions`, with `fallback` standing for the threads per pass
      read from the stored row. */
  function SetDimensionsWith(d: Dims, fallback: Result<real, Error>): Result<ThreadingDims, Error>
  {
    if d == map[] then Err(ValueError(NoThreadDimensions))
    else
      var missing := Missing(d);
      if missing != [] then Err(ValueError(MissingThreadParameters(missing)))
      else
        var s :- Convert(Either(d, "diameter", "thread_diameter").value, Either(d, "length", "thread_length").value,
                         Either(d, "pitch", "thread_pitch").value, d, fallback);
        Validate(s)
  }

  /** `set_dimensions` as written: the constructor never stores `db_params`, so reading
      the row's threads per pass raises an `AttributeError` that the handler, catching
      only value and type errors, lets escape. A truthy threads per pass skips the read. */
  function SetDimensionsAsWritten(d: Dims): (r: Result<ThreadingDims, Error>)
    ensures (&& d != map[] && NumbersGiven(d) && !Truthy(Get(d, "threads_per_pass"))
             && ("type" in d ==> d["type"].Text?)) ==> r == Err(AttributeError)
  {
    if d != map[] && NumbersGiven(d) && !Truthy(Get(d, "threads_per_pass")) && ("type" in d ==> d["type"].Text?) then
      ConvertRaisesWithoutRow(Either(d, "diameter", "thread_diameter").value.x, Either(d, "length", "thread_length").value.x,
                              Either(d, "pitch", "thread_pitch").value.x, d);
      SetDimensionsWith(d, Err(AttributeError))
    else
      SetDimensionsWith(d, Err(AttributeError))
  }

  /** A truthy threads per pass skips the read of the row, so then the script as written
      and the model that passes the row in agree. */
  lemma {:induction false} AsWrittenAgreesWhenGiven(d: Dims, row: Option<ParamRow>)
    requires Truthy(Get(d, "threads_per_pass"))
    ensures SetDimensionsAsWritten(d) == SetDimensions(d, row)
  {
    if d != map[] && Missing(d) == [] {
      var dia, len, p := Either(d, "diameter", "thread_diameter").value, Either(d, "length", "thread_length").value,
                         Either(d, "pitch", "thread_pitch").value;
      assert ReadDims(dia, len, p, d, Err(AttributeError)) == ReadDims(dia, len, p, d, Ok(RowPasses(row)));
    }
  }

  /** With the dimensions given as numbers and no threads per pass, the script as
      written raises where the model that passes the row in accepts. */
  lemma {:induction false} AsWrittenNeedsThreadsPerPass(d: Dims, row: Option<ParamRow>)
    requires AllNumbers(d) && NumbersGiven(d) && "type" !in d && "threads_per_pass" !in d
    requires NumOf(Either(d, "diameter", "thread_diameter"), 0.0) > 0.0
    requires NumOf(Either(d, "length", "thread_length"), 0.0) > 0.0
    requires NumOf(Either(d, "pitch", "thread_pitch"), 0.0) > 0.0
    requires RowPasses(row) >= 1.0
    ensures SetDimensionsAsWritten(d) == Err(AttributeError)
    ensures SetDimensions(d, row).Ok?
  {
    assert d != map[] by { assert "diameter" in d || "thread_diameter" in d; }
  }

  /** `_get_machining_parameters` on a present row: the thread feed column unless it is
      zero (then the pitch), the thread speed column unless zero (then the minimum speed),
      and the row's passes truncated to an integer. */
  function Tooling(p: ParamRow, pitch: real): (r: (real, real, int))
    ensures Attr(p, "feed_rate_thread", 0.0) == 0.0 ==> r.0 == pitch
    ensures Attr(p, "feed_rate_thread", 0.0) != 0.0 ==> r.0 == Attr(p, "feed_rate_thread", 0.0)
    ensures Attr(p, "spindle_speed_thread", 0.0) == 0.0 ==> r.1 == p.speedMin
    ensures Attr(p, "spindle_speed_thread", 0.0) != 0.0 ==> r.1 == Attr(p, "spindle_speed_thread", 0.0)
    ensures r.2 == Trunc(Attr(p, "threading_passes", DefaultPasses))
  {
    var feed := Attr(p, "feed_rate_thread", 0.0);
    var speed := Attr(p, "spindle_speed_thread", 0.0);
    (if feed != 0.0 then feed else pitch,
     if speed != 0.0 then speed else p.speedMin,
     Trunc(Attr(p, "threading_passes", DefaultPasses)))
  }

  /** The estimate at a non-zero feed rate: every pass covers the thread length at feed
      times speed, the passes carry the safety multiplier, the cost is at the row's
      hourly rate, and each warning fires exactly on its condition. */
  function Plan(length: real, pitch: real, feed: real, speed: real, passes: int, hourRate: real): (e: ThreadingEstimate)
    requires feed * speed != 0.0
    ensures e.feed == feed && e.speed == speed && e.passes == passes && e.hourRate == hourRate
    ensures e.passTime * (feed * speed) == length
    ensures e.totalTime == e.passTime * passes as real * ThreadingSafety
    ensures e.cost == CostOf(e.totalTime, hourRate)
    ensures Ordered(e.warnings)
    ensures FeedNotPitch in e.warnings <==> feed != pitch
    ensures HighThreadSpeed in e.warnings <==> speed > 800.0
    ensures forall w :: w in e.warnings ==> w in {FeedNotPitch, HighThreadSpeed}
  {
    QuotientTimes(length, feed * speed);
    var passTime := length / (feed * speed);
    var totalTime := passTime * passes as real * ThreadingSafety;
    var checks := [(feed != pitch, FeedNotPitch), (speed > 800.0, HighThreadSpeed)];
    EmitSpec(checks);
    ThreadingEstimate(feed, speed, passes, passTime, totalTime, hourRate,
                      CostOf(totalTime, hourRate), Emit(checks))
  }

  /** `calculate`: without a row the minimum-speed lookup fails; a zero feed rate is a
      division by zero; otherwise the plan at the resolved tooling and the row's hourly
      rate. */
  function Calculate(s: ThreadingDims, row: Option<ParamRow>): (r: Report<ThreadingEstimate>)
    ensures row.None? ==> r == Failed(AttributeError)
    ensures row.Some? ==>
      var t := Tooling(row.value, s.pitch);
      && (r.Failed? <==> t.0 * t.1 == 0.0)
      && (r.Failed? ==> r.error == ZeroDivisionError)
      && (r.Done? ==> r.value == Plan(s.length, s.pitch, t.0, t.1, t.2, HourRate(row.value)))
  {
    match row
    case None => Failed(AttributeError)
    case Some(p) =>
      var (feed, speed, passes) := Tooling(p, s.pitch);
      if feed * speed == 0.0 then Failed(ZeroDivisionError)
      else Done(Plan(s.length, s.pitch, feed, speed, passes, HourRate(p)))
  }

  /** `calculate` as written: `_get_machining_parameters` reads the `db_params` the
      constructor never stores, and the handler turns that `AttributeError` into the
      error envelope, whatever the row. */
  function CalculateAsWritten(s: ThreadingDims, row: Option<ParamRow>): (r: Report<ThreadingEstimate>)
    ensures r.Failed? && r.error == AttributeError
  {
    Failed(AttributeError)
  }

  /** The script never yields an estimate, while the model that passes the row in yields
      one for every row whose feed and speed are non-zero; both fail alike without a row. */
  lemma {:induction false} AsWrittenNeverEstimates(s: ThreadingDims, row: Option<ParamRow>)
    ensures CalculateAsWritten(s, row).Failed?
    ensures Calculate(s, row).Done? <==> row.Some? && Tooling(row.value, s.pitch).0 * Tooling(row.value, s.pitch).1 != 0.0
    ensures row.None? ==> CalculateAsWritten(s, row) == Calculate(s, row)
  {
  }

  /** The threads per pass the user gives are validated but never used: two states that
      differ only there give the same report. */
  lemma ThreadsPerPassIgnored(s: ThreadingDims, n: int, row: Option<ParamRow>)
    ensures Calculate(s.(threadsPerPass := n), row) == Calculate(s, row)
  {
  }

  /** Without a thread feed column the feed is the pitch, so the mismatch warning is
      never raised. */
  lemma PitchFeedNeverWarns(s: ThreadingDims, p: ParamRow)
    requires Attr(p, "feed_rate_thread", 0.0) == 0.0
    ensures Calculate(s, Some(p)).Done? ==> FeedNotPitch !in Calculate(s, Some(p)).value.warnings
  {
  }

  /** Time grows with the thread length: at the same tooling a longer thread never takes
      less time, when the row's passes are not negative. */
  lemma {:induction false} LongerThreadTakesLonger(s: ThreadingDims, p: ParamRow, length: real)
    requires s.length <= length
    requires Tooling(p, s.pitch).0 * Tooling(p, s.pitch).1 > 0.0 && Tooling(p, s.pitch).2 >= 0
    ensures Calculate(s, Some(p)).value.totalTime <= Calculate(s.(length := length), Some(p)).value.totalTime
  {
    var t := Tooling(p, s.pitch);
    var rate := t.0 * t.1;
    var e1 := Plan(s.length, s.pitch, t.0, t.1, t.2, HourRate(p));
    var e2 := Plan(length, s.pitch, t.0, t.1, t.2, HourRate(p));
    assert Calculate(s, Some(p)).value == e1;
    assert Calculate(s.(length := length), Some(p)).value == e2;
    if e2.passTime < e1.passTime {
      MulStrict(e2.passTime, e1.passTime, rate);
      assert false;
    }
    var k := t.2 as real;
    MulMonotone(e1.passTime, e2.passTime, k);
    var a, b := e1.passTime * k, e2.passTime * k;
    assert a <= b;
    MulMonotone(a, b, ThreadingSafety);
    assert e1.totalTime == a * ThreadingSafety && e2.totalTime == b * ThreadingSafety;
  }
}

=== FILE: turning.dfy ===
/** External turning from a start diameter down to an end diameter: several equal
    roughing passes leave a finishing allowance that one finishing pass removes. */
module Turning {
  import opened Wrappers
  import opened Numeric
  import opened Errors
  import opened Inputs
  import opened Params
  import opened Warnings
  import opened BaseOperation

  /** Approach and overrun (mm) the turning class adds to every pass. */
  const TurnApproach: real := 5.0
  const TurnOverrun: real := 5.0

  /** The attributes `set_dimensions` stores; all zero before it runs. */
  datatype TurningDims = TurningDims(startDia: real, endDia: real, length: real, feed: real, spindleSpeed: real)

  const Unset: TurningDims := TurningDims(0.0, 0.0, 0.0, 0.0, 0.0)

  datatype TurningEstimate = TurningEstimate(
    totalDepth: real,
    rough: PhaseParams, roughDepth: real, roughPasses: int, roughDocPerPass: real,
    roughFeedRate: real, roughTime: real,
    finish: PhaseParams, finishFeedRate: real, finishTime: real,
    totalTime: real, cost: real,
    warnings: seq<Warning>)

  predicate ValidDims(s: TurningDims)
  {
    s.startDia > 0.0 && s.endDia > 0.0 && s.length > 0.0 && s.startDia > s.endDia
  }

  /** `set_dimensions`: read the dimensions (missing ones read as 0) and reject
      non-positive values and a start diameter not above the end diameter. */
  function SetDimensions(d: Dims, row: Option<ParamRow>): (r: Result<TurningDims, Error>)
    ensures r.Ok? ==> ValidDims(r.value)
    ensures r.Ok? ==> forall k :: k in {"start_dia", "end_dia", "length"} ==> k in d
    ensures r.Ok? ==>
      d["start_dia"] == Num(r.value.startDia) && d["end_dia"] == Num(r.value.endDia) && d["length"] == Num(r.value.length)
    ensures r.Ok? && "feed" !in d ==> r.value.feed == DefaultFeedSpeed(row).0
    ensures AllNumbers(d) ==>
      (r.Ok? <==> ValidDims(TurningDims(NumOr(d, "start_dia", 0.0), NumOr(d, "end_dia", 0.0), NumOr(d, "length", 0.0), 0.0, 0.0)))
    ensures AllNumbers(d) && !(NumOr(d, "start_dia", 0.0) > 0.0 && NumOr(d, "end_dia", 0.0) > 0.0 && NumOr(d, "length", 0.0) > 0.0) ==>
      r == Err(ValueError(TurningDimsNotPositive))
    ensures (&& AllNumbers(d) && NumOr(d, "start_dia", 0.0) > 0.0 && NumOr(d, "end_dia", 0.0) > 0.0 && NumOr(d, "length", 0.0) > 0.0
             && NumOr(d, "start_dia", 0.0) <= NumOr(d, "end_dia", 0.0)) ==>
      r == Err(ValueError(StartNotAboveEnd))
    ensures r.Err? && r.error.ValueError? && r.error.reason == StartNotAboveEnd ==>
      NumOr(d, "start_dia", 0.0) <= NumOr(d, "end_dia", 0.0)
  {
    var defaults := DefaultFeedSpeed(row);
    var startDia :- FloatOr(d, "start_dia", 0.0);
    var endDia :- FloatOr(d, "end_dia", 0.0);
    var length :- FloatOr(d, "length", 0.0);
    var feed :- FloatOr(d, "feed", defaults.0);
    var speed :- FloatOr(d, "spindle_speed", defaults.1);
    if startDia <= 0.0 || endDia <= 0.0 || length <= 0.0 then
      Err(ValueError(TurningDimsNotPositive))
    else if startDia <= endDia then
      Err(ValueError(StartNotAboveEnd))
    else
      Ok(TurningDims(startDia, endDia, length, feed, speed))
  }

  /** `0.8 + 0.4 * rating`: scales feeds and depths by material machinability. */
  function MaterialFactor(rating: real): real
  {
    0.8 + rating * 0.4
  }

  /** For ratings in [0, 1] the factor lies in [0.8, 1.2] and grows with the rating. */
  lemma MaterialFactorRange(r1: real, r2: real)
    requires 0.0 <= r1 <= r2 <= 1.0
    ensures 0.8 <= MaterialFactor(r1) <= MaterialFactor(r2) <= 1.2
  {
  }

  const RoughDefaults: PhaseParams := PhaseParams(0.3, 500.0, 2.0)
  const FinishDefaults: PhaseParams := PhaseParams(0.1, 1000.0, 0.5)

  /** `_get_machining_parameters(cut_type)`: fixed defaults without a row (an unknown cut
      type then falls back to the rough defaults); with a row, roughing takes the maximum
      feed and depth scaled up by the material factor and the maximum speed scaled down,
      the speed kept at or above the row minimum and the depth capped at a quarter of
      the start diameter; finishing takes the minimum feed and the maximum speed scaled
      by the factor, and the minimum depth but at least 0.1 mm. */
  function PhaseFor(row: Option<ParamRow>, rating: real, startDia: real, cutType: string): (r: Result<PhaseParams, Error>)
    ensures row.None? ==> r == Ok(if cutType == "finish" then FinishDefaults else RoughDefaults)
    ensures row.Some? && cutType != "rough" && cutType != "finish" ==>
      r == Err(ValueError(InvalidCutType(cutType)))
    ensures row.Some? && cutType == "rough" ==> (r.Err? <==> MaterialFactor(rating) == 0.0)
    ensures row.Some? && cutType == "rough" && r.Ok? ==>
      var p, slowed := row.value, row.value.speedMax * (0.8 / MaterialFactor(rating));
      && r.value.speed >= p.speedMin && r.value.speed >= slowed
      && (r.value.speed == p.speedMin || r.value.speed == slowed)
    ensures row.Some? && cutType == "rough" && r.Ok? ==>
      var deep := row.value.docMax * MaterialFactor(rating);
      && r.value.doc <= deep && r.value.doc <= startDia / 4.0
      && (r.value.doc == deep || r.value.doc == startDia / 4.0)
    ensures row.Some? && cutType == "finish" ==>
      && r.Ok? && r.value.doc >= 0.1 && r.value.doc >= row.value.docMin
      && (r.value.doc == 0.1 || r.value.doc == row.value.docMin)
    ensures row.Some? && cutType == "finish" ==> r.value.speed == row.value.speedMax * MaterialFactor(rating)
    ensures row.Some? && cutType == "rough" && r.Ok? ==> r.value.feed == row.value.feedMax * MaterialFactor(rating)
    ensures row.Some? && cutType == "finish" ==> r.value.feed == row.value.feedMin * MaterialFactor(rating)
  {
    match row
    case None => Ok(if cutType == "finish" then FinishDefaults else RoughDefaults)
    case Some(p) =>
      var factor := MaterialFactor(rating);
      if cutType == "rough" then
        if factor == 0.0 then Err(ZeroDivisionError)
        else
          Ok(PhaseParams(p.feedMax * factor,
                         Max(p.speedMin, p.speedMax * (0.8 / factor)),
                         Min(p.docMax * factor, startDia / 4.0)))
      else if cutType == "finish" then
        assert "finish"[0] != "rough"[0];
        Ok(PhaseParams(p.feedMin * factor, p.speedMax * factor, Max(p.docMin, 0.1)))
      else
        Err(ValueError(InvalidCutType(cutType)))
  }

  /** For ratings in [0, 1] each phase feeds within 80%..120% of the row feed it
      starts from (the maximum for roughing, the minimum for finishing). */
  lemma PhaseFeedRange(p: ParamRow, rating: real, startDia: real, cutType: string)
    requires 0.0 <= rating <= 1.0 && (cutType == "rough" || cutType == "finish")
    ensures var r := PhaseFor(Some(p), rating, startDia, cutType);
      var peak := if cutType == "rough" then p.feedMax else p.feedMin;
      r.Ok? && (peak >= 0.0 ==> 0.8 * peak <= r.value.feed <= 1.2 * peak)
  {
    MaterialFactorRange(rating, rating);
    ScaleRange(if cutType == "rough" then p.feedMax else p.feedMin, MaterialFactor(rating));
  }

  lemma ScaleRange(x: real, f: real)
    ensures x >= 0.0 && 0.8 <= f <= 1.2 ==> 0.8 * x <= x * f <= 1.2 * x
  {
    if x >= 0.0 && 0.8 <= f <= 1.2 {
      MulMonotone(0.8, f, x);
      MulMonotone(f, 1.2, x);
      assert f * x == x * f;
    }
  }

  /** With a well-formed row and a non-negative factor, the rough feed is never below
      the finish feed. */
  lemma RoughFeedsHarder(p: ParamRow, rating: real, startDia: real)
    requires p.feedMin <= p.feedMax && MaterialFactor(rating) > 0.0
    ensures PhaseFor(Some(p), rating, startDia, "rough").value.feed
         >= PhaseFor(Some(p), rating, startDia, "finish").value.feed
  {
    MulMonotone(p.feedMin, p.feedMax, MaterialFactor(rating));
  }

  /** `_calculate_cutting_time`: (0, 0) for a degenerate request; otherwise the pass count
      for the stock and the time of that many passes over the length plus approach and
      overrun. */
  function CuttingTime(length: real, feed: real, rpm: real, depth: real, totalDepth: real): (r: (real, int))
    ensures depth <= 0.0 || totalDepth <= 0.0 || feed <= 0.0 || rpm <= 0.0 <==> r == (0.0, 0)
    ensures r.1 >= 1 ==> r.1 == PassCount(totalDepth, depth) && totalDepth / r.1 as real <= depth
    ensures r.1 >= 1 ==> r.0 * (feed * rpm) == r.1 as real * (length + TurnApproach + TurnOverrun)
    ensures length + TurnApproach + TurnOverrun >= 0.0 ==> r.0 >= 0.0
  {
    if depth <= 0.0 || totalDepth <= 0.0 || feed <= 0.0 || rpm <= 0.0 then (0.0, 0)
    else
      var passes := PassCount(totalDepth, depth);
      PassPlan(totalDepth, depth);
      var rate := feed * rpm;
      (PassesAt(length + TurnApproach + TurnOverrun, rate, passes), passes)
  }

  /** The time plan once the phase parameters are known: rough passes over the stock
      above the finishing allowance, one finishing pass, the safety factor, the cost. */
  function Plan(s: TurningDims, rough: PhaseParams, finish: PhaseParams, rating: real): (e: TurningEstimate)
    requires ValidDims(s) && rough.doc != 0.0
    ensures e.rough == rough && e.finish == finish
    ensures e.totalDepth == (s.startDia - s.endDia) / 2.0 > 0.0
    ensures e.roughDepth >= 0.0 && e.roughDepth >= e.totalDepth - finish.doc
    ensures e.roughDepth > 0.0 ==> e.roughDepth + finish.doc == e.totalDepth
    ensures RoughSplit(e)
    ensures Timed(e, s.length)
    ensures Warned(e, rating)
  {
    var totalDepth := (s.startDia - s.endDia) / 2.0;
    var roughDepth := Max(0.0, totalDepth - finish.doc);
    var roughPasses := PassCount(roughDepth, rough.doc);
    var actualDoc := roughDepth / roughPasses as real;
    RoughSplitHolds(roughDepth, rough.doc);
    Assemble(s, rough, finish, rating, totalDepth, roughDepth, roughPasses, actualDoc)
  }

  /** The pass split `Plan` uses satisfies `RoughSplit` for any non-zero depth of cut. */
  lemma {:induction false} RoughSplitHolds(roughDepth: real, doc: real)
    requires roughDepth >= 0.0 && doc != 0.0
    ensures var n := PassCount(roughDepth, doc);
      && n >= 1 && (roughDepth / n as real) * n as real == roughDepth
      && (doc > 0.0 ==> roughDepth / n as real <= doc && (n > 1 ==> (n - 1) as real * doc < roughDepth))
  {
    QuotientTimes(roughDepth, PassCount(roughDepth, doc) as real);
    if doc > 0.0 {
      PassPlan(roughDepth, doc);
    }
  }

  /** The rough passes split the rough stock equally; with a positive rough depth of
      cut none is deeper than it and one pass fewer would not remove the stock. */
  predicate RoughSplit(e: TurningEstimate)
  {
    && e.roughPasses >= 1 && e.roughDocPerPass * e.roughPasses as real == e.roughDepth
    && (e.rough.doc > 0.0 ==>
          && e.roughDocPerPass <= e.rough.doc
          && (e.roughPasses > 1 ==> (e.roughPasses - 1) as real * e.rough.doc < e.roughDepth))
  }

  /** Every rough pass and the single finish pass cover the length plus approach and
      overrun at feed times speed (no time at a rate that is not positive); the total
      carries the safety factor and is charged at the machine-hour rate; nothing is
      negative. */
  predicate Timed(e: TurningEstimate, length: real)
  {
    && e.roughFeedRate == e.rough.feed * e.rough.speed
    && e.finishFeedRate == e.finish.feed * e.finish.speed
    && (e.roughFeedRate > 0.0 ==>
          e.roughTime * e.roughFeedRate == e.roughPasses as real * (length + TurnApproach + TurnOverrun))
    && (e.finishFeedRate > 0.0 ==> e.finishTime * e.finishFeedRate == length + TurnApproach + TurnOverrun)
    && (e.roughFeedRate <= 0.0 ==> e.roughTime == 0.0)
    && (e.finishFeedRate <= 0.0 ==> e.finishTime == 0.0)
    && e.totalTime == (e.roughTime + e.finishTime) * SafetyFactor
    && e.cost == e.totalTime / 60.0 * MachineHourRate
    && e.roughTime >= 0.0 && e.finishTime >= 0.0 && e.totalTime >= 0.0 && e.cost >= 0.0
  }

  /** The warnings come in source order, each exactly when its threshold is crossed. */
  predicate Warned(e: TurningEstimate, rating: real)
  {
    WarnedFor(e.warnings, e.roughPasses, e.roughFeedRate, e.finishFeedRate, rating)
  }

  predicate WarnedFor(ws: seq<Warning>, roughPasses: int, roughRate: real, finishRate: real, rating: real)
  {
    && Ordered(ws)
    && (ManyRoughPasses in ws <==> roughPasses > 3)
    && (HighRoughFeedRate in ws <==> roughRate > 1000.0)
    && (HighFinishFeedRate in ws <==> finishRate > 800.0)
    && (LowMachinability in ws <==> rating < 0.4)
    && (forall w :: w in ws ==> w in {ManyRoughPasses, HighRoughFeedRate, HighFinishFeedRate, LowMachinability})
  }

  /** The turning warnings, in the order the source raises them. */
  function TurnWarnings(roughPasses: int, roughRate: real, finishRate: real, rating: real): (ws: seq<Warning>)
    ensures WarnedFor(ws, roughPasses, roughRate, finishRate, rating)
  {
    var checks := [(roughPasses > 3, ManyRoughPasses),
                   (roughRate > 1000.0, HighRoughFeedRate),
                   (finishRate > 800.0, HighFinishFeedRate),
                   (rating < 0.4, LowMachinability)];
    EmitSpec(checks);
    Emit(checks)
  }

  /** Time for `passes` passes over `distance` at `rate`, nothing at a rate that is not
      positive. */
  function PhaseTime(distance: real, rate: real, passes: int): (t: real)
    requires distance >= 0.0 && passes >= 0
    ensures rate > 0.0 ==> t * rate == passes as real * distance
    ensures rate <= 0.0 ==> t == 0.0
    ensures t >= 0.0
  {
    if rate > 0.0 then PassesAt(distance, rate, passes) else 0.0
  }

  /** The estimate for a fixed rough pass split: times, total, cost and warnings. */
  function Assemble(s: TurningDims, rough: PhaseParams, finish: PhaseParams, rating: real,
                 totalDepth: real, roughDepth: real, roughPasses: int, actualDoc: real): (e: TurningEstimate)
    requires s.length > 0.0 && roughPasses >= 1
    ensures e.totalDepth == totalDepth && e.roughDepth == roughDepth
    ensures e.roughPasses == roughPasses && e.roughDocPerPass == actualDoc
    ensures e.rough == rough && e.finish == finish
    ensures Timed(e, s.length)
    ensures Warned(e, rating)
  {
    var cuttingLength := s.length + TurnApproach + TurnOverrun;
    var roughRate := rough.feed * rough.speed;
    var roughTime := PhaseTime(cuttingLength, roughRate, roughPasses);
    var finishRate := finish.feed * finish.speed;
    var finishTime := PhaseTime(cuttingLength, finishRate, 1);
    var totalTime := (roughTime + finishTime) * SafetyFactor;
    TurningEstimate(totalDepth, rough, roughDepth, roughPasses, actualDoc, roughRate, roughTime,
                    finish, finishRate, finishTime, totalTime, totalTime / 60.0 * MachineHourRate,
                    TurnWarnings(roughPasses, roughRate, finishRate, rating))
  }

  function Calculate(s: TurningDims, row: Option<ParamRow>, rating: real): (r: Report<TurningEstimate>)
    ensures !(s.startDia > 0.0 && s.endDia > 0.0 && s.length > 0.0) ==>
      r == Failed(ValueError(TurningDimsNotPositive))
    ensures s.startDia > 0.0 && s.endDia > 0.0 && s.length > 0.0 && s.startDia <= s.endDia ==>
      r == Failed(ValueError(NoDepthToRemove))
    ensures r.Failed? <==>
      !ValidDims(s) || (row.Some? && (MaterialFactor(rating) == 0.0 || row.value.docMax == 0.0))
    ensures r.Done? ==>
      && r.value.rough == PhaseFor(row, rating, s.startDia, "rough").value
      && r.value.finish == PhaseFor(row, rating, s.startDia, "finish").value
      && r.value == Plan(s, r.value.rough, r.value.finish, rating)
  {
    if s.startDia <= 0.0 || s.endDia <= 0.0 || s.length <= 0.0 then
      Failed(ValueError(TurningDimsNotPositive))
    else if (s.startDia - s.endDia) / 2.0 <= 0.0 then
      Failed(ValueError(NoDepthToRemove))
    else
      match PhaseFor(row, rating, s.startDia, "rough")
      case Err(e) => Failed(e)
      case Ok(rough) =>
        match PhaseFor(row, rating, s.startDia, "finish")
        case Err(e) => Failed(e)
        case Ok(finish) =>
          if rough.doc == 0.0 then Failed(ZeroDivisionError)
          else Done(Plan(s, rough, finish, rating))
  }

  /** Worked example: a 50 mm bar turned to 46 mm over 100 mm with rough
      {0.18 mm/rev, 170 RPM, 2 mm} and finish {0.12 mm/rev, 285 RPM, 0.1 mm} leaves
      1.9 mm of rough stock, taken in a single pass, with no pass-count warning. */
  lemma WorkedExample()
    ensures var e := Plan(TurningDims(50.0, 46.0, 100.0, 0.0, 0.0),
                          PhaseParams(0.18, 170.0, 2.0), PhaseParams(0.12, 285.0, 0.1), 0.9);
      && e.totalDepth == 2.0 && e.roughDepth == 1.9 && e.roughPasses == 1
      && e.totalTime > 0.0 && ManyRoughPasses !in e.warnings
  {
    var e := Plan(TurningDims(50.0, 46.0, 100.0, 0.0, 0.0),
                  PhaseParams(0.18, 170.0, 2.0), PhaseParams(0.12, 285.0, 0.1), 0.9);
    assert e.roughDepth == 1.9;
    assert 1.9 / 2.0 <= 1.0;
  }
}

=== FILE: warnings.dfy ===
/** Advisory warnings. Every operation appends its warnings in one fixed order; here
    each warning kind gets a rank, and an operation's list is ordered by rank. */
module Warnings {

  datatype Warning =
    | ManyRoughPasses        // more than three roughing passes
    | MultipleRoughPasses    // more than one roughing pass (facing)
    | HighRoughFeedRate      // rough feed x speed above 1000 mm/min
    | HighFinishFeedRate     // finish feed x speed above 800 mm/min
    | LowMachinability       // machinability rating below 0.4
    | SmallRoughDoc          // roughing depth per pass below 0.1 mm (boring)
    | HighDrillFeedRate      // drilling feed x speed above 1000 mm/min
    | MultiplePecks          // more than one peck
    | SmallDrillFeed         // drill below 3 mm with feed above 0.1 mm/rev
    | FeedNotPitch           // thread feed differs from the pitch
    | HighThreadSpeed        // threading spindle speed above 800 RPM
    | HighKnurlSpeed         // knurling rough speed above 200 RPM
    | HighKnurlFeed          // knurling rough feed above 0.5 mm/rev
    | NarrowGroove           // groove narrower than 1 mm
    | SmallPartingDiameter   // parting diameter below 5 mm
    | SmallReamer            // reamer diameter below 3 mm
    | RpmAboveMax            // limit check: RPM above the row's maximum
    | FeedAboveMax           // limit check: feed above the row's maximum
    | DepthAboveMax          // limit check: depth of cut above the row's maximum
    | AllWithinLimits        // limit check: nothing exceeded

  /** Position of a warning kind in the global emission order. */
  function Rank(w: Warning): nat
  {
    match w
    case ManyRoughPasses => 0
    case MultipleRoughPasses => 1
    case HighRoughFeedRate => 2
    case HighFinishFeedRate => 3
    case LowMachinability => 4
    case SmallRoughDoc => 5
    case HighDrillFeedRate => 6
    case MultiplePecks => 7
    case SmallDrillFeed => 8
    case FeedNotPitch => 9
    case HighThreadSpeed => 10
    case HighKnurlSpeed => 11
    case HighKnurlFeed => 12
    case NarrowGroove => 13
    case SmallPartingDiameter => 14
    case SmallReamer => 15
    case RpmAboveMax => 16
    case FeedAboveMax => 17
    case DepthAboveMax => 18
    case AllWithinLimits => 19
  }

  /** Strictly increasing rank: the fixed order, and no warning twice. */
  predicate Ordered(ws: seq<Warning>)
  {
    forall i, j :: 0 <= i < j < |ws| ==> Rank(ws[i]) < Rank(ws[j])
  }

  /** A checklist of (condition, warning) pairs in emission order. */
  predicate RanksIncrease(checks: seq<(bool, Warning)>)
  {
    forall i, j :: 0 <= i < j < |checks| ==> Rank(checks[i].1) < Rank(checks[j].1)
  }

  /** The warnings whose conditions hold, in checklist order: the source's chain of
      `if cond: warnings.append(...)` statements. */
  function Emit(checks: seq<(bool, Warning)>): seq<Warning>
  {
    if checks == [] then []
    else (if checks[0].0 then [checks[0].1] else []) + Emit(checks[1..])
  }

  /** Emitting a rank-ordered checklist gives an ordered list that holds exactly the
      warnings whose conditions are true. */
  lemma {:induction false} EmitSpec(checks: seq<(bool, Warning)>)
    requires RanksIncrease(checks)
    ensures Ordered(Emit(checks))
    ensures forall w :: w in Emit(checks) <==> (true, w) in checks
    ensures forall i :: 0 <= i < |checks| ==> (checks[i].1 in Emit(checks) <==> checks[i].0)
  {
    if checks != [] {
      var rest := checks[1..];
      assert RanksIncrease(rest) by {
        forall i, j | 0 <= i < j < |rest|
          ensures Rank(rest[i].1) < Rank(rest[j].1)
        {
          assert rest[i] == checks[i + 1] && rest[j] == checks[j + 1];
        }
      }
      EmitSpec(rest);
      forall w | w in Emit(rest)
        ensures Rank(checks[0].1) < Rank(w)
      {
        var k :| 0 <= k < |rest| && rest[k] == (true, w);
        assert checks[k + 1] == rest[k];
      }
      forall w
        ensures (true, w) in checks <==> (checks[0] == (true, w) || (true, w) in rest)
      {
        assert checks == [checks[0]] + rest;
      }
    }
  }
}

=== FILE: wrappers.dfy ===
/** Failure-compatible wrappers shared by every operation model. */
module Wrappers {

  /** A value that may be absent: a missing dictionary key, a NULL column, no database row. */
  datatype Option<+T> = None | Some(value: T) {

    /** The value, or `default` when absent (Python's `d.get(k, default)` shape). */
    function GetOr(default: T): T
    {
      match this
      case Some(v) => v
      case None => default
    }
  }

  /** The outcome of a step that may raise: `Err` carries the exception that escapes it. */
  datatype Result<+T, +E> = Ok(value: T) | Err(error: E) {

    predicate IsFailure()
    {
      Err?
    }

    function PropagateFailure<U>(): Result<U, E>
      requires Err?
    {
      Err(error)
    }

    function Extract(): T
      requires Ok?
    {
      value
    }
  }
}
